=== FILE: README.md ===
# Meta-selection core of ADGym-auto, in Dafny

This project models the discrete logic around the meta-learner of ADGym-auto, an anomaly-detection benchmark that learns to pick a detection-pipeline configuration for an unseen dataset. File loading, neural training, scaling and the detectors themselves are opaque. The pieces it models are:

- **Component encoder** (`meta.components_process`):
  - keeps the configuration slots whose non-null values, rendered by `str`, take at least two texts;
  - replaces null with `"None"`;
  - label-encodes each kept column, with strings in code-point order and numbers by value. A column that mixes the two cannot be sorted and fails.
- **Training-set assembly** (`meta.meta_fit`, `meta.meta_fit_end2end`, up to training): for each labelled-anomaly count in 5, 10, 25, 50:
  - drop the held-out dataset's column;
  - re-encode the configurations;
  - emit one example per non-missing cell, or one batch per dataset column.
- **Leakage-guarded selector** (`meta.meta_predict` and its end-to-end twin): walk the configuration rows by descending predicted score and return the first ground-truth cell of the target dataset that is not missing.
- **Comparison driver** (`run` in `meta.py`):
  - the AUCROC pass, then the AUCPR pass, with the classifier in hand carried from the first to the second;
  - the "rs" baseline (random draws of training positions, read as test rows), the "ss" baseline (same walk, ordered by the training split) and the "gt" baseline (column maximum);
  - the retrain cache, which refits only on a pass's first row or when the test dataset changes;
  - the -1 sentinel recorded on failure;
  - the mode check.
- **Benchmark harness** (`RunPipeline` in `test_SOTA.py`):
  - the detector registry of each family, minus five expensive detectors;
  - dataset eligibility and the size ordering;
  - the dataset × setting × seed parameter product;
  - the unsupervised skip rule;
  - the filling of the four result sheets.

## Representation

- A results table is a `Tables.Frame`:
  - the parsed configuration labels of the `Components` column, one per row;
  - one `Column(name, cells)` per dataset.
- A cell is `Option<real>`; `None` is the NaN marker.
- A configuration value is a `Tables.Literal`: a string, a number (its value and its `str` text), or a bool. A null slot is `None`.
- The label encoder sees a `Components.Class`. A string and a null (as `"None"`) are words. A number is its value, and a bool is 0 or 1, so `1` and `1.0` share a class. A kept column that holds both a word and a number makes the encoder's sort raise `TypeError`; that is the error `UnsortableSlot`.
- The label column is kept apart from the dataset columns, so it is never read as a dataset.
- Argsort (numpy and torch) is specified by `Ranking.IsArgsort`: a permutation of the rows, keys ascending, NaN last, ties in any order. Every property of a walk is proved for any such order. `Ranking.Argsort` is one concrete instance.
- The meta-predictor is a score vector, one score per configuration row.
- In the harness (`Pipeline`), the data generator is a function `gen` from (dataset, seed) to sizes, plus a predicate `genOk` for whether generation raises.
- In the end-to-end assembly (`TrainingSet`), the predicate `genOk` of `TrainingSet.CountBatches` says for which (dataset, count) the generator returns at the classifier's fixed seed. The generated data itself is not modelled.
- A detector run is a function to `Scored(...)` or `Failed`.
- In the comparison driver:
  - whether fitting raises is the predicate `fitOk`;
  - what prediction returns or raises is the function `predict`;
  - the random draws of the "rs" baseline are the function `draw` of `Selection.RandomSearch`, and `draws(i)` for row `i` of a `Comparison.Pass`. `draw(k)` stands for the value `np.random.choice` returns on iteration `k`, reduced modulo the number of training rows, so every run of in-range draws is one of these.
- The module layout follows the program:
  - `Tables`: shared types;
  - `Ranking`: argsort;
  - `Components`: the encoder;
  - `TrainingSet`: the assembly;
  - `Selection`: the walk and its baselines;
  - `Comparison`: `run` in `meta.py`;
  - `Pipeline`: `test_SOTA.py`.

An unknown mode string raises `NotImplementedError` inside the `try` block (meta.py:370-371). That is caught and recorded as -1 for row 0. Only the second raise, at the table write (meta.py:380-385), aborts the run. `Comparison.Run` models that order.

## Model

| member | source | states |
|---|---|---|
| Tables.DropColumn | metaclassifier/meta.py:113-115 | Dropping an absent dataset column fails with MissingColumn. Otherwise exactly the columns of other names survive, in their original order, and no column of that name is left. |
| Tables.Lookup | metaclassifier/meta.py:197 | Reading a dataset column gives that column's cells, and fails with MissingColumn when the table has no such column. |
| Ranking.Argsort | metaclassifier/meta.py:196 | The ranking is a permutation of the row positions with keys ascending and missing keys last. |
| Ranking.ArgsortCoversRows | metaclassifier/meta.py:330 | Any admissible argsort lists every row, and only rows. |
| Ranking.ArgsortDistinct | test_SOTA.py:143 | Any admissible argsort lists no row twice. |
| Ranking.Negate | metaclassifier/meta.py:330 | Negation flips every present key and leaves NaN missing. |
| Components.FirstMissing | metaclassifier/meta.py:76-77 | Gives the first slot of row 0, in key order, that some configuration lacks (the KeyError of `_[k]` while collecting the options), or none when every configuration has every slot of row 0. |
| Components.Encode | metaclassifier/meta.py:68-97 | An empty table fails, with no row 0. It fails with MissingSlot iff a configuration lacks one of row 0's slots, naming such a slot. When every slot is present, it succeeds iff every kept slot is sortable, and otherwise fails naming a kept slot that mixes words and numbers. On success: one code row per configuration; the kept slots are exactly the varying slots, in row 0's key order, each once; each code is the label-encoder code of the cell's class. |
| Components.VariesIffTwoValues | metaclassifier/meta.py:76-82 | A slot is kept iff two configurations give it two non-null values with different `str` texts, so an all-null slot, or a single text mixed with nulls, is dropped. |
| Components.EncodeKeepsVarying | metaclassifier/meta.py:79-82 | Every kept slot is present in every configuration, and a kept slot of strings has at least two classes. |
| Components.CodeOrder | metaclassifier/meta.py:94-95 | Between two classes of the same kind (both strings or both numbers), the label-encoder codes are equal iff the classes are equal, and the code is smaller iff the class sorts first. |
| Components.EncodeCodes | metaclassifier/meta.py:89-95 | Within a kept column, two rows share a code iff their classes are equal (numbers by value, a bool as 0 or 1, null as "None"). Codes are ordered like the classes and lie in [0, classes - 1]. |
| Components.ConstantSlotDropped | metaclassifier/meta.py:79-80 | A slot that is "relu" everywhere is dropped. |
| Components.OneSlotDropped | metaclassifier/meta.py:76-82 | A slot whose non-null values all render to one text is dropped, whatever the nulls. |
| Components.VaryingSlotKept | metaclassifier/meta.py:76-95 | A slot taking "relu", "tanh", "relu" is kept, and rows 0 and 2 share a code that row 1 does not have. |
| Components.NumbersSortNumerically | metaclassifier/meta.py:76-95 | In a slot holding only numbers, two rows with different texts keep the slot, and one row's code is below the other's iff its number is smaller, so 9 sorts before 10. |
| Components.TextSortsByCodePoint | metaclassifier/meta.py:76-95 | In a slot holding only strings, two rows with different strings keep the slot, and one row's code is below the other's iff its string is first in code-point order. |
| Components.IntAndFloatShareCode | metaclassifier/meta.py:76-95 | The values 1 and 1.0 keep the slot, since their texts differ, yet get the same code. |
| Components.NullInNumericSlotFails | metaclassifier/meta.py:76-95 | A numeric slot with a null (1, None, 2) is kept but cannot be encoded: the slot is reported as unsortable. |
| Components.OneSlotKept | metaclassifier/meta.py:76-95 | A single slot with two different texts whose values are all strings, or all numbers, is kept and encoded. |
| Components.OneSlotUnsortable | metaclassifier/meta.py:76-95 | A single slot with two different texts that holds both a word and a number fails as unsortable. |
| Components.OneSlotCodes | metaclassifier/meta.py:89-95 | In a kept single slot, two rows share a code iff their classes are equal. |
| Components.OneSlotOrder | metaclassifier/meta.py:89-95 | In a kept single slot, one row's code is below another's iff its class sorts first. |
| TrainingSet.RowExamples | metaclassifier/meta.py:121-132 | A row's examples are exactly those of its non-missing cells outside the held-out column, each carrying the dataset, count, row codes and cell value. |
| TrainingSet.TableExamples | metaclassifier/meta.py:120-132 | A table's examples are exactly the examples of its emitting (row, column) cells. |
| TrainingSet.TableExamplesCount | metaclassifier/meta.py:120-132 | There is exactly one example per non-missing cell outside the held-out column; the row-wise count equals the column-wise count. |
| TrainingSet.CellsCountDrop | metaclassifier/meta.py:114-122 | Dropping the held-out column leaves the count of emitting cells unchanged, so the redundant guard of line 122 removes nothing further. |
| TrainingSet.CountExamples | metaclassifier/meta.py:109-132 | One count's contribution fails iff the held-out column is absent or the encoding fails. No example is from the held-out dataset, every example carries the count, and there is one example per emitting cell. Every example's codes have one entry per slot that count's encoding keeps. |
| TrainingSet.CountExamplesComplete | metaclassifier/meta.py:120-132 | Every non-missing cell outside the held-out column yields its example under that count's encoding. |
| TrainingSet.Assemble | metaclassifier/meta.py:108-132 | Assembly over the counts succeeds iff every count's contribution does. The pool size is the total of emitting cells, and the encoding kept is the last count's. |
| TrainingSet.AssembleMembers | metaclassifier/meta.py:108-132 | The pool holds exactly the examples of the counts it was built from. |
| TrainingSet.PoolWidths | metaclassifier/meta.py:108-137 | The pooled examples all have codes of one length iff every two counts whose tables have an emitting cell keep equally many slots. A count with no emitting cell adds no row to the stack, so its width does not matter. |
| TrainingSet.Stack | metaclassifier/meta.py:136-155 | Zero examples fail with EmptyTrainingSet (`np.stack` of nothing). Examples whose codes differ in length fail with RaggedComponents (`np.stack` of unequal rows). A single example fails with SingleExample, since `squeeze` makes its counts a 0-d tensor that `TensorDataset` rejects. Otherwise the pool is kept unchanged. |
| TrainingSet.RaggedPoolFails | metaclassifier/meta.py:136-137 | An example of count 5 with one code and one of count 10 with none cannot be stacked: RaggedComponents. |
| TrainingSet.MetaFit | metaclassifier/meta.py:102-155 | When every count's contribution succeeds, assembly succeeds iff at least two cells emit and the emitting counts keep equally many slots. It fails with EmptyTrainingSet when no cell emits, with RaggedComponents when those widths differ, and with SingleExample when exactly one cell emits. A table lacking the held-out column aborts. On success: the examples have codes of one length; the pool has one example per emitting cell; no example is from the held-out dataset; every count is one of 5, 10, 25, 50; the encoding kept is the last table's. |
| TrainingSet.MetaFitOneExamplePerCell | metaclassifier/meta.py:108-132 | Each present cell (count, row, dataset column other than the held-out one) is in the pool with its count, row codes and value, and the pool has exactly as many examples as such cells. |
| TrainingSet.ColumnBatch | metaclassifier/meta.py:227-235 | A column's batch entries all carry that column's index (Components being position 0), its name and the count. The batch has exactly as many entries as the column has non-missing cells, so it is empty iff every cell is missing. |
| TrainingSet.ColumnBatchEntries | metaclassifier/meta.py:228-235 | An entry is in a column's batch iff some non-missing cell of the column yields it, with that row's codes and value. With TrainingSet.ColumnBatch's count, the batch has one entry per such cell. |
| TrainingSet.Batches | metaclassifier/meta.py:221-237 | Each batch is non-empty and uniform in dataset and count, and batches come in strictly increasing column order. |
| TrainingSet.BatchesComplete | metaclassifier/meta.py:236-237 | A column's batch is appended iff the column has a non-missing cell. |
| TrainingSet.FirstUngenerated | metaclassifier/meta.py:221-225 | Names the first column, in table order, for which the data generator raises at this count, with every earlier column generated; there is none iff the generator returns for every column. |
| TrainingSet.CountBatches | metaclassifier/meta.py:209-237 | A table lacking the held-out column fails with MissingColumn. On success, the encoding is the table's, and every batch is uniform for the count and outside the held-out dataset. |
| TrainingSet.CountBatchesErrors | metaclassifier/meta.py:213-225 | With the held-out column present, one count's batching fails iff the encoding fails or the generator raises for some other dataset column, including one with no present cell. An encoding failure is reported as such. Otherwise the failure names a dataset column, not the held-out one, for which the generator raises. |
| TrainingSet.CountBatchesComplete | metaclassifier/meta.py:221-237 | Every dataset column other than the held-out one that has a non-missing cell gets a batch. |
| TrainingSet.End2EndAsWritten | metaclassifier/meta.py:208-250 | As written, the end-to-end assembly returns inside the loop. It fails when the first table lacks the held-out column, and otherwise carries only the first table's batches and encoding. |
| TrainingSet.End2EndIgnoresLaterCounts | metaclassifier/meta.py:208-250 | However many cells the later tables hold, no as-written batch carries the count 10, 25 or 50. |
| TrainingSet.End2EndBatches | metaclassifier/meta.py:208-237 | The corrected assembly succeeds iff every count's batching does, generator included, and keeps the last count's encoding. |
| TrainingSet.End2EndMembers | metaclassifier/meta.py:208-237 | The corrected pool holds exactly the batches of the counts. |
| TrainingSet.End2EndBatchShape | metaclassifier/meta.py:213-237 | A table lacking the held-out column makes the corrected assembly fail. Every batch is non-empty, outside the held-out dataset, and uniform for one of the counts. |
| TrainingSet.End2EndBatchesCoverAllCounts | metaclassifier/meta.py:208-237 | In the corrected assembly, every count contributes: each column outside the held-out one with a present cell in any count's table gets a batch carrying that count. |
| Selection.FirstLegal | metaclassifier/meta.py:196-199 | The walk stops at the first ranked row whose truth cell is present, having skipped only missing cells, and finds nothing iff every ranked cell is missing. |
| Selection.WalkPicksMinimal | metaclassifier/meta.py:330-334 | Over any argsort, the pick is minimal in key order among the rows with a present truth cell, and there is no pick iff every truth cell is missing. |
| Selection.MinimalIsBest | metaclassifier/meta.py:196 | Ascending order of negated scores picks the row of highest score. |
| Selection.MetaPredict | metaclassifier/meta.py:196-201 | The selector fails with MissingColumn iff the table lacks the dataset, and with NoLegalPick iff the column exists and every cell is missing. Otherwise it returns the present truth cell of a row that no present row outscores, so the score chooses the row and never the value. |
| Selection.TiedPicksScoreAlike | metaclassifier/meta.py:271-274 | Whatever tie order the library's argsort uses, the picked rows have equal scores. |
| Selection.MetaPredictAsWritten | metaclassifier/meta.py:196-201 | As written, a table with no rows never enters the loop and fails unbound (UnboundPick) without reading the column. A table with rows fails with MissingColumn iff it lacks the dataset. It never reports that no legal pick exists: on success it returns a cell of the column, possibly a missing one. |
| Selection.WalkAsWrittenAgrees | metaclassifier/meta.py:196-199 | The as-written walk returns the corrected walk's pick when there is one, and otherwise a missing cell. |
| Selection.MetaPredictAsWrittenDiffers | metaclassifier/meta.py:196-201 | The two selectors agree when a legal pick exists. When rows exist but none is legal, the as-written one returns a missing value as a success. |
| Selection.FallThroughCounterexample | metaclassifier/meta.py:196-201 | A one-row table with a missing cell makes the as-written selector return a missing value and the corrected one report NoLegalPick. |
| Selection.SkipsMissingBestScore | metaclassifier/meta.py:196-201 | Ranking C2, C1, C3 when C2's cell is missing returns C1's 0.87. |
| Selection.PicksOnlyBest | metaclassifier/meta.py:196-201 | When one present row strictly outscores every other present row, the selector returns its cell. |
| Selection.SameSplitBaseline | metaclassifier/meta.py:330-334 | The tables may differ in length, and training positions are read as test row labels. A missing dataset column in the training table, or in the test table when the training table has rows, fails with MissingColumn. When the training table is not longer than the test table, that is the only failure. Any other failure is MissingRow of a position past the test rows, and that position is the walk's first stop. On success, ss is the present test cell at the walk's first stop, or the default 0 when no position stops the walk. A stop is a position that is past the test rows or has a present test cell, and the first stop is minimal in negated training order among all stops. |
| Selection.SameSplitWalk | metaclassifier/meta.py:330-334 | Over any argsort of the training keys, the walk either raises MissingRow at its first stop, which lies past the test rows, or returns the present test cell at its first stop, or returns 0 when no position stops it. |
| Selection.StopPastTestRaises | metaclassifier/meta.py:330-331 | When the position that every other stop follows lies past the test rows, the ss baseline raises MissingRow on that position. |
| Selection.LongerTrainingRaises | metaclassifier/meta.py:330-331 | A training column of 0.5, 0.9 and a test column of 0.7 make the walk start at position 1, which the test table lacks, so the baseline raises MissingRow(1). |
| Selection.ShorterTrainingLeavesRowsUnread | metaclassifier/meta.py:330-338 | A one-row training table of 0.9 and a test column of NaN, 0.8 give ss = 0 while gt = 0.8: the walk never reads test row 1. |
| Selection.StopOnTestReads | metaclassifier/meta.py:330-334 | When the position that every other stop follows is a test row, the ss baseline is that row's present cell. |
| Selection.SameSplitReadsFirstRow | metaclassifier/meta.py:330-338 | A training column of 0.9, 0.5 and a test column of 0.7 make the walk start at position 0, so ss and gt are both 0.7. |
| Selection.RandomSearch | metaclassifier/meta.py:321-327 | The rs loop draws once per training row. With no training rows it reads nothing and keeps 0. With rows, a test table lacking the dataset fails with MissingColumn. When the training table is not longer than the test table, that is the only failure. Any other failure is MissingRow of a drawn position past the test rows, at the loop's first stopping draw. On success, rs is the present test cell at the first stopping draw, or 0 when no draw stops the loop. |
| Selection.DrawWalk | metaclassifier/meta.py:322-327 | Over the drawn positions, the loop raises MissingRow at its first stopping draw when that lies past the test rows, returns the present test cell there otherwise, and returns 0 when no draw stops it. |
| Selection.RandomSearchRaisesIff | metaclassifier/meta.py:321-327 | With training rows and the dataset's test column, the rs loop raises iff its first stopping draw lies past the test rows. |
| Selection.GroundTruthDominatesRandomSearch | metaclassifier/meta.py:321-338 | When gt is missing, rs is its default 0; a gt that is not negative bounds rs. |
| Selection.DrawPastTestRaises | metaclassifier/meta.py:321-327 | With a training column of two rows and a test column of 0.7, a first draw of position 1 raises MissingRow(1), and draws of position 0 give rs = 0.7. |
| Selection.ColumnMax | metaclassifier/meta.py:337 | The maximum is a present cell bounding every present cell, and is missing iff every cell is missing. |
| Selection.GroundTruthBaseline | metaclassifier/meta.py:337-338 | The gt baseline fails, with MissingColumn, iff the test table lacks the dataset, and is otherwise the maximum of the present test cells. |
| Selection.GroundTruthDominatesMeta | metaclassifier/meta.py:337-338 | gt exists and bounds every leakage-guarded pick. |
| Selection.GroundTruthDominatesSameSplit | metaclassifier/meta.py:330-338 | When gt is missing, ss is its default 0. When gt is present, it bounds ss if the training table is not shorter than the test table, or if gt is not negative. |
| Comparison.ParseMode | metaclassifier/meta.py:354-371 | Only "two-stage" and "end-to-end" are implemented modes. |
| Comparison.TryMeta | metaclassifier/meta.py:353-376 | A successful refit replaces the classifier in hand, and a failed one keeps it and records -1 without predicting. With no classifier in hand, -1 is recorded. Otherwise the row asks the classifier in hand and records its prediction, or -1 if it raised. |
| Comparison.TraceRecords | metaclassifier/meta.py:353-376 | Along a pass, a row that asked no classifier records -1, and one that did records that classifier's prediction (or -1 if it raised). Every classifier asked or held is the starting one or one fitted with this pass's variant and metric. |
| Comparison.LastFit | metaclassifier/meta.py:353-376 | Finds the last row, among the first m, whose as-written refit runs and succeeds: no later row of those refits successfully, and none is found iff no row does. |
| Comparison.AsWrittenHeld | metaclassifier/meta.py:353-387 | As written, the classifier in hand after a pass's rows is the one fitted at the last successful refit, or the one the pass started with when there was none. |
| Comparison.AsWrittenCache | metaclassifier/meta.py:353-387 | As written, row i asks nothing when its own refit fails, and otherwise the classifier of the last successful refit up to row i, or the starting one. So after a failed refit, the rows of the same dataset ask an older classifier. |
| Comparison.PoliciesAgreeWhenFitsSucceed | metaclassifier/meta.py:356-365 | When no fit fails and the pass starts with no classifier or one of another metric (as both passes of `run` do), refitting on "first row or dataset change" behaves exactly like the corrected cache. The classifier in hand after a row was fitted for that row's dataset and this metric. |
| Comparison.StaleClassifierCounterexample | metaclassifier/meta.py:353-376 | Take rows A, B, B, where fitting for B fails. As written, row 2 asks A's classifier, so a prediction about A is recorded for B. |
| Comparison.StaleAcrossMetricsCounterexample | metaclassifier/meta.py:295-387 | The AUCPR pass starts holding the AUCROC pass's classifier for dataset Z. If its first two rows are dataset A and fitting for A fails, row 0 records -1 and row 1 asks the AUCROC classifier for Z. |
| Comparison.CorrectedNeverStale | metaclassifier/meta.py:356-365 | With the cache keyed by the cached classifier's dataset and metric, every prediction of a row is about that row's dataset and this pass's metric, whatever classifier the pass starts with. |
| Comparison.Baselines | metaclassifier/meta.py:315-338 | A missing count fails with MissingTable. With tables, the rs loop runs first and its failure is the error. The baselines succeed iff the rs and ss baselines do and the test table has the dataset, so with a longer training table the outcome depends on the draws. When the training table is not longer than the test table, they succeed iff both tables have the dataset. A failure with tables is MissingColumn, or MissingRow of a position past the test rows when both columns exist. On success: rs and ss are those baselines; gt is the test column's maximum; gt bounds rs when it is not negative, and ss when the training table is not shorter or gt is not negative; rs and ss are 0 when gt is missing. |
| Comparison.RandomDrawCanAbort | metaclassifier/meta.py:321-338 | A training column of 0.9, 0.5 and a test column of 0.7, with a first rs draw of position 1: the run's baselines raise MissingRow(1), although ss and gt alone would succeed. |
| Comparison.RandomDrawCanPass | metaclassifier/meta.py:321-338 | The same tables with every draw at position 0: rs, ss and gt are all 0.7. |
| Comparison.Run | metaclassifier/meta.py:297-387 | One metric's pass. No tasks give no rows and hand on the starting classifier. Otherwise it succeeds iff the mode is known and every task's baselines, under that row's rs draws, exist. A row-0 baseline failure is the error. An unknown mode aborts after row 0's baselines. On success: one row per task with that task's baselines; each meta entry is that row's entry of the trace; the classifier handed on is the one in hand at the trace's end. |
| Comparison.Compare | metaclassifier/meta.py:293-387 | `run`: it succeeds iff both the AUCROC and the AUCPR pass run through, each under its own rs draws. Each pass has one row per task with its baselines. The AUCROC meta column is its trace from no classifier, and the AUCPR one is its trace from the classifier the AUCROC pass ended with. |
| Pipeline.FamilyModels | test_SOTA.py:58-101 | Only "unsupervise", "semi-supervise" and "supervise" are families, and any other name fails with UnknownFamily. |
| Pipeline.BuildRegistry | test_SOTA.py:58-106 | The pruned registry holds exactly the family's detectors that are not expensive, in registration order. |
| Pipeline.UnsupervisedRegistry | test_SOTA.py:61-106 | The pruned unsupervised registry is the fourteen listed detectors, in order. |
| Pipeline.SemiSupervisedRegistry | test_SOTA.py:73-106 | Pruning removes none of the seven semi-supervised detectors. |
| Pipeline.SupervisedRegistry | test_SOTA.py:90-106 | Pruning removes none of the ten supervised detectors. |
| Pipeline.SavedSuffix | test_SOTA.py:40 | The saved-file suffix is the suffix, an underscore, then the family. |
| Pipeline.Kept | test_SOTA.py:116-137 | A dataset is kept iff it is listed and every seed passes the size and labelled-anomaly checks of the mode; the kept datasets keep their listed order. |
| Pipeline.CheckSeeds | test_SOTA.py:117-134 | The seed loop's flag is true iff every seed passes. The size recorded is that of the last seed's data. |
| Pipeline.DatasetFilter | test_SOTA.py:109-145 | The result is a permutation of the eligible datasets, ordered by nondecreasing size of the last seed's data, with no repeats when the listing has none. |
| Pipeline.OrderBySize | test_SOTA.py:143 | Reading the kept datasets through an argsort of their sizes permutes them into nondecreasing size order. |
| Pipeline.PermutedByOrder | test_SOTA.py:143 | Reading a list through a permutation of its positions gives a permutation of the list. |
| Pipeline.LaList | test_SOTA.py:198-201 | "nla" mode uses the counts 0 to 100, and any other mode uses the ratios 0.00 to 1.00. |
| Pipeline.Product | test_SOTA.py:199 | The product has exactly (datasets × settings × seeds) triples; with Pipeline.ProductAt, one per combination. |
| Pipeline.ProductAt | test_SOTA.py:199 | Triple (a, b, c) sits at position (a * settings + b) * seeds + c, which is dataset-major order. |
| Pipeline.ProductMembers | test_SOTA.py:199-201 | The product holds exactly the triples drawn from the three lists. |
| Pipeline.Written | test_SOTA.py:184-190 | A detector's outcome writes all four sheets. A failure, and only a failure, writes NaN metrics and None durations. |
| Pipeline.SweepRow | test_SOTA.py:231-242 | A parameter row gets one entry per registered detector, in each of the four sheets. |
| Pipeline.Sweep | test_SOTA.py:211-242 | Each sheet has one row per parameter triple and one column per detector. Processed rows hold each detector's written outcome, and skipped rows stay blank. |
| Pipeline.UnsupervisedWritesOnlyZeroLa | test_SOTA.py:214-215 | An unsupervised sweep writes only rows whose setting is 0. |
| Pipeline.FailureStillRecorded | test_SOTA.py:184-190 | A failing detector on a processed row still gets NaN metrics and None durations, never a blank. |
| Pipeline.RunPipeline | test_SOTA.py:193-242 | An unknown family fails before anything runs. Otherwise: the columns are the pruned registry; the datasets are the eligible ones in size order; the rows are their product with the mode's settings and the seeds; every cell is what the sweep writes. |

## Left out

- File I/O is not modelled: CSV and `.npz` reads and writes, path construction, `os.listdir` and `os.makedirs`. Tables arrive already loaded. A count whose tables do not exist is the error `MissingTable`.
- Training and prediction are parameters: the meta-predictor, its embeddings, `fit`/`fit_end2end`, Adam, DataLoader and torch tensors. The selector receives one score per configuration row.
- Floating-point numerics are not modelled: min-max scaling and NaN-to-0 filling of meta-features. An example carries its dataset name in place of its meta-feature vector.
- The distribution of the "rs" draws is not modelled; the draws are a parameter, so every property of the rs baseline holds for every sequence of draws.
- The data generator, `Utils.metric`, the detectors, timing, `K.clear_session` and `gc` are parameters: `gen`, `genOk` and `run` in `Pipeline`, and `genOk` in `TrainingSet.CountBatches`. `gen` is assumed not to raise inside `dataset_filter`, where an exception would abort the harness.
- Only the set of configurations parsed by `ast.literal_eval` is modelled, as `Config` values. A label that fails to parse is not modelled.
- Configuration values are strings, numbers, bools or null. Lists, tuples and dictionaries as values are not modelled.
- A number is an exact real paired with its `str` text. Float rounding, the text Python prints for a float, and the int64 or float64 columns pandas builds are not modelled.
- The string `"None"` and a null both become the word "None" for the label encoder, so they share a code. The keep rule ignores the null but counts the string, and the model does the same.
- `run` in `meta.py` reads each metric's test tasks from the merged state-of-the-art tables. The tasks and the results tables of each pass are parameters (`Comparison.Pass`).
- GroundTruthDominatesSameSplit: with a training table shorter than the test table and a negative gt, ss keeps its default 0 and can exceed gt. The metrics' values are never negative, but the model's cells are arbitrary reals, so the bound is stated only under that condition.
- Selection.MetaPredict: requires one score per row of the test table. In the source the predictor scores the rows of the last count's encoded table. With fewer scores than test rows, the walk never looks at the trailing rows. With more, it raises a `KeyError` only if it reaches a row label the test table lacks before a legal pick, and `run` catches that and records -1. Neither mismatch is modelled.
- Selection.MetaPredict: a table with a single configuration makes torch's `squeeze` produce a 0-d tensor that cannot be iterated. That case is not modelled.
- Comparison.Run: an `UnboundLocalError` from a walk with no rows is not modelled. It is covered only through `predict` raising, which records -1.
- Comparison.Run: the writes of the comparison table after every row are not modelled, except that an unknown mode aborts there.
- Pipeline.RunPipeline: a `None` suffix or family (`suffix + '_' + parallel` raising) is not modelled. `SavedSuffix` takes strings.
- Pipeline.Sweep: the sheets are written to CSV after every detector; only their final contents are modelled. Pandas' chained assignment `df[name].iloc[i] = ...` is taken to write the cell.
- The two-stage meta-feature lookup by `result.columns[j]` is not modelled; the example's dataset name stands for it.
- `run_demo` calls a method that does not exist and is not modelled. Console output, plotting imports and the top-level script calls are not modelled either.

## Findings

| source | as written | input that shows it | evidently intended | confidence | as-written member | corrected member |
|---|---|---|---|---|---|---|
| metaclassifier/meta.py:196-201 | When every ranked cell of the target dataset is missing, the loop falls through and returns the last cell read, which is NaN, as the prediction. | One configuration whose cell for dataset "A" is missing, with any score. | Report that no legal configuration exists. | not executed | Selection.MetaPredictAsWritten | Selection.MetaPredict |
| metaclassifier/meta.py:353-376 | A failed refit leaves the previous dataset's classifier in `clf`. The next row of the same dataset does not refit and predicts with it; that classifier's `test_dataset` is the old dataset. | Rows A, B, B, where fitting for B raises. | Predict for a row only with a classifier fitted for that row's dataset. | not executed | Comparison.StaleClassifierCounterexample | Comparison.CorrectedNeverStale |
| metaclassifier/meta.py:295-387 | `clf` survives from the AUCROC pass into the AUCPR pass. When the first AUCPR refit raises, the next row of the same dataset does not refit and predicts with the AUCROC classifier, fitted for another dataset and another metric. | An AUCROC pass ending with dataset Z, then AUCPR rows A, A, where fitting for A raises. | Predict only with a classifier fitted for the row's dataset and the current metric. | not executed | Comparison.StaleAcrossMetricsCounterexample | Comparison.CorrectedNeverStale |
| metaclassifier/meta.py:208-250 | Model construction, fitting and `return self` are indented inside the loop over the counts, so only the count 5 is ever assembled. | Tables for the counts 10, 25 and 50 that have present cells. | Batches from all four counts. | not executed | TrainingSet.End2EndIgnoresLaterCounts | TrainingSet.End2EndBatchesCoverAllCounts |

=== FILE: comparison.dfy ===
/** The comparison driver `run` of the meta-selector: for each metric in
    turn, and for every test task (dataset, labelled-anomaly count, seed) of
    that metric's state-of-the-art table, it computes the "ss" and "gt"
    baselines from the results tables of that count, and the meta-selector's
    pick, refitting the meta-classifier only on a pass's first row or when
    the test dataset changes, and recording any failure as -1. The
    classifier in hand carries over from one metric's pass to the next. The
    fitted model and its prediction are parameters: `fitOk` says whether
    fitting a classifier raises, `predict` what `meta_predict` (or its
    end-to-end twin) returns or whether it raises. */
module Comparison {
  import opened Tables
  import opened Selection

  /** One row of the state-of-the-art table. */
  datatype Task = Task(dataset: string, la: nat, seed: nat)

  datatype Variant = TwoStage | EndToEnd

  /** The mode string; any other mode is not implemented. */
  function ParseMode(mode: string): (r: Option<Variant>)
    ensures r.None? <==> mode != "two-stage" && mode != "end-to-end"
    ensures r == Some(TwoStage) <==> mode == "two-stage"
  {
    if mode == "two-stage" then Some(TwoStage)
    else if mode == "end-to-end" then Some(EndToEnd)
    else None
  }

  /** The metrics `run` compares on, in order. */
  const Metrics: seq<string> := ["AUCROC", "AUCPR"]

  /** A fitted meta-classifier: the variant, the metric whose results tables
      it was fitted on (and whose test table it reads when predicting), the
      held-out dataset it was fitted for (the dataset its predictions are
      about) and the seed. */
  datatype Classifier = Classifier(variant: Variant, metric: string, dataset: string, seed: nat)

  /** The classifier a refit on task `t` produces. */
  function Fitted(variant: Variant, metric: string, t: Task): (c: Classifier)
    ensures c.variant == variant && c.metric == metric && c.dataset == t.dataset && c.seed == t.seed
  {
    Classifier(variant, metric, t.dataset, t.seed)
  }

  /** What a prediction call does: return a cell (possibly missing), or raise. */
  datatype Prediction = Returned(value: Cell) | Raised

  /** The value recorded when fitting or predicting fails. */
  const Sentinel: real := -1.0

  /** The meta column's entry for a prediction: its value, or the sentinel
      when it raised. */
  function RecordedFor(p: Prediction): (r: Cell)
    ensures p.Raised? ==> r == Some(Sentinel)
    ensures p.Returned? ==> r == p.value
  {
    match p
    case Raised => Some(Sentinel)
    case Returned(v) => v
  }

  /** The meta column's entry for one row, and the classifier asked to
      predict (None when the row failed before any prediction). */
  datatype MetaStep = MetaStep(recorded: Cell, asked: Option<Classifier>)

  /** The `try` block of one row: refit if told to, then
      predict with the current classifier. A failing fit leaves the previous
      classifier in place; no classifier at all is a NameError. Every
      exception records the sentinel. */
  function TryMeta(t: Task, variant: Variant, metric: string, refit: bool, clf: Option<Classifier>,
                   fitOk: Classifier -> bool, predict: (Classifier, nat) -> Prediction)
    : (r: (MetaStep, Option<Classifier>))
    ensures var newClf := Fitted(variant, metric, t);
            && (refit && fitOk(newClf) ==> r.1 == Some(newClf))
            && (!(refit && fitOk(newClf)) ==> r.1 == clf)
            && (r.0.asked.None? <==> (refit && !fitOk(newClf)) || r.1.None?)
            && (r.0.asked.Some? ==> r.0.asked == r.1)
    ensures r.0.asked.None? ==> r.0.recorded == Some(Sentinel)
    ensures r.0.asked.Some? ==> r.0.recorded == RecordedFor(predict(r.0.asked.value, t.la))
  {
    var newClf := Fitted(variant, metric, t);
    if refit && !fitOk(newClf) then (MetaStep(Some(Sentinel), None), clf)
    else
      var current := if refit then Some(newClf) else clf;
      match current
      case None => (MetaStep(Some(Sentinel), None), current)
      case Some(c) => (MetaStep(RecordedFor(predict(c, t.la)), Some(c)), current)
  }

  /** The as-written refit test of `run`: the pass's first row,
      or a test dataset that differs from the previous row's. */
  predicate RefitsAt(tasks: seq<Task>, i: nat)
    requires i < |tasks|
  {
    i == 0 || tasks[i].dataset != tasks[i - 1].dataset
  }

  /** When to refit. As written: RefitsAt. Corrected: when no classifier
      exists, or the one in hand was fitted for another dataset or another
      metric. */
  datatype Policy = AsWritten | Corrected

  predicate Refit(policy: Policy, metric: string, tasks: seq<Task>, i: nat, clf: Option<Classifier>)
    requires i < |tasks|
  {
    match policy
    case AsWritten => RefitsAt(tasks, i)
    case Corrected => clf.None? || clf.value.dataset != tasks[i].dataset || clf.value.metric != metric
  }

  /** The meta column of the first `n` rows of one metric's pass, starting
      with classifier `start` in hand, and the classifier in hand after
      them. */
  function MetaTrace(policy: Policy, metric: string, tasks: seq<Task>, variant: Variant, n: nat,
                     start: Option<Classifier>, fitOk: Classifier -> bool,
                     predict: (Classifier, nat) -> Prediction)
    : (r: (seq<MetaStep>, Option<Classifier>))
    requires n <= |tasks|
    ensures |r.0| == n
    ensures n == 0 ==> r.1 == start
  {
    if n == 0 then ([], start)
    else
      var (steps, clf) := MetaTrace(policy, metric, tasks, variant, n - 1, start, fitOk, predict);
      var (step, clf') := TryMeta(tasks[n - 1], variant, metric, Refit(policy, metric, tasks, n - 1, clf), clf, fitOk, predict);
      (steps + [step], clf')
  }

  /** One more row leaves the earlier rows of a trace as they were. */
  lemma TracePrefix(policy: Policy, metric: string, tasks: seq<Task>, variant: Variant, n: nat,
                    start: Option<Classifier>, fitOk: Classifier -> bool,
                    predict: (Classifier, nat) -> Prediction)
    requires 0 < n <= |tasks|
    ensures forall i :: 0 <= i < n - 1 ==>
              MetaTrace(policy, metric, tasks, variant, n, start, fitOk, predict).0[i]
                == MetaTrace(policy, metric, tasks, variant, n - 1, start, fitOk, predict).0[i]
  {
  }

  /** What a row records, given the classifier it asked: the sentinel when
      it asked none, and otherwise what that classifier's prediction gives
      (the sentinel again if it raised). The classifier asked is the one
      held before the row or one of this pass's variant and metric. */
  predicate StepFacts(step: MetaStep, la: nat, held: Option<Classifier>, variant: Variant, metric: string,
                      predict: (Classifier, nat) -> Prediction)
  {
    && (step.asked.None? ==> step.recorded == Some(Sentinel))
    && (step.asked.Some? ==> step.recorded == RecordedFor(predict(step.asked.value, la)))
    && (step.asked.Some? ==> step.asked == held || (step.asked.value.variant == variant && step.asked.value.metric == metric))
  }

  /** Every classifier asked or held along a pass is the starting one or
      one of this pass's variant and metric. */
  predicate FromPass(clf: Option<Classifier>, start: Option<Classifier>, variant: Variant, metric: string) {
    clf == start || (clf.Some? && clf.value.variant == variant && clf.value.metric == metric)
  }

  /** One row of a pass keeps the trace facts. */
  lemma TraceStep(policy: Policy, metric: string, tasks: seq<Task>, variant: Variant, n: nat,
                  start: Option<Classifier>, fitOk: Classifier -> bool,
                  predict: (Classifier, nat) -> Prediction)
    requires 0 < n <= |tasks|
    requires FromPass(MetaTrace(policy, metric, tasks, variant, n - 1, start, fitOk, predict).1, start, variant, metric)
    ensures var r := MetaTrace(policy, metric, tasks, variant, n, start, fitOk, predict);
            && StepFacts(r.0[n - 1], tasks[n - 1].la, start, variant, metric, predict)
            && FromPass(r.1, start, variant, metric)
  {
  }

  /** What every row of a pass records: the sentinel when it asked no
      classifier, and otherwise what the prediction of the classifier it
      asked gives (the sentinel again if it raised). Every classifier asked
      or held is the starting one or one of this pass's variant and metric. */
  lemma {:induction false} TraceRecords(policy: Policy, metric: string, tasks: seq<Task>, variant: Variant, n: nat,
                                        start: Option<Classifier>, fitOk: Classifier -> bool,
                                        predict: (Classifier, nat) -> Prediction)
    requires n <= |tasks|
    ensures var r := MetaTrace(policy, metric, tasks, variant, n, start, fitOk, predict);
            forall i :: 0 <= i < n ==> StepFacts(r.0[i], tasks[i].la, start, variant, metric, predict)
    ensures FromPass(MetaTrace(policy, metric, tasks, variant, n, start, fitOk, predict).1, start, variant, metric)
  {
    if n > 0 {
      TraceRecords(policy, metric, tasks, variant, n - 1, start, fitOk, predict);
      TraceStep(policy, metric, tasks, variant, n, start, fitOk, predict);
      TracePrefix(policy, metric, tasks, variant, n, start, fitOk, predict);
    }
  }

  /** The row of the last successful as-written refit among the first `m`
      rows of a pass. */
  function LastFit(metric: string, tasks: seq<Task>, variant: Variant, m: nat, fitOk: Classifier -> bool)
    : (r: Option<nat>)
    requires m <= |tasks|
    ensures r.Some? ==> r.value < m && RefitsAt(tasks, r.value) && fitOk(Fitted(variant, metric, tasks[r.value]))
    ensures r.Some? ==> forall j :: r.value < j < m ==> !(RefitsAt(tasks, j) && fitOk(Fitted(variant, metric, tasks[j])))
    ensures r.None? ==> forall j :: 0 <= j < m ==> !(RefitsAt(tasks, j) && fitOk(Fitted(variant, metric, tasks[j])))
  {
    if m == 0 then None
    else if RefitsAt(tasks, m - 1) && fitOk(Fitted(variant, metric, tasks[m - 1])) then Some(m - 1)
    else LastFit(metric, tasks, variant, m - 1, fitOk)
  }

  /** The classifier the as-written cache holds after `m` rows: the one of
      the last successful refit, or the pass's starting classifier. */
  function HeldAfter(start: Option<Classifier>, metric: string, tasks: seq<Task>, variant: Variant,
                     m: nat, fitOk: Classifier -> bool): Option<Classifier>
    requires m <= |tasks|
  {
    match LastFit(metric, tasks, variant, m, fitOk)
    case None => start
    case Some(j) => Some(Fitted(variant, metric, tasks[j]))
  }

  /** What row i of an as-written pass asks to predict: nothing when its
      own refit fails, and otherwise the classifier of the last successful
      refit up to row i (the starting classifier when there was none). */
  function AskedAt(start: Option<Classifier>, metric: string, tasks: seq<Task>, variant: Variant,
                   i: nat, fitOk: Classifier -> bool): Option<Classifier>
    requires i < |tasks|
  {
    if RefitsAt(tasks, i) && !fitOk(Fitted(variant, metric, tasks[i])) then None
    else HeldAfter(start, metric, tasks, variant, i + 1, fitOk)
  }

  /** The as-written cache ends a pass holding the classifier of its last
      successful refit (or the starting one when there was none). */
  lemma {:induction false} AsWrittenHeld(metric: string, tasks: seq<Task>, variant: Variant, n: nat,
                                         start: Option<Classifier>, fitOk: Classifier -> bool,
                                         predict: (Classifier, nat) -> Prediction)
    requires n <= |tasks|
    ensures MetaTrace(AsWritten, metric, tasks, variant, n, start, fitOk, predict).1
         == HeldAfter(start, metric, tasks, variant, n, fitOk)
  {
    if n > 0 {
      AsWrittenHeld(metric, tasks, variant, n - 1, start, fitOk, predict);
      var prev := MetaTrace(AsWritten, metric, tasks, variant, n - 1, start, fitOk, predict);
      var next := TryMeta(tasks[n - 1], variant, metric, RefitsAt(tasks, n - 1), prev.1, fitOk, predict);
      assert MetaTrace(AsWritten, metric, tasks, variant, n, start, fitOk, predict).1 == next.1;
      HeldStep(start, metric, tasks, variant, n, fitOk);
    }
  }

  /** The last of `n` as-written rows asks AskedAt. */
  lemma AsWrittenLastAsked(metric: string, tasks: seq<Task>, variant: Variant, n: nat,
                           start: Option<Classifier>, fitOk: Classifier -> bool,
                           predict: (Classifier, nat) -> Prediction)
    requires 0 < n <= |tasks|
    ensures MetaTrace(AsWritten, metric, tasks, variant, n, start, fitOk, predict).0[n - 1].asked
         == AskedAt(start, metric, tasks, variant, n - 1, fitOk)
  {
    AsWrittenHeld(metric, tasks, variant, n - 1, start, fitOk, predict);
    HeldStep(start, metric, tasks, variant, n, fitOk);
  }

  /** The as-written cache in closed form: each row asks AskedAt. */
  lemma {:induction false} AsWrittenCache(metric: string, tasks: seq<Task>, variant: Variant, n: nat,
                                          start: Option<Classifier>, fitOk: Classifier -> bool,
                                          predict: (Classifier, nat) -> Prediction)
    requires n <= |tasks|
    ensures forall i :: 0 <= i < n ==>
              MetaTrace(AsWritten, metric, tasks, variant, n, start, fitOk, predict).0[i].asked
                == AskedAt(start, metric, tasks, variant, i, fitOk)
  {
    if n > 0 {
      AsWrittenCache(metric, tasks, variant, n - 1, start, fitOk, predict);
      AsWrittenLastAsked(metric, tasks, variant, n, start, fitOk, predict);
      TracePrefix(AsWritten, metric, tasks, variant, n, start, fitOk, predict);
    }
  }

  /** One more row changes the held classifier only by a successful refit. */
  lemma HeldStep(start: Option<Classifier>, metric: string, tasks: seq<Task>, variant: Variant,
                 n: nat, fitOk: Classifier -> bool)
    requires 0 < n <= |tasks|
    ensures HeldAfter(start, metric, tasks, variant, n, fitOk)
         == if RefitsAt(tasks, n - 1) && fitOk(Fitted(variant, metric, tasks[n - 1]))
            then Some(Fitted(variant, metric, tasks[n - 1]))
            else HeldAfter(start, metric, tasks, variant, n - 1, fitOk)
  {
  }

  /** The corrected cache never predicts with a classifier fitted for
      another dataset or another metric, whatever classifier the pass starts
      with: every prediction of row i is about row i's dataset and this
      pass's metric. */
  lemma {:induction false} CorrectedNeverStale(metric: string, tasks: seq<Task>, variant: Variant, n: nat,
                                                start: Option<Classifier>, fitOk: Classifier -> bool,
                                                predict: (Classifier, nat) -> Prediction)
    requires n <= |tasks|
    ensures var steps := MetaTrace(Corrected, metric, tasks, variant, n, start, fitOk, predict).0;
            forall i :: 0 <= i < n && steps[i].asked.Some? ==>
              steps[i].asked.value.dataset == tasks[i].dataset && steps[i].asked.value.metric == metric
  {
    if n > 0 {
      CorrectedNeverStale(metric, tasks, variant, n - 1, start, fitOk, predict);
      var (steps, clf) := MetaTrace(Corrected, metric, tasks, variant, n - 1, start, fitOk, predict);
      var refit := Refit(Corrected, metric, tasks, n - 1, clf);
      var (step, clf') := TryMeta(tasks[n - 1], variant, metric, refit, clf, fitOk, predict);
      assert MetaTrace(Corrected, metric, tasks, variant, n, start, fitOk, predict).0 == steps + [step];
    }
  }

  /** When every fit succeeds and the pass starts with no classifier or one
      of another metric, the two policies behave identically, and the
      classifier in hand after a row was fitted for that row's dataset and
      this metric. */
  lemma {:induction false} PoliciesAgreeWhenFitsSucceed(metric: string, tasks: seq<Task>, variant: Variant, n: nat,
                                                         start: Option<Classifier>, fitOk: Classifier -> bool,
                                                         predict: (Classifier, nat) -> Prediction)
    requires n <= |tasks| && forall c :: fitOk(c)
    requires start.None? || start.value.metric != metric
    ensures MetaTrace(AsWritten, metric, tasks, variant, n, start, fitOk, predict)
         == MetaTrace(Corrected, metric, tasks, variant, n, start, fitOk, predict)
    ensures n > 0 ==> var held := MetaTrace(AsWritten, metric, tasks, variant, n, start, fitOk, predict).1;
                      && held.Some?
                      && held.value.dataset == tasks[n - 1].dataset
                      && held.value.metric == metric
  {
    if n > 0 {
      PoliciesAgreeWhenFitsSucceed(metric, tasks, variant, n - 1, start, fitOk, predict);
      var prev := MetaTrace(AsWritten, metric, tasks, variant, n - 1, start, fitOk, predict);
      var refit := Refit(AsWritten, metric, tasks, n - 1, prev.1);
      assert refit == Refit(Corrected, metric, tasks, n - 1, prev.1);
      var next := TryMeta(tasks[n - 1], variant, metric, refit, prev.1, fitOk, predict);
      assert MetaTrace(AsWritten, metric, tasks, variant, n, start, fitOk, predict) == (prev.0 + [next.0], next.1);
      assert MetaTrace(Corrected, metric, tasks, variant, n, start, fitOk, predict) == (prev.0 + [next.0], next.1);
    }
  }

  /** Three rows A, B, B where fitting for B fails: the as-written cache
      keeps A's classifier and, since row 2 repeats row 1's dataset, asks it
      to predict for row 2 — a prediction about dataset A recorded as B's. */
  lemma StaleClassifierCounterexample(predict: (Classifier, nat) -> Prediction)
    ensures var tasks := [Task("A", 5, 1), Task("B", 5, 1), Task("B", 5, 2)];
            var fitOk := (c: Classifier) => c.dataset != "B";
            var steps := MetaTrace(AsWritten, "AUCROC", tasks, TwoStage, 3, None, fitOk, predict).0;
            && steps[1] == MetaStep(Some(Sentinel), None)
            && steps[2].asked == Some(Classifier(TwoStage, "AUCROC", "A", 1))
            && steps[2].asked.value.dataset != tasks[2].dataset
  {
  }

  /** The same across the metric loop: the AUCROC pass ends holding a
      classifier for dataset Z; the AUCPR pass opens with two rows of
      dataset A whose fit fails. Row 0 records the sentinel, and row 1,
      repeating row 0's dataset, asks Z's AUCROC classifier. */
  lemma StaleAcrossMetricsCounterexample(predict: (Classifier, nat) -> Prediction)
    ensures var held := Some(Classifier(TwoStage, Metrics[0], "Z", 1));
            var tasks := [Task("A", 5, 1), Task("A", 5, 2)];
            var fitOk := (c: Classifier) => c.dataset != "A";
            var steps := MetaTrace(AsWritten, Metrics[1], tasks, TwoStage, 2, held, fitOk, predict).0;
            && steps[0] == MetaStep(Some(Sentinel), None)
            && steps[1].asked == held
            && steps[1].asked.value.dataset != tasks[1].dataset
            && steps[1].asked.value.metric != Metrics[1]
  {
  }

  /** The training-split and test-split results tables of one count. The
      two may have different numbers of rows. */
  datatype Split = Split(train: Frame, test: Frame)

  predicate SplitsLoaded(splits: map<nat, Split>) {
    forall la :: la in splits ==> splits[la].train.Valid() && splits[la].test.Valid()
  }

  /** The three file-based baselines of one test task, in the order `run`
      computes them: the results tables of the task's count must exist;
      "rs" draws training positions with `draw` and reads them as test row
      labels, "ss" needs the dataset's column in the training-split table
      and reads its positions as test row labels, and "gt" needs the column
      in the test one. The first failure aborts. */
  function Baselines(t: Task, splits: map<nat, Split>, draw: nat -> nat): (r: Result<(real, real, Cell)>)
    requires SplitsLoaded(splits)
    ensures t.la !in splits ==> r == Err(MissingTable(t.la))
    ensures t.la in splits && !splits[t.la].test.HasColumn(t.dataset) ==> r.Err?
    ensures r.Ok? ==> && t.la in splits
                      && splits[t.la].train.HasColumn(t.dataset)
                      && splits[t.la].test.HasColumn(t.dataset)
    ensures t.la in splits && |splits[t.la].train.labels| <= |splits[t.la].test.labels| ==>
              (r.Ok? <==> splits[t.la].train.HasColumn(t.dataset) && splits[t.la].test.HasColumn(t.dataset))
    ensures r.Err? && t.la in splits ==>
              || r == Err(MissingColumn(t.dataset))
              || (r.error.MissingRow? && |splits[t.la].test.labels| <= r.error.row < |splits[t.la].train.labels|)
    ensures (r.Err? && t.la in splits && splits[t.la].train.HasColumn(t.dataset)
             && splits[t.la].test.HasColumn(t.dataset)) ==> r.error.MissingRow?
    ensures t.la in splits && RandomSearch(splits[t.la].train, splits[t.la].test, t.dataset, draw).Err? ==>
              r == Err(RandomSearch(splits[t.la].train, splits[t.la].test, t.dataset, draw).error)
    ensures t.la in splits ==> (r.Ok? <==> && RandomSearch(splits[t.la].train, splits[t.la].test, t.dataset, draw).Ok?
                                           && SameSplitBaseline(splits[t.la].train, splits[t.la].test, t.dataset).Ok?
                                           && splits[t.la].test.HasColumn(t.dataset))
    ensures r.Ok? ==> && t.la in splits
                      && r.value.0 == RandomSearch(splits[t.la].train, splits[t.la].test, t.dataset, draw).value
                      && r.value.1 == SameSplitBaseline(splits[t.la].train, splits[t.la].test, t.dataset).value
                      && Lookup(splits[t.la].test, t.dataset).Ok?
                      && r.value.2 == ColumnMax(Lookup(splits[t.la].test, t.dataset).value)
                      && BaselineBounds(splits[t.la], r.value)
  {
    if t.la !in splits then Err(MissingTable(t.la))
    else
      var s := splits[t.la];
      var rs :- RandomSearch(s.train, s.test, t.dataset, draw);
      var ss :- SameSplitBaseline(s.train, s.test, t.dataset);
      var gt :- GroundTruthBaseline(s.test, t.dataset);
      GroundTruthDominatesRandomSearch(s.train, s.test, t.dataset, draw);
      GroundTruthDominatesSameSplit(s.train, s.test, t.dataset);
      Ok((rs, ss, gt))
  }

  /** Training column A of two rows (0.9, 0.5) and a test column A of one
      row (0.7): "ss" and "gt" both read test row 0 and succeed, but a run
      whose first "rs" draw is position 1 raises on it. */
  lemma RandomDrawCanAbort(t: Task, splits: map<nat, Split>)
    requires SplitsLoaded(splits) && t.la in splits
    requires Lookup(splits[t.la].train, t.dataset) == Ok([Some(0.9), Some(0.5)])
    requires Lookup(splits[t.la].test, t.dataset) == Ok([Some(0.7)])
    ensures Baselines(t, splits, k => 1) == Err(MissingRow(1))
  {
    DrawPastTestRaises(splits[t.la].train, splits[t.la].test, t.dataset);
  }

  /** The same tables with draws that all land on position 0: the three
      baselines are all 0.7. */
  lemma RandomDrawCanPass(t: Task, splits: map<nat, Split>)
    requires SplitsLoaded(splits) && t.la in splits
    requires Lookup(splits[t.la].train, t.dataset) == Ok([Some(0.9), Some(0.5)])
    requires Lookup(splits[t.la].test, t.dataset) == Ok([Some(0.7)])
    ensures Baselines(t, splits, k => 0) == Ok((0.7, 0.7, Some(0.7)))
  {
    var s := splits[t.la];
    SameSplitReadsFirstRow(s.train, s.test, t.dataset);
    DrawPastTestRaises(s.train, s.test, t.dataset);
  }

  /** gt bounds rs when it is not negative, and ss when the bound applies;
      both keep their default 0 when gt is missing. */
  predicate BaselineBounds(s: Split, b: (real, real, Cell)) {
    && (b.2.Some? && 0.0 <= b.2.value ==> b.0 <= b.2.value)
    && (BoundApplies(s, b.2) ==> b.1 <= b.2.value)
    && (b.2.None? ==> b.0 == 0.0 && b.1 == 0.0)
  }

  /** One output row: the "rs", "ss" and "gt" baselines and the
      meta-selector's recorded value. */
  datatype RowResult = RowResult(rs: real, ss: real, gt: Cell, meta: Cell)

  /** The random draws of a pass: `draws(i)` are row `i`'s "rs" draws. */
  type PassDraws = nat -> nat -> nat

  /** One metric's pass of `run`, starting with classifier `start` in
      hand; `draws(i)` are row `i`'s "rs" draws. Nothing happens without
      tasks. Otherwise a missing results table, dataset column or test row
      label, drawn or walked to, aborts the run, and an unknown mode is
      caught as a meta failure on row 0 but then aborts the run when its
      table is written, after row 0's baselines. The result holds the rows
      and the classifier in hand at the end of the pass. */
  function Run(policy: Policy, metric: string, tasks: seq<Task>, mode: string, splits: map<nat, Split>,
               draws: PassDraws,
               start: Option<Classifier>, fitOk: Classifier -> bool, predict: (Classifier, nat) -> Prediction)
    : (r: Result<(seq<RowResult>, Option<Classifier>)>)
    requires SplitsLoaded(splits)
    ensures |tasks| == 0 ==> r == Ok(([], start))
    ensures |tasks| > 0 ==> (r.Ok? <==> && ParseMode(mode).Some?
                                        && forall i :: 0 <= i < |tasks| ==> Baselines(tasks[i], splits, draws(i)).Ok?)
    ensures |tasks| > 0 && Baselines(tasks[0], splits, draws(0)).Err? ==> r == Err(Baselines(tasks[0], splits, draws(0)).error)
    ensures |tasks| > 0 && ParseMode(mode).None? && Baselines(tasks[0], splits, draws(0)).Ok? ==> r == Err(UnknownMode(mode))
    ensures r.Ok? ==> |r.value.0| == |tasks|
    ensures r.Ok? ==> forall i :: 0 <= i < |tasks| ==> RowFacts(tasks[i], splits, draws(i), r.value.0[i])
    ensures r.Ok? && |tasks| > 0 ==>
      var trace := MetaTrace(policy, metric, tasks, ParseMode(mode).value, |tasks|, start, fitOk, predict);
      && (forall i :: 0 <= i < |tasks| ==> r.value.0[i].meta == trace.0[i].recorded)
      && r.value.1 == trace.1
  {
    if |tasks| == 0 then Ok(([], start))
    else
      var _ :- Baselines(tasks[0], splits, draws(0));
      match ParseMode(mode)
      case None => Err(UnknownMode(mode))
      case Some(variant) => RunKnown(policy, metric, tasks, variant, splits, draws, start, fitOk, predict)
  }

  /** A pass with a known mode: it runs through exactly when every task's
      baselines exist. */
  function RunKnown(policy: Policy, metric: string, tasks: seq<Task>, variant: Variant, splits: map<nat, Split>,
                    draws: PassDraws,
                    start: Option<Classifier>, fitOk: Classifier -> bool, predict: (Classifier, nat) -> Prediction)
    : (r: Result<(seq<RowResult>, Option<Classifier>)>)
    requires SplitsLoaded(splits)
    ensures r.Ok? <==> forall i :: 0 <= i < |tasks| ==> Baselines(tasks[i], splits, draws(i)).Ok?
    ensures r.Ok? ==> |r.value.0| == |tasks|
    ensures r.Ok? ==> forall i :: 0 <= i < |tasks| ==> RowFacts(tasks[i], splits, draws(i), r.value.0[i])
    ensures r.Ok? ==>
      var trace := MetaTrace(policy, metric, tasks, variant, |tasks|, start, fitOk, predict);
      && (forall i :: 0 <= i < |tasks| ==> r.value.0[i].meta == trace.0[i].recorded)
      && r.value.1 == trace.1
  {
    var rows := Collect(AllBaselines(tasks, splits, draws));
    if rows.Err? then Err(rows.error)
    else
      var trace := MetaTrace(policy, metric, tasks, variant, |tasks|, start, fitOk, predict);
      Ok((PassRows(tasks, splits, draws, rows.value, trace.0), trace.1))
  }

  /** One metric's input: its state-of-the-art tasks and its results
      tables by count. */
  datatype Pass = Pass(tasks: seq<Task>, splits: map<nat, Split>, draws: PassDraws)

  /** A pass runs through: it has no tasks, or the mode is known and every
      task's baselines exist. Whether it does depends on neither the fits
      nor the predictions. */
  predicate PassRuns(pass: Pass, mode: string)
    requires SplitsLoaded(pass.splits)
  {
    || |pass.tasks| == 0
    || (ParseMode(mode).Some? && forall i :: 0 <= i < |pass.tasks| ==> Baselines(pass.tasks[i], pass.splits, pass.draws(i)).Ok?)
  }

  /** A pass's rows: one per task, each with its task's baselines. */
  predicate PassShaped(pass: Pass, rows: seq<RowResult>)
    requires SplitsLoaded(pass.splits)
  {
    && |rows| == |pass.tasks|
    && forall i :: 0 <= i < |rows| ==> RowFacts(pass.tasks[i], pass.splits, pass.draws(i), rows[i])
  }

  /** A pass's meta column is its trace from classifier `start`. */
  ghost predicate PassMeta(policy: Policy, metric: string, pass: Pass, variant: Variant, start: Option<Classifier>,
                           rows: seq<RowResult>, fitOk: Classifier -> bool, predict: (Classifier, nat) -> Prediction)
  {
    var trace := MetaTrace(policy, metric, pass.tasks, variant, |pass.tasks|, start, fitOk, predict);
    forall i :: 0 <= i < |rows| && i < |pass.tasks| ==> rows[i].meta == trace.0[i].recorded
  }

  /** The classifier a pass hands on to the next: the one in hand at the end
      of its trace. */
  function HandedOn(policy: Policy, metric: string, pass: Pass, variant: Variant, start: Option<Classifier>,
                    fitOk: Classifier -> bool, predict: (Classifier, nat) -> Prediction): Option<Classifier>
  {
    MetaTrace(policy, metric, pass.tasks, variant, |pass.tasks|, start, fitOk, predict).1
  }

  /** One pass of `run`, seen by what the surrounding loop needs: whether it
      runs through, its row shape, its meta column and the classifier it
      hands on. */
  function RunPass(policy: Policy, metric: string, pass: Pass, mode: string, start: Option<Classifier>,
                   fitOk: Classifier -> bool, predict: (Classifier, nat) -> Prediction)
    : (r: Result<(seq<RowResult>, Option<Classifier>)>)
    requires SplitsLoaded(pass.splits)
    ensures r.Ok? <==> PassRuns(pass, mode)
    ensures r.Ok? ==> PassShaped(pass, r.value.0)
    ensures r.Ok? && ParseMode(mode).Some? ==>
              && PassMeta(policy, metric, pass, ParseMode(mode).value, start, r.value.0, fitOk, predict)
              && r.value.1 == HandedOn(policy, metric, pass, ParseMode(mode).value, start, fitOk, predict)
  {
    Run(policy, metric, pass.tasks, mode, pass.splits, pass.draws, start, fitOk, predict)
  }

  /** `run`: the AUCROC pass from no classifier, then the AUCPR pass from
      the classifier the AUCROC pass left in hand. A pass that aborts aborts
      the run; the AUCROC pass's tables are written before the AUCPR pass
      can abort. */
  function Compare(policy: Policy, roc: Pass, pr: Pass, mode: string,
                   fitOk: Classifier -> bool, predict: (Classifier, nat) -> Prediction)
    : (r: Result<(seq<RowResult>, seq<RowResult>)>)
    requires SplitsLoaded(roc.splits) && SplitsLoaded(pr.splits)
    ensures r.Ok? <==> PassRuns(roc, mode) && PassRuns(pr, mode)
    ensures r.Ok? ==> PassShaped(roc, r.value.0) && PassShaped(pr, r.value.1)
    ensures r.Ok? && ParseMode(mode).Some? ==>
              var v := ParseMode(mode).value;
              && PassMeta(policy, Metrics[0], roc, v, None, r.value.0, fitOk, predict)
              && PassMeta(policy, Metrics[1], pr, v, HandedOn(policy, Metrics[0], roc, v, None, fitOk, predict),
                          r.value.1, fitOk, predict)
  {
    var first :- RunPass(policy, Metrics[0], roc, mode, None, fitOk, predict);
    var second :- RunPass(policy, Metrics[1], pr, mode, first.1, fitOk, predict);
    Ok((first.0, second.0))
  }

  /** A row's baselines are those of its task, and gt bounds ss. */
  predicate RowFacts(t: Task, splits: map<nat, Split>, draw: nat -> nat, row: RowResult)
    requires SplitsLoaded(splits)
  {
    && Baselines(t, splits, draw) == Ok((row.rs, row.ss, row.gt))
    && t.la in splits
    && BaselineBounds(splits[t.la], (row.rs, row.ss, row.gt))
  }

  /** gt is present and bounds ss: the training table is not shorter than
      the test table, so a present test cell is read, or gt is not below the
      default 0 that ss keeps otherwise. */
  predicate BoundApplies(s: Split, gt: Cell) {
    gt.Some? && (|s.train.labels| >= |s.test.labels| || 0.0 <= gt.value)
  }

  lemma BaselineRowFacts(t: Task, splits: map<nat, Split>, draw: nat -> nat, row: RowResult)
    requires SplitsLoaded(splits) && Baselines(t, splits, draw) == Ok((row.rs, row.ss, row.gt))
    ensures RowFacts(t, splits, draw, row)
  {
  }

  /** The baselines of every task, each possibly failing. */
  function AllBaselines(tasks: seq<Task>, splits: map<nat, Split>, draws: PassDraws): (r: seq<Result<(real, real, Cell)>>)
    requires SplitsLoaded(splits)
    ensures |r| == |tasks| && forall i :: 0 <= i < |tasks| ==> r[i] == Baselines(tasks[i], splits, draws(i))
  {
    seq(|tasks|, i requires 0 <= i < |tasks| => Baselines(tasks[i], splits, draws(i)))
  }

  /** Pair each row's baselines with its meta column entry. */
  function PassRows(tasks: seq<Task>, splits: map<nat, Split>, draws: PassDraws, rows: seq<(real, real, Cell)>,
                    steps: seq<MetaStep>)
    : (r: seq<RowResult>)
    requires SplitsLoaded(splits) && |rows| == |tasks| == |steps|
    requires forall i :: 0 <= i < |tasks| ==> Baselines(tasks[i], splits, draws(i)) == Ok(rows[i])
    ensures |r| == |tasks|
    ensures forall i :: 0 <= i < |tasks| ==> RowFacts(tasks[i], splits, draws(i), r[i])
    ensures forall i :: 0 <= i < |tasks| ==> r[i].meta == steps[i].recorded
  {
    var r := seq(|rows|, i requires 0 <= i < |rows| => RowResult(rows[i].0, rows[i].1, rows[i].2, steps[i].recorded));
    assert forall i :: 0 <= i < |tasks| ==> RowFacts(tasks[i], splits, draws(i), r[i]) by {
      forall i | 0 <= i < |tasks| ensures RowFacts(tasks[i], splits, draws(i), r[i]) {
        BaselineRowFacts(tasks[i], splits, draws(i), r[i]);
      }
    }
    r
  }
}

=== FILE: components.dfy ===
/** The component encoder (`components_process`): it turns the configuration
    labels of a results table into one integer-coded column per slot whose
    value actually varies across the configurations. */
module Components {
  import opened Tables

  /** The text `str` gives a slot value: what the keep rule compares. */
  function Str(l: Literal): string {
    match l
    case Text(s) => s
    case Number(_, text) => text
    case Flag(b) => if b then "True" else "False"
  }

  /** A class the label encoder sees once nulls are replaced by the string
      "None": a string, or a number. A boolean compares as 0 or 1 and an int
      equals the float of the same value, so each is the class of its
      numeric value. */
  datatype Class = Word(w: string) | Quantity(q: real)

  function ClassOf(v: Option<Literal>): Class {
    match v
    case None => Word("None")
    case Some(Text(s)) => Word(s)
    case Some(Number(x, _)) => Quantity(x)
    case Some(Flag(b)) => Quantity(if b then 1.0 else 0.0)
  }

  /** Code-point lexicographic order, the order in which a label encoder
      sorts the classes it has seen. */
  predicate LexLess(a: string, b: string)
    decreases |a|
  {
    if |a| == 0 then |b| > 0
    else if |b| == 0 then false
    else a[0] < b[0] || (a[0] == b[0] && LexLess(a[1..], b[1..]))
  }

  lemma {:induction false} LexLessIrreflexive(a: string)
    ensures !LexLess(a, a)
    decreases |a|
  {
    if |a| > 0 {
      LexLessIrreflexive(a[1..]);
    }
  }

  lemma {:induction false} LexLessTransitive(a: string, b: string, c: string)
    requires LexLess(a, b) && LexLess(b, c)
    ensures LexLess(a, c)
    decreases |a|
  {
    if |a| > 0 && a[0] == b[0] && b[0] == c[0] {
      LexLessTransitive(a[1..], b[1..], c[1..]);
    }
  }

  lemma {:induction false} LexLessTrichotomy(a: string, b: string)
    ensures a == b || LexLess(a, b) || LexLess(b, a)
    decreases |a|
  {
    if |a| > 0 && |b| > 0 && a[0] == b[0] {
      LexLessTrichotomy(a[1..], b[1..]);
      if a[1..] == b[1..] {
        assert a == [a[0]] + a[1..] && b == [b[0]] + b[1..];
      }
    }
  }

  /** The order the label encoder sorts its classes in: code points for
      strings, numeric order for numbers. A string and a number do not
      compare. */
  predicate Below(a: Class, b: Class) {
    || (a.Word? && b.Word? && LexLess(a.w, b.w))
    || (a.Quantity? && b.Quantity? && a.q < b.q)
  }

  lemma BelowIrreflexive(a: Class)
    ensures !Below(a, a)
  {
    if a.Word? {
      LexLessIrreflexive(a.w);
    }
  }

  lemma BelowTransitive(a: Class, b: Class, c: Class)
    requires Below(a, b) && Below(b, c)
    ensures Below(a, c)
  {
    if a.Word? {
      LexLessTransitive(a.w, b.w, c.w);
    }
  }

  lemma BelowTrichotomy(a: Class, b: Class)
    requires a.Word? == b.Word?
    ensures a == b || Below(a, b) || Below(b, a)
  {
    if a.Word? {
      LexLessTrichotomy(a.w, b.w);
    }
  }

  /** Every configuration has slot `k` (otherwise reading it is a KeyError). */
  predicate SlotEverywhere(rows: seq<Config>, k: string) {
    forall i :: 0 <= i < |rows| ==> k in rows[i].slots
  }

  /** The distinct texts of the non-null values slot `k` takes across the
      configurations. */
  function NonNullValues(rows: seq<Config>, k: string): set<string> {
    set i | 0 <= i < |rows| && k in rows[i].slots && rows[i].slots[k].Some? :: Str(rows[i].slots[k].value)
  }

  /** The keep rule: a slot survives when the texts of its non-null values
      take at least two distinct values. */
  predicate Varies(rows: seq<Config>, k: string) {
    |NonNullValues(rows, k)| >= 2
  }

  /** The label encoder can sort the column of slot `k`: its classes are all
      strings or all numbers. A null turns into the string "None", so a
      numeric or boolean slot with a null cannot be sorted. */
  predicate Sortable(rows: seq<Config>, k: string) {
    || (forall i :: 0 <= i < |rows| && k in rows[i].slots ==> ClassOf(rows[i].slots[k]).Word?)
    || (forall i :: 0 <= i < |rows| && k in rows[i].slots ==> ClassOf(rows[i].slots[k]).Quantity?)
  }

  /** The classes a label encoder sees for slot `k`. */
  function Domain(rows: seq<Config>, k: string): set<Class> {
    set i | 0 <= i < |rows| && k in rows[i].slots :: ClassOf(rows[i].slots[k])
  }

  /** The label-encoder code of `v`: its position among the sorted classes. */
  function Code(v: Class, domain: set<Class>): nat {
    |set w | w in domain && Below(w, v)|
  }

  /** The code row `i` gets in the column of slot `k`. */
  function CodeOf(rows: seq<Config>, k: string, i: nat): nat
    requires i < |rows| && SlotEverywhere(rows, k)
  {
    Code(ClassOf(rows[i].slots[k]), Domain(rows, k))
  }

  /** The label-encoded values of the slots `kept`, row by row. */
  function CodeTable(rows: seq<Config>, kept: seq<string>): (t: seq<seq<nat>>)
    requires forall k :: k in kept ==> SlotEverywhere(rows, k)
    ensures |t| == |rows|
    ensures forall i :: 0 <= i < |rows| ==> |t[i]| == |kept|
    ensures forall i, c :: 0 <= i < |rows| && 0 <= c < |kept| ==> t[i][c] == CodeOf(rows, kept[c], i)
  {
    seq(|rows|, i requires 0 <= i < |rows| =>
      seq(|kept|, c requires 0 <= c < |kept| => CodeOf(rows, kept[c], i)))
  }

  /** The encoded table: the surviving slots, and one code per row and slot. */
  datatype Encoded = Encoded(slots: seq<string>, codes: seq<seq<nat>>)

  /** The first key of `keys` that fails `ok`. */
  function FirstFailing(keys: seq<string>, ok: string -> bool): (r: Option<string>)
    ensures r.None? <==> forall k :: k in keys ==> ok(k)
    ensures r.Some? ==> exists p :: 0 <= p < |keys| && keys[p] == r.value && !ok(keys[p])
                          && forall q :: 0 <= q < p ==> ok(keys[q])
  {
    if |keys| == 0 then None
    else if !ok(keys[0]) then Some(keys[0])
    else
      var r := FirstFailing(keys[1..], ok);
      assert keys == [keys[0]] + keys[1..];
      if r.Some? then
        assert exists p :: 0 <= p < |keys| - 1 && keys[1..][p] == r.value && !ok(keys[1..][p])
                  && forall q :: 0 <= q < p ==> ok(keys[1..][q]);
        var p :| 0 <= p < |keys| - 1 && keys[1..][p] == r.value && !ok(keys[1..][p])
                  && forall q :: 0 <= q < p ==> ok(keys[1..][q]);
        assert forall q :: 0 <= q < p + 1 ==> ok(keys[q]) by {
          forall q | 0 <= q < p + 1 ensures ok(keys[q]) {
            if q > 0 { assert keys[q] == keys[1..][q - 1]; }
          }
        }
        assert keys[p + 1] == r.value;
        r
      else r
  }

  /** The first slot of row 0 that some configuration lacks: the keep loop
      reads every slot of row 0 from every configuration, in row 0's key
      order, and the first missing one is a KeyError. */
  function FirstMissing(rows: seq<Config>): (r: Option<string>)
    requires |rows| > 0
    ensures r.None? <==> forall k :: k in rows[0].order ==> SlotEverywhere(rows, k)
    ensures r.Some? ==> exists p :: 0 <= p < |rows[0].order| && rows[0].order[p] == r.value
                          && !SlotEverywhere(rows, rows[0].order[p])
                          && forall q :: 0 <= q < p ==> SlotEverywhere(rows, rows[0].order[q])
  {
    FirstFailing(rows[0].order, (k: string) => SlotEverywhere(rows, k))
  }

  /** What an encoding of `rows` holds: the kept slots are row 0's varying
      slots in row 0's key order, each present and sortable, and each row
      has one code per kept slot. */
  ghost predicate Encodes(rows: seq<Config>, e: Encoded)
    requires |rows| > 0
  {
    && |e.codes| == |rows|
    && (forall i :: 0 <= i < |rows| ==> |e.codes[i]| == |e.slots|)
    && (forall k :: k in e.slots <==> k in rows[0].order && Varies(rows, k))
    && (forall k :: k in e.slots ==> SlotEverywhere(rows, k) && Sortable(rows, k))
    && IsSubsequence(e.slots, rows[0].order)
    && Distinct(e.slots)
    && (forall i, c :: 0 <= i < |rows| && 0 <= c < |e.slots| ==> e.codes[i][c] == CodeOf(rows, e.slots[c], i))
  }

  /** The kept slots: row 0's varying slots, in row 0's key order. */
  function KeptSlots(rows: seq<Config>): (kept: seq<string>)
    requires |rows| > 0 && IsDict(rows[0])
    ensures forall k :: k in kept <==> k in rows[0].order && Varies(rows, k)
    ensures IsSubsequence(kept, rows[0].order) && Distinct(kept)
  {
    var keep := (k: string) => Varies(rows, k);
    FilterIsSubsequence(rows[0].order, keep);
    FilterDistinct(rows[0].order, keep);
    Filter(rows[0].order, keep)
  }

  /** The encoding once every configuration has every slot of row 0: it
      fails on the first kept slot that cannot be sorted. */
  function EncodePresent(rows: seq<Config>): (r: Result<Encoded>)
    requires |rows| > 0 && forall i :: 0 <= i < |rows| ==> IsDict(rows[i])
    requires forall k :: k in rows[0].order ==> SlotEverywhere(rows, k)
    ensures r.Ok? <==> forall k :: k in rows[0].order && Varies(rows, k) ==> Sortable(rows, k)
    ensures r.Err? ==> && r.error.UnsortableSlot?
                       && r.error.slot in rows[0].order
                       && SlotEverywhere(rows, r.error.slot)
                       && Varies(rows, r.error.slot)
                       && !Sortable(rows, r.error.slot)
    ensures r.Ok? ==> Encodes(rows, r.value)
  {
    assert IsDict(rows[0]);
    var kept := KeptSlots(rows);
    match FirstFailing(kept, (k: string) => Sortable(rows, k))
    case Some(k) =>
      assert k in kept;
      Err(UnsortableSlot(k))
    case None => Ok(Encoded(kept, CodeTable(rows, kept)))
  }

  /** `components_process`: keep the varying slots in row 0's key order,
      replace nulls by "None", and label-encode each kept column. An empty
      table has no row 0; a configuration lacking one of row 0's slots makes
      the slot lookup fail; and the first kept column that mixes strings
      with numbers makes the encoder's sort fail. */
  function Encode(rows: seq<Config>): (r: Result<Encoded>)
    requires forall i :: 0 <= i < |rows| ==> IsDict(rows[i])
    ensures |rows| == 0 <==> r == Err(NoConfigurations)
    ensures |rows| > 0 ==> ((exists k :: k in rows[0].order && !SlotEverywhere(rows, k)) <==>
                             r.Err? && r.error.MissingSlot?)
    ensures r.Err? && r.error.MissingSlot? ==> && r.error.slot in rows[0].order
                                               && !SlotEverywhere(rows, r.error.slot)
    ensures |rows| > 0 && (forall k :: k in rows[0].order ==> SlotEverywhere(rows, k)) ==>
              (r.Ok? <==> forall k :: k in rows[0].order && Varies(rows, k) ==> Sortable(rows, k))
    ensures r.Err? && r.error.UnsortableSlot? ==> && |rows| > 0
                                                  && r.error.slot in rows[0].order
                                                  && SlotEverywhere(rows, r.error.slot)
                                                  && Varies(rows, r.error.slot)
                                                  && !Sortable(rows, r.error.slot)
    ensures r.Err? ==> r.error.NoConfigurations? || r.error.MissingSlot? || r.error.UnsortableSlot?
    ensures r.Ok? ==> |rows| > 0 && Encodes(rows, r.value)
  {
    if |rows| == 0 then Err(NoConfigurations)
    else
      match FirstMissing(rows)
      case Some(k) => Err(MissingSlot(k))
      case None => EncodePresent(rows)
  }

  lemma {:induction false} SubsetCardinality<T>(a: set<T>, b: set<T>)
    requires a <= b
    ensures |a| <= |b|
    decreases |a|
  {
    if a != {} {
      var x :| x in a;
      SubsetCardinality(a - {x}, b - {x});
    }
  }

  lemma StrictSubsetCardinality<T>(a: set<T>, b: set<T>)
    requires a <= b && exists x :: x in b && x !in a
    ensures |a| < |b|
  {
    var x :| x in b && x !in a;
    SubsetCardinality(a, b - {x});
  }

  /** The keep rule, restated: a slot varies exactly when two configurations
      give it two non-null values with different texts. So a slot that is
      null everywhere, or has a single non-null text (with or without
      nulls), is dropped. */
  lemma VariesIffTwoValues(rows: seq<Config>, k: string)
    requires SlotEverywhere(rows, k)
    ensures Varies(rows, k) <==>
      exists i, j :: && 0 <= i < |rows| && 0 <= j < |rows|
                     && rows[i].slots[k].Some? && rows[j].slots[k].Some?
                     && Str(rows[i].slots[k].value) != Str(rows[j].slots[k].value)
  {
    var vals := NonNullValues(rows, k);
    if Varies(rows, k) {
      var a :| a in vals;
      assert |vals - {a}| >= 1;
      var b :| b in vals - {a};
      var i :| 0 <= i < |rows| && rows[i].slots[k].Some? && Str(rows[i].slots[k].value) == a;
      var j :| 0 <= j < |rows| && rows[j].slots[k].Some? && Str(rows[j].slots[k].value) == b;
    }
    if exists i, j :: && 0 <= i < |rows| && 0 <= j < |rows|
                      && rows[i].slots[k].Some? && rows[j].slots[k].Some?
                      && Str(rows[i].slots[k].value) != Str(rows[j].slots[k].value) {
      var i, j :| && 0 <= i < |rows| && 0 <= j < |rows|
                  && rows[i].slots[k].Some? && rows[j].slots[k].Some?
                  && Str(rows[i].slots[k].value) != Str(rows[j].slots[k].value);
      var pair := {Str(rows[i].slots[k].value), Str(rows[j].slots[k].value)};
      assert |pair| == 2;
      SubsetCardinality(pair, vals);
    }
  }

  /** A code lies below the number of classes. */
  lemma CodeBelowClassCount(v: Class, domain: set<Class>)
    requires v in domain
    ensures Code(v, domain) < |domain|
  {
    var below := set w | w in domain && Below(w, v);
    BelowIrreflexive(v);
    StrictSubsetCardinality(below, domain);
  }

  /** Codes follow the sorted order of the classes. */
  lemma CodeMonotone(v: Class, w: Class, domain: set<Class>)
    requires v in domain && Below(v, w)
    ensures Code(v, domain) < Code(w, domain)
  {
    var belowV := set u | u in domain && Below(u, v);
    var belowW := set u | u in domain && Below(u, w);
    forall u | u in belowV ensures u in belowW {
      BelowTransitive(u, v, w);
    }
    BelowIrreflexive(v);
    assert v in belowW && v !in belowV;
    StrictSubsetCardinality(belowV, belowW);
  }

  /** Two classes of the same kind get equal codes exactly when they are
      equal, and a smaller code exactly when they sort first. */
  lemma CodeOrder(v: Class, w: Class, domain: set<Class>)
    requires v in domain && w in domain && v.Word? == w.Word?
    ensures Code(v, domain) == Code(w, domain) <==> v == w
    ensures Code(v, domain) < Code(w, domain) <==> Below(v, w)
  {
    BelowTrichotomy(v, w);
    BelowIrreflexive(v);
    if Below(v, w) {
      CodeMonotone(v, w, domain);
    } else if Below(w, v) {
      CodeMonotone(w, v, domain);
    }
  }

  lemma CellCodes(rows: seq<Config>, k: string, i: nat, j: nat)
    requires i < |rows| && j < |rows| && SlotEverywhere(rows, k) && Sortable(rows, k)
    ensures CodeOf(rows, k, i) == CodeOf(rows, k, j) <==> ClassOf(rows[i].slots[k]) == ClassOf(rows[j].slots[k])
    ensures CodeOf(rows, k, i) < CodeOf(rows, k, j) <==> Below(ClassOf(rows[i].slots[k]), ClassOf(rows[j].slots[k]))
    ensures CodeOf(rows, k, i) < |Domain(rows, k)|
  {
    var d := Domain(rows, k);
    var vi, vj := ClassOf(rows[i].slots[k]), ClassOf(rows[j].slots[k]);
    assert vi in d && vj in d;
    CodeOrder(vi, vj, d);
    CodeBelowClassCount(vi, d);
  }

  /** What the codes of the encoded table mean: within a column, two rows
      share a code exactly when they are the same class (the same string,
      or the same numeric value), a smaller code exactly when their class
      sorts first, and every code lies in [0, classes - 1]. */
  lemma EncodeCodes(rows: seq<Config>, e: Encoded)
    requires forall i :: 0 <= i < |rows| ==> IsDict(rows[i])
    requires Encode(rows) == Ok(e)
    ensures forall i, j, c :: 0 <= i < |rows| && 0 <= j < |rows| && 0 <= c < |e.slots| ==>
              && SlotEverywhere(rows, e.slots[c])
              && (e.codes[i][c] == e.codes[j][c] <==>
                    ClassOf(rows[i].slots[e.slots[c]]) == ClassOf(rows[j].slots[e.slots[c]]))
              && (e.codes[i][c] < e.codes[j][c] <==>
                    Below(ClassOf(rows[i].slots[e.slots[c]]), ClassOf(rows[j].slots[e.slots[c]])))
              && e.codes[i][c] < |Domain(rows, e.slots[c])|
  {
    forall i, j, c | 0 <= i < |rows| && 0 <= j < |rows| && 0 <= c < |e.slots| {
      EncodedPair(rows, e, i, j, c);
    }
  }

  lemma EncodedPair(rows: seq<Config>, e: Encoded, i: nat, j: nat, c: nat)
    requires forall i :: 0 <= i < |rows| ==> IsDict(rows[i])
    requires Encode(rows) == Ok(e)
    requires i < |rows| && j < |rows| && c < |e.slots|
    ensures SlotEverywhere(rows, e.slots[c])
    ensures e.codes[i][c] == e.codes[j][c] <==>
              ClassOf(rows[i].slots[e.slots[c]]) == ClassOf(rows[j].slots[e.slots[c]])
    ensures e.codes[i][c] < e.codes[j][c] <==>
              Below(ClassOf(rows[i].slots[e.slots[c]]), ClassOf(rows[j].slots[e.slots[c]]))
    ensures e.codes[i][c] < |Domain(rows, e.slots[c])|
  {
    var k := e.slots[c];
    assert k in e.slots;
    CellCodes(rows, k, i, j);
  }

  /** Every kept string column has at least two classes. (A kept numeric
      column need not: 1 and 1.0 differ as text but are one class, as
      IntAndFloatShareCode shows.) */
  lemma EncodeKeepsVarying(rows: seq<Config>, e: Encoded)
    requires forall i :: 0 <= i < |rows| ==> IsDict(rows[i])
    requires Encode(rows) == Ok(e)
    ensures forall c :: 0 <= c < |e.slots| ==>
              && SlotEverywhere(rows, e.slots[c])
              && ((forall i :: 0 <= i < |rows| ==> ClassOf(rows[i].slots[e.slots[c]]).Word?) ==>
                    |Domain(rows, e.slots[c])| >= 2)
  {
    forall c | 0 <= c < |e.slots|
      ensures SlotEverywhere(rows, e.slots[c])
      ensures (forall i :: 0 <= i < |rows| ==> ClassOf(rows[i].slots[e.slots[c]]).Word?) ==>
                |Domain(rows, e.slots[c])| >= 2
    {
      assert e.slots[c] in e.slots;
      if forall i :: 0 <= i < |rows| ==> ClassOf(rows[i].slots[e.slots[c]]).Word? {
        KeptDomainSize(rows, e.slots[c]);
      }
    }
  }

  /** A varying string slot has at least two classes. */
  lemma KeptDomainSize(rows: seq<Config>, k: string)
    requires SlotEverywhere(rows, k) && Varies(rows, k)
    requires forall i :: 0 <= i < |rows| ==> ClassOf(rows[i].slots[k]).Word?
    ensures |Domain(rows, k)| >= 2
  {
    VariesIffTwoValues(rows, k);
    var i, j :| && 0 <= i < |rows| && 0 <= j < |rows|
                && rows[i].slots[k].Some? && rows[j].slots[k].Some?
                && Str(rows[i].slots[k].value) != Str(rows[j].slots[k].value);
    assert ClassOf(rows[i].slots[k]).Word? && ClassOf(rows[j].slots[k]).Word?;
    var pair := {ClassOf(rows[i].slots[k]), ClassOf(rows[j].slots[k])};
    assert |pair| == 2;
    SubsetCardinality(pair, Domain(rows, k));
  }

  /** Configurations with the single slot `k` taking the given values. */
  function OneSlot(k: string, values: seq<Option<Literal>>): (rows: seq<Config>)
    ensures |rows| == |values|
    ensures forall i :: 0 <= i < |rows| ==> IsDict(rows[i]) && rows[i].order == [k]
    ensures forall i :: 0 <= i < |rows| ==> k in rows[i].slots && rows[i].slots[k] == values[i]
  {
    seq(|values|, i requires 0 <= i < |values| => Config([k], map[k := values[i]]))
  }

  /** A slot that is "relu" in every configuration does not vary and is
      dropped. */
  lemma ConstantSlotDropped()
    ensures var values := [Some(Text("relu")), Some(Text("relu")), Some(Text("relu"))];
            Encode(OneSlot("act", values)).Ok? && Encode(OneSlot("act", values)).value.slots == []
  {
    var values := [Some(Text("relu")), Some(Text("relu")), Some(Text("relu"))];
    OneSlotDropped("act", values, "relu");
  }

  /** A single slot whose non-null values all have the text `v` is dropped,
      leaving no column. */
  lemma OneSlotDropped(k: string, values: seq<Option<Literal>>, v: string)
    requires |values| > 0
    requires forall i :: 0 <= i < |values| && values[i].Some? ==> Str(values[i].value) == v
    ensures Encode(OneSlot(k, values)).Ok? && Encode(OneSlot(k, values)).value.slots == []
  {
    var rows := OneSlot(k, values);
    assert NonNullValues(rows, k) <= {v};
    SubsetCardinality(NonNullValues(rows, k), {v});
    assert !Varies(rows, k);
    assert rows[0].order == [k];
    assert forall key :: key in rows[0].order ==> SlotEverywhere(rows, key);
    var e := Encode(rows).value;
    assert multiset(e.slots) == multiset{};
  }

  /** A slot taking "relu", "tanh", "relu" varies, is kept, and is encoded
      into exactly two distinct codes. */
  lemma VaryingSlotKept()
    ensures var values := [Some(Text("relu")), Some(Text("tanh")), Some(Text("relu"))];
            && Encode(OneSlot("act", values)).Ok?
            && var e := Encode(OneSlot("act", values)).value;
               && e.slots == ["act"]
               && e.codes[0][0] == e.codes[2][0] != e.codes[1][0]
  {
    var values := [Some(Text("relu")), Some(Text("tanh")), Some(Text("relu"))];
    assert ClassOf(values[0]) == ClassOf(values[2]) == Word("relu") != Word("tanh") == ClassOf(values[1]);
    OneSlotKept("act", values, 0, 1);
    OneSlotCodes("act", values, 0, 2);
    OneSlotCodes("act", values, 0, 1);
  }

  /** A slot holding a number in every configuration is coded in numeric
      order: the smaller number gets the smaller code, whatever the texts
      (so 20, 50 and 100 get increasing codes, where the strings "20", "50"
      and "100" would put "100" first). */
  lemma NumbersSortNumerically(k: string, values: seq<Option<Literal>>, i: nat, j: nat)
    requires i < |values| && j < |values|
    requires forall r :: 0 <= r < |values| ==> values[r].Some? && values[r].value.Number?
    requires Str(values[i].value) != Str(values[j].value)
    ensures Encode(OneSlot(k, values)).Ok? && Encode(OneSlot(k, values)).value.slots == [k]
    ensures var e := Encode(OneSlot(k, values)).value;
            e.codes[i][0] < e.codes[j][0] <==> values[i].value.x < values[j].value.x
  {
    OneSlotKept(k, values, i, j);
    OneSlotOrder(k, values, i, j);
  }

  /** A slot holding a string in every configuration is coded in code-point
      order of the strings. */
  lemma TextSortsByCodePoint(k: string, values: seq<Option<Literal>>, i: nat, j: nat)
    requires i < |values| && j < |values|
    requires forall r :: 0 <= r < |values| ==> values[r].Some? && values[r].value.Text?
    requires values[i].value.s != values[j].value.s
    ensures Encode(OneSlot(k, values)).Ok? && Encode(OneSlot(k, values)).value.slots == [k]
    ensures var e := Encode(OneSlot(k, values)).value;
            e.codes[i][0] < e.codes[j][0] <==> LexLess(values[i].value.s, values[j].value.s)
  {
    OneSlotKept(k, values, i, j);
    OneSlotOrder(k, values, i, j);
  }

  /** The int 1 and the float 1.0 differ as text, so the slot is kept, but
      they are one class and share a code. */
  lemma IntAndFloatShareCode()
    ensures var values := [Some(Number(1.0, "1")), Some(Number(1.0, "1.0"))];
            && Encode(OneSlot("lr", values)).Ok?
            && var e := Encode(OneSlot("lr", values)).value;
               && e.slots == ["lr"]
               && e.codes[0][0] == e.codes[1][0]
  {
    var values := [Some(Number(1.0, "1")), Some(Number(1.0, "1.0"))];
    assert ClassOf(values[0]) == ClassOf(values[1]) == Quantity(1.0);
    OneSlotKept("lr", values, 0, 1);
    OneSlotCodes("lr", values, 0, 1);
  }

  /** A numeric slot that is null in some configuration is kept, but its
      column mixes numbers with the string "None" and cannot be encoded. */
  lemma NullInNumericSlotFails()
    ensures var values := [Some(Number(1.0, "1")), None, Some(Number(2.0, "2"))];
            Encode(OneSlot("lr", values)) == Err(UnsortableSlot("lr"))
  {
    var values := [Some(Number(1.0, "1")), None, Some(Number(2.0, "2"))];
    OneSlotUnsortable("lr", values, 0, 2, 1, 0);
  }

  /** A single slot with two different texts somewhere, whose classes are of
      one kind, is the one column kept. */
  lemma OneSlotKept(k: string, values: seq<Option<Literal>>, p: nat, q: nat)
    requires p < |values| && q < |values| && values[p].Some? && values[q].Some?
    requires Str(values[p].value) != Str(values[q].value)
    requires (forall i :: 0 <= i < |values| ==> ClassOf(values[i]).Word?) ||
             (forall i :: 0 <= i < |values| ==> ClassOf(values[i]).Quantity?)
    ensures Encode(OneSlot(k, values)).Ok?
    ensures Encode(OneSlot(k, values)).value.slots == [k]
  {
    var rows := OneSlot(k, values);
    TwoTextsVary(rows, k, p, q);
    assert Sortable(rows, k);
    SoleSlot(Encode(rows).value.slots, k);
  }

  /** A single slot that varies but mixes a string class with a numeric one
      cannot be encoded. */
  lemma OneSlotUnsortable(k: string, values: seq<Option<Literal>>, p: nat, q: nat, a: nat, b: nat)
    requires p < |values| && q < |values| && values[p].Some? && values[q].Some?
    requires Str(values[p].value) != Str(values[q].value)
    requires a < |values| && b < |values| && ClassOf(values[a]).Word? && ClassOf(values[b]).Quantity?
    ensures Encode(OneSlot(k, values)) == Err(UnsortableSlot(k))
  {
    var rows := OneSlot(k, values);
    TwoTextsVary(rows, k, p, q);
    assert !Sortable(rows, k) by {
      assert ClassOf(rows[a].slots[k]).Word? && ClassOf(rows[b].slots[k]).Quantity?;
    }
    SoleSlotUnsortable(rows, k);
  }

  /** When row 0's only slot is present everywhere and varies but cannot be
      sorted, encoding fails on it. */
  lemma SoleSlotUnsortable(rows: seq<Config>, k: string)
    requires |rows| > 0 && forall i :: 0 <= i < |rows| ==> IsDict(rows[i])
    requires rows[0].order == [k] && SlotEverywhere(rows, k) && Varies(rows, k) && !Sortable(rows, k)
    ensures Encode(rows) == Err(UnsortableSlot(k))
  {
    assert forall key :: key in rows[0].order ==> SlotEverywhere(rows, key);
    assert FirstMissing(rows).None?;
    assert IsDict(rows[0]);
    var kept := KeptSlots(rows);
    SoleSlot(kept, k);
    assert FirstFailing(kept, (key: string) => Sortable(rows, key)) == Some(k);
  }

  /** Two non-null values with different texts make a slot vary. */
  lemma TwoTextsVary(rows: seq<Config>, k: string, p: nat, q: nat)
    requires p < |rows| && q < |rows| && k in rows[p].slots && k in rows[q].slots
    requires rows[p].slots[k].Some? && rows[q].slots[k].Some?
    requires Str(rows[p].slots[k].value) != Str(rows[q].slots[k].value)
    ensures Varies(rows, k)
  {
    var pair := {Str(rows[p].slots[k].value), Str(rows[q].slots[k].value)};
    assert |pair| == 2;
    SubsetCardinality(pair, NonNullValues(rows, k));
  }

  /** With a single kept slot, two rows share their code exactly when they
      are one class. */
  lemma OneSlotCodes(k: string, values: seq<Option<Literal>>, i: nat, j: nat)
    requires i < |values| && j < |values|
    requires Encode(OneSlot(k, values)).Ok? && Encode(OneSlot(k, values)).value.slots == [k]
    ensures var e := Encode(OneSlot(k, values)).value;
            e.codes[i][0] == e.codes[j][0] <==> ClassOf(values[i]) == ClassOf(values[j])
  {
    var rows := OneSlot(k, values);
    EncodedPair(rows, Encode(rows).value, i, j, 0);
  }

  /** With a single kept slot, the smaller code goes to the class that sorts
      first. */
  lemma OneSlotOrder(k: string, values: seq<Option<Literal>>, i: nat, j: nat)
    requires i < |values| && j < |values|
    requires Encode(OneSlot(k, values)).Ok? && Encode(OneSlot(k, values)).value.slots == [k]
    ensures var e := Encode(OneSlot(k, values)).value;
            e.codes[i][0] < e.codes[j][0] <==> Below(ClassOf(values[i]), ClassOf(values[j]))
  {
    var rows := OneSlot(k, values);
    EncodedPair(rows, Encode(rows).value, i, j, 0);
  }

  lemma SoleSlot(xs: seq<string>, a: string)
    requires IsSubsequence(xs, [a]) && a in xs
    ensures xs == [a]
  {
    assert [a][..0] == [];
  }
}

=== FILE: pipeline.dfy ===
/** The bookkeeping of the benchmark harness `RunPipeline`: which detectors
    are registered for a family, which datasets qualify and in what order,
    the experiment parameters, and the four result sheets the sweep fills.
    The data generator, the detectors and the metric are parameters:
    `gen` gives the sizes of the data generated for a dataset and seed,
    `genOk` whether generation for a parameter triple succeeds, and `run`
    the outcome of fitting and scoring one detector on it. */
module Pipeline {
  import opened Tables
  import opened Ranking

  /** The implementation a registered name is bound to. */
  datatype Impl = PyOD | DAGMM | GANomaly | DeepSAD | REPEN | DevNet | PReNet | FEAWAD | Supervised | FTTransformer

  type Registration = (string, Impl)

  /** The names a family registers, in insertion order. */
  function FamilyModels(family: string): (r: Result<seq<Registration>>)
    ensures r.Err? <==> family != "unsupervise" && family != "semi-supervise" && family != "supervise"
    ensures r.Err? ==> r == Err(UnknownFamily(family))
  {
    if family == "unsupervise" then
      Ok([("IForest", PyOD), ("OCSVM", PyOD), ("CBLOF", PyOD), ("COF", PyOD), ("COPOD", PyOD),
          ("ECOD", PyOD), ("FeatureBagging", PyOD), ("HBOS", PyOD), ("KNN", PyOD), ("LODA", PyOD),
          ("LOF", PyOD), ("LSCP", PyOD), ("MCD", PyOD), ("PCA", PyOD), ("SOD", PyOD),
          ("SOGAAL", PyOD), ("MOGAAL", PyOD), ("DeepSVDD", PyOD), ("DAGMM", DAGMM)])
    else if family == "semi-supervise" then
      Ok([("GANomaly", GANomaly), ("DeepSAD", DeepSAD), ("REPEN", REPEN), ("DevNet", DevNet),
          ("PReNet", PReNet), ("FEAWAD", FEAWAD), ("XGBOD", PyOD)])
    else if family == "supervise" then
      Ok([("LR", Supervised), ("NB", Supervised), ("SVM", Supervised), ("MLP", Supervised),
          ("RF", Supervised), ("LGB", Supervised), ("XGB", Supervised), ("CatB", Supervised),
          ("ResNet", FTTransformer), ("FTTransformer", FTTransformer)])
    else
      Err(UnknownFamily(family))
  }

  /** The detectors removed for their computational cost. */
  const Expensive: set<string> := {"SOGAAL", "MOGAAL", "LSCP", "MCD", "FeatureBagging"}

  function Affordable(): Registration -> bool {
    (e: Registration) => e.0 !in Expensive
  }

  /** The registry after pruning: the family's detectors in
      insertion order, without the expensive ones. */
  function BuildRegistry(family: string): (r: Result<seq<Registration>>)
    ensures r.Err? <==> FamilyModels(family).Err?
    ensures r.Err? ==> r == Err(UnknownFamily(family))
    ensures r.Ok? ==> forall e :: e in r.value <==> e in FamilyModels(family).value && e.0 !in Expensive
    ensures r.Ok? ==> IsSubsequence(r.value, FamilyModels(family).value)
  {
    var all :- FamilyModels(family);
    FilterIsSubsequence(all, Affordable());
    Ok(Filter(all, Affordable()))
  }

  function Names(reg: seq<Registration>): (r: seq<string>)
    ensures |r| == |reg| && forall k :: 0 <= k < |reg| ==> r[k] == reg[k].0
  {
    seq(|reg|, k requires 0 <= k < |reg| => reg[k].0)
  }

  /** Filtering a concatenation filters each part. */
  lemma {:induction false} FilterAppend<T(!new)>(xs: seq<T>, ys: seq<T>, keep: T -> bool)
    ensures Filter(xs + ys, keep) == Filter(xs, keep) + Filter(ys, keep)
  {
    if |ys| > 0 {
      var init := ys[..|ys| - 1];
      assert (xs + ys)[..|xs + ys| - 1] == xs + init;
      FilterAppend(xs, init, keep);
    } else {
      assert xs + ys == xs;
    }
  }

  /** Filtering keeps a list whose every element passes. */
  lemma {:induction false} FilterKeepsAll<T(!new)>(xs: seq<T>, keep: T -> bool)
    requires forall k :: 0 <= k < |xs| ==> keep(xs[k])
    ensures Filter(xs, keep) == xs
  {
    if |xs| > 0 {
      FilterKeepsAll(xs[..|xs| - 1], keep);
    }
  }

  /** Filtering removes a list whose every element fails. */
  lemma {:induction false} FilterDropsAll<T(!new)>(xs: seq<T>, keep: T -> bool)
    requires forall k :: 0 <= k < |xs| ==> !keep(xs[k])
    ensures Filter(xs, keep) == []
  {
    if |xs| > 0 {
      FilterDropsAll(xs[..|xs| - 1], keep);
    }
  }

  /** Pruning removes five unsupervised detectors and leaves fourteen, in
      their registration order. */
  lemma UnsupervisedRegistry()
    ensures BuildRegistry("unsupervise") ==
      Ok([("IForest", PyOD), ("OCSVM", PyOD), ("CBLOF", PyOD), ("COF", PyOD), ("COPOD", PyOD), ("ECOD", PyOD),
          ("HBOS", PyOD), ("KNN", PyOD), ("LODA", PyOD), ("LOF", PyOD), ("PCA", PyOD), ("SOD", PyOD),
          ("DeepSVDD", PyOD), ("DAGMM", DAGMM)])
  {
    var kept := UnsupervisedPruned();
  }

  lemma UnsupervisedPruned() returns (kept: seq<Registration>)
    ensures Filter(FamilyModels("unsupervise").value, Affordable()) == kept
    ensures kept == [("IForest", PyOD), ("OCSVM", PyOD), ("CBLOF", PyOD), ("COF", PyOD), ("COPOD", PyOD), ("ECOD", PyOD),
                     ("HBOS", PyOD), ("KNN", PyOD), ("LODA", PyOD), ("LOF", PyOD), ("PCA", PyOD), ("SOD", PyOD),
                     ("DeepSVDD", PyOD), ("DAGMM", DAGMM)]
  {
    var a, b, c, d, e, f, g := UnsupervisedRuns();
    FilterAlternating(a, b, c, d, e, f, g, Affordable());
    kept := a + c + e + g;
  }

  /** The unsupervised registrations as runs of affordable and expensive
      detectors. */
  lemma UnsupervisedRuns() returns (a: seq<Registration>, b: seq<Registration>, c: seq<Registration>,
                                    d: seq<Registration>, e: seq<Registration>, f: seq<Registration>, g: seq<Registration>)
    ensures FamilyModels("unsupervise").value == a + b + c + d + e + f + g
    ensures a + c + e + g ==
      [("IForest", PyOD), ("OCSVM", PyOD), ("CBLOF", PyOD), ("COF", PyOD), ("COPOD", PyOD), ("ECOD", PyOD),
       ("HBOS", PyOD), ("KNN", PyOD), ("LODA", PyOD), ("LOF", PyOD), ("PCA", PyOD), ("SOD", PyOD),
       ("DeepSVDD", PyOD), ("DAGMM", DAGMM)]
    ensures forall k :: 0 <= k < |a| ==> Affordable()(a[k])
    ensures forall k :: 0 <= k < |b| ==> !Affordable()(b[k])
    ensures forall k :: 0 <= k < |c| ==> Affordable()(c[k])
    ensures forall k :: 0 <= k < |d| ==> !Affordable()(d[k])
    ensures forall k :: 0 <= k < |e| ==> Affordable()(e[k])
    ensures forall k :: 0 <= k < |f| ==> !Affordable()(f[k])
    ensures forall k :: 0 <= k < |g| ==> Affordable()(g[k])
  {
    a := [("IForest", PyOD), ("OCSVM", PyOD), ("CBLOF", PyOD), ("COF", PyOD), ("COPOD", PyOD), ("ECOD", PyOD)];
    b := [("FeatureBagging", PyOD)];
    c := [("HBOS", PyOD), ("KNN", PyOD), ("LODA", PyOD), ("LOF", PyOD)];
    d := [("LSCP", PyOD), ("MCD", PyOD)];
    e := [("PCA", PyOD), ("SOD", PyOD)];
    f := [("SOGAAL", PyOD), ("MOGAAL", PyOD)];
    g := [("DeepSVDD", PyOD), ("DAGMM", DAGMM)];
  }

  /** Filtering a list made of runs that alternately pass and fail keeps
      exactly the passing runs. */
  lemma FilterAlternating<T(!new)>(a: seq<T>, b: seq<T>, c: seq<T>, d: seq<T>, e: seq<T>, f: seq<T>, g: seq<T>, keep: T -> bool)
    requires forall k :: 0 <= k < |a| ==> keep(a[k])
    requires forall k :: 0 <= k < |b| ==> !keep(b[k])
    requires forall k :: 0 <= k < |c| ==> keep(c[k])
    requires forall k :: 0 <= k < |d| ==> !keep(d[k])
    requires forall k :: 0 <= k < |e| ==> keep(e[k])
    requires forall k :: 0 <= k < |f| ==> !keep(f[k])
    requires forall k :: 0 <= k < |g| ==> keep(g[k])
    ensures Filter(a + b + c + d + e + f + g, keep) == a + c + e + g
  {
    var ab, abcd, abcdef := a + b, a + b + c + d, a + b + c + d + e + f;
    assert [] + a + b == ab && ab + c + d == abcd && abcd + e + f == abcdef;
    FilterExtend([], a, b, keep);
    assert Filter(ab, keep) == a;
    FilterExtend(ab, c, d, keep);
    assert Filter(abcd, keep) == a + c;
    FilterExtend(abcd, e, f, keep);
    assert Filter(abcdef, keep) == a + c + e;
    FilterAppend(abcdef, g, keep);
    FilterKeepsAll(g, keep);
  }

  /** Appending a passing run and then a failing run to a list adds the
      passing run to what the filter keeps. */
  lemma FilterExtend<T(!new)>(pre: seq<T>, x: seq<T>, y: seq<T>, keep: T -> bool)
    requires forall k :: 0 <= k < |x| ==> keep(x[k])
    requires forall k :: 0 <= k < |y| ==> !keep(y[k])
    ensures Filter(pre + x + y, keep) == Filter(pre, keep) + x
  {
    FilterAppend(pre + x, y, keep);
    FilterAppend(pre, x, keep);
    FilterKeepsAll(x, keep);
    FilterDropsAll(y, keep);
  }

  /** Pruning removes none of the seven semi-supervised detectors. */
  lemma SemiSupervisedRegistry()
    ensures BuildRegistry("semi-supervise") == FamilyModels("semi-supervise")
    ensures |BuildRegistry("semi-supervise").value| == 7
  {
    var all := AllAffordable("semi-supervise");
    FilterKeepsAll(all, Affordable());
  }

  /** Pruning removes none of the ten supervised detectors. */
  lemma SupervisedRegistry()
    ensures BuildRegistry("supervise") == FamilyModels("supervise")
    ensures |BuildRegistry("supervise").value| == 10
  {
    var all := AllAffordable("supervise");
    FilterKeepsAll(all, Affordable());
  }

  /** No detector of the labelled families is expensive. */
  lemma AllAffordable(family: string) returns (all: seq<Registration>)
    requires family == "semi-supervise" || family == "supervise"
    ensures FamilyModels(family) == Ok(all)
    ensures forall k :: 0 <= k < |all| ==> Affordable()(all[k])
  {
    all := FamilyModels(family).value;
  }

  /** The suffix of every saved file. */
  function SavedSuffix(suffix: string, parallel: string): (r: string)
    ensures |r| == |suffix| + 1 + |parallel|
    ensures r[..|suffix|] == suffix && r[|suffix|] == '_' && r[|suffix| + 1..] == parallel
  {
    suffix + "_" + parallel
  }

  /** The sizes of one generated dataset. */
  datatype Sample = Sample(trainSize: nat, testSize: nat, trainAnomalies: nat)

  /** The harness options that decide eligibility. */
  datatype Settings = Settings(mode: string, duplicates: bool, threshold: nat)

  const Seeds: seq<nat> := [1, 2, 3]
  const NlaList: seq<nat> := [0, 1, 5, 10, 25, 50, 75, 100]
  const RlaList: seq<real> := [0.0, 0.01, 0.05, 0.10, 0.25, 0.50, 0.75, 1.00]

  /** The check of one seed: large enough unless duplicates
      are generated, and enough labelled anomalies for the mode — at least
      the last count of `NlaList` in "nla" mode, at least one in "rla" mode;
      any other mode admits nothing. */
  predicate SeedPasses(s: Settings, d: Sample) {
    && (s.duplicates || d.trainSize + d.testSize >= s.threshold)
    && (if s.mode == "nla" then d.trainAnomalies >= NlaList[|NlaList| - 1]
        else s.mode == "rla" && d.trainAnomalies > 0)
  }

  /** A dataset is kept when every seed passes. */
  predicate Eligible(s: Settings, gen: (string, nat) -> Sample, dataset: string) {
    forall k :: 0 <= k < |Seeds| ==> SeedPasses(s, gen(dataset, Seeds[k]))
  }

  function EligibleUnder(s: Settings, gen: (string, nat) -> Sample): string -> bool {
    (d: string) => Eligible(s, gen, d)
  }

  /** The size a kept dataset is ordered by: that of the last seed's data. */
  function Size(gen: (string, nat) -> Sample, dataset: string): nat {
    var d := gen(dataset, Seeds[|Seeds| - 1]);
    d.trainSize + d.testSize
  }

  /** The eligible datasets, in the order they are listed. */
  function Kept(s: Settings, gen: (string, nat) -> Sample, datasets: seq<string>): (r: seq<string>)
    ensures forall d :: d in r <==> d in datasets && Eligible(s, gen, d)
    ensures IsSubsequence(r, datasets)
  {
    FilterIsSubsequence(datasets, EligibleUnder(s, gen));
    Filter(datasets, EligibleUnder(s, gen))
  }

  /** The seed loop of `dataset_filter`: whether every seed
      passes, and the last seed's data. */
  method CheckSeeds(s: Settings, gen: (string, nat) -> Sample, dataset: string) returns (add: bool, last: Sample)
    ensures add <==> Eligible(s, gen, dataset)
    ensures last.trainSize + last.testSize == Size(gen, dataset)
  {
    add := true;
    last := gen(dataset, Seeds[0]);
    var k := 0;
    while k < |Seeds|
      invariant 0 <= k <= |Seeds|
      invariant add <==> forall j :: 0 <= j < k ==> SeedPasses(s, gen(dataset, Seeds[j]))
      invariant k > 0 ==> last == gen(dataset, Seeds[k - 1])
    {
      last := gen(dataset, Seeds[k]);
      if !s.duplicates && last.trainSize + last.testSize < s.threshold {
        add := false;
      } else if s.mode == "nla" && last.trainAnomalies >= NlaList[|NlaList| - 1] {
      } else if s.mode == "rla" && last.trainAnomalies > 0 {
      } else {
        add := false;
      }
      k := k + 1;
    }
  }

  /** `dataset_filter`: keep the eligible datasets, then
      order them by nondecreasing size; equal sizes in any order. */
  method DatasetFilter(s: Settings, gen: (string, nat) -> Sample, datasets: seq<string>) returns (r: seq<string>)
    ensures multiset(r) == multiset(Kept(s, gen, datasets))
    ensures forall d :: d in r <==> d in datasets && Eligible(s, gen, d)
    ensures forall p, q :: 0 <= p < q < |r| ==> Size(gen, r[p]) <= Size(gen, r[q])
    ensures Distinct(datasets) ==> Distinct(r)
  {
    var kept: seq<string> := [];
    var sizes: seq<real> := [];
    var i := 0;
    while i < |datasets|
      invariant 0 <= i <= |datasets|
      invariant kept == Kept(s, gen, datasets[..i])
      invariant |sizes| == |kept| && forall k :: 0 <= k < |kept| ==> sizes[k] == Size(gen, kept[k]) as real
    {
      var add, last := CheckSeeds(s, gen, datasets[i]);
      KeptStep(s, gen, datasets, i);
      if add {
        kept := kept + [datasets[i]];
        sizes := sizes + [(last.trainSize + last.testSize) as real];
      }
      i := i + 1;
    }
    assert datasets[..|datasets|] == datasets;
    if Distinct(datasets) {
      FilterDistinct(datasets, EligibleUnder(s, gen));
    }
    r := OrderBySize(gen, kept, sizes);
  }

  lemma KeptStep(s: Settings, gen: (string, nat) -> Sample, datasets: seq<string>, i: nat)
    requires i < |datasets|
    ensures Kept(s, gen, datasets[..i + 1]) ==
      Kept(s, gen, datasets[..i]) + if Eligible(s, gen, datasets[i]) then [datasets[i]] else []
  {
    assert datasets[..i + 1][..i] == datasets[..i];
  }

  /** Reorder the kept datasets by ascending size: the datasets taken at the
      positions of an argsort of their sizes. */
  method OrderBySize(gen: (string, nat) -> Sample, kept: seq<string>, sizes: seq<real>) returns (r: seq<string>)
    requires |sizes| == |kept| && forall k :: 0 <= k < |kept| ==> sizes[k] == Size(gen, kept[k]) as real
    ensures multiset(r) == multiset(kept)
    ensures forall d :: d in r <==> d in kept
    ensures forall p, q :: 0 <= p < q < |r| ==> Size(gen, r[p]) <= Size(gen, r[q])
    ensures Distinct(kept) ==> Distinct(r)
  {
    var order := Argsort(Lift(sizes));
    ArgsortCoversRows(order, Lift(sizes));
    r := Pick(kept, order);
    PermutedByOrder(kept, order);
    SameMembers(r, kept);
    SortedBySize(gen, kept, sizes, order, r);
    if Distinct(kept) {
      ArgsortDistinct(order, Lift(sizes));
      forall p, q | 0 <= p < q < |r| ensures r[p] != r[q] {
        assert kept[order[p]] == r[p] && kept[order[q]] == r[q];
      }
    }
  }

  lemma SameMembers<T>(xs: seq<T>, ys: seq<T>)
    requires multiset(xs) == multiset(ys)
    ensures forall d :: d in xs <==> d in ys
  {
    assert forall d :: d in xs <==> d in multiset(xs);
    assert forall d :: d in ys <==> d in multiset(ys);
  }

  lemma SortedBySize(gen: (string, nat) -> Sample, kept: seq<string>, sizes: seq<real>, order: seq<nat>, r: seq<string>)
    requires |sizes| == |kept| && forall k :: 0 <= k < |kept| ==> sizes[k] == Size(gen, kept[k]) as real
    requires IsArgsort(order, Lift(sizes)) && |r| == |order|
    requires forall p :: 0 <= p < |order| ==> r[p] == kept[order[p]]
    ensures forall p, q :: 0 <= p < q < |r| ==> Size(gen, r[p]) <= Size(gen, r[q])
  {
    forall p, q | 0 <= p < q < |r| ensures Size(gen, r[p]) <= Size(gen, r[q]) {
      assert KeyLe(Lift(sizes)[order[p]], Lift(sizes)[order[q]]);
    }
  }

  /** Reading a list through a permutation of its positions permutes it. */
  lemma PermutedByOrder<T>(xs: seq<T>, order: seq<nat>)
    requires multiset(order) == multiset(Range(|xs|)) && InRange(order, |xs|)
    ensures multiset(Pick(xs, order)) == multiset(xs)
  {
    PickPermutation(xs, order, Range(|xs|));
    PickRange(xs);
  }

  /** Picking at 0, ..., n - 1 gives back the list. */
  lemma PickRange<T>(xs: seq<T>)
    ensures InRange(Range(|xs|), |xs|) && Pick(xs, Range(|xs|)) == xs
  {
    var all := Pick(xs, Range(|xs|));
    assert forall p :: 0 <= p < |xs| ==> all[p] == xs[p];
  }

  /** The elements of `xs` at the positions `s` lists. */
  function Pick<T>(xs: seq<T>, s: seq<nat>): (r: seq<T>)
    requires InRange(s, |xs|)
    ensures |r| == |s| && forall p :: 0 <= p < |s| ==> r[p] == xs[s[p]]
  {
    seq(|s|, p requires 0 <= p < |s| => xs[s[p]])
  }

  /** Which positions are listed decides the picked elements up to order. */
  lemma {:induction false} PickPermutation<T>(xs: seq<T>, s1: seq<nat>, s2: seq<nat>)
    requires InRange(s1, |xs|) && InRange(s2, |xs|) && multiset(s1) == multiset(s2)
    ensures multiset(Pick(xs, s1)) == multiset(Pick(xs, s2))
    decreases |s1|
  {
    if |s1| == 0 {
      assert |s2| == |multiset(s2)| == 0;
    } else {
      var init, e := s1[..|s1| - 1], s1[|s1| - 1];
      assert e in multiset(s2) by {
        assert s1 == init + [e];
      }
      var q :| 0 <= q < |s2| && s2[q] == e;
      var front, back := s2[..q], s2[q + 1..];
      RemoveOne(s1, s2, q);
      PickPermutation(xs, init, front + back);
      PickAt(xs, s1, |s1| - 1);
      PickAt(xs, s2, q);
      assert s1[..|s1| - 1] + s1[|s1|..] == init;
    }
  }

  /** Picking at every position but `q`, then at `q`, picks the same
      elements as picking at all positions. */
  lemma PickAt<T>(xs: seq<T>, s: seq<nat>, q: nat)
    requires InRange(s, |xs|) && q < |s|
    ensures InRange(s[..q] + s[q + 1..], |xs|)
    ensures multiset(Pick(xs, s)) == multiset(Pick(xs, s[..q] + s[q + 1..])) + multiset{xs[s[q]]}
  {
    var front, back := s[..q], s[q + 1..];
    assert s == (front + [s[q]]) + back;
    PickSplit(xs, front + [s[q]], back);
    PickSplit(xs, front, [s[q]]);
    PickSplit(xs, front, back);
    assert Pick(xs, [s[q]]) == [xs[s[q]]];
  }

  /** Removing the last element of `s1` and its occurrence at `q` in `s2`
      keeps two lists with the same elements alike. */
  lemma RemoveOne(s1: seq<nat>, s2: seq<nat>, q: nat)
    requires multiset(s1) == multiset(s2) && |s1| > 0 && q < |s2| && s2[q] == s1[|s1| - 1]
    ensures multiset(s2[..q] + s2[q + 1..]) == multiset(s1[..|s1| - 1])
  {
    var e := s2[q];
    var rest, init := s2[..q] + s2[q + 1..], s1[..|s1| - 1];
    assert s1 == init + [e];
    assert s2 == s2[..q] + [e] + s2[q + 1..];
    assert multiset(s2) == multiset(s2[..q]) + multiset{e} + multiset(s2[q + 1..]);
    assert multiset(rest) == multiset(s2[..q]) + multiset(s2[q + 1..]);
    assert multiset(rest) + multiset{e} == multiset(init) + multiset{e};
    forall v ensures multiset(rest)[v] == multiset(init)[v] {
      assert (multiset(rest) + multiset{e})[v] == (multiset(init) + multiset{e})[v];
    }
  }

  lemma PickSplit<T>(xs: seq<T>, s: seq<nat>, t: seq<nat>)
    requires InRange(s, |xs|) && InRange(t, |xs|)
    ensures InRange(s + t, |xs|)
    ensures multiset(Pick(xs, s + t)) == multiset(Pick(xs, s)) + multiset(Pick(xs, t))
  {
    assert Pick(xs, s + t) == Pick(xs, s) + Pick(xs, t);
  }

  /** One experiment: a dataset, a labelled-anomaly setting, a seed. */
  datatype Param = Param(dataset: string, la: real, seed: nat)

  /** The labelled-anomaly settings of a mode: counts in "nla" mode, ratios
      otherwise. */
  function LaList(mode: string): (r: seq<real>)
    ensures mode == "nla" ==> |r| == |NlaList| && forall k :: 0 <= k < |r| ==> r[k] == NlaList[k] as real
    ensures mode != "nla" ==> r == RlaList
  {
    if mode == "nla" then seq(|NlaList|, k requires 0 <= k < |NlaList| => NlaList[k] as real) else RlaList
  }

  /** The Cartesian product of datasets, settings and seeds: every triple,
      dataset-major, then by setting, then by seed. */
  function Product(datasets: seq<string>, las: seq<real>, seeds: seq<nat>): (r: seq<Param>)
    ensures |r| == |datasets| * (|las| * |seeds|)
  {
    if |datasets| == 0 then []
    else
      var rest := Product(datasets[1..], las, seeds);
      assert |datasets| * (|las| * |seeds|) == |las| * |seeds| + (|datasets| - 1) * (|las| * |seeds|);
      Block(datasets[0], las, seeds) + rest
  }

  /** The triples of one dataset, by setting then seed. */
  function Block(dataset: string, las: seq<real>, seeds: seq<nat>): (r: seq<Param>)
    ensures |r| == |las| * |seeds|
  {
    if |las| == 0 then []
    else
      assert |las| * |seeds| == |seeds| + (|las| - 1) * |seeds|;
      Row(dataset, las[0], seeds) + Block(dataset, las[1..], seeds)
  }

  function Row(dataset: string, la: real, seeds: seq<nat>): (r: seq<Param>)
    ensures |r| == |seeds| && forall c :: 0 <= c < |seeds| ==> r[c] == Param(dataset, la, seeds[c])
  {
    seq(|seeds|, c requires 0 <= c < |seeds| => Param(dataset, la, seeds[c]))
  }

  /** The position of triple (a, b, c) in the product. */
  function ProductIndex(a: nat, b: nat, c: nat, nLas: nat, nSeeds: nat): nat {
    (a * nLas + b) * nSeeds + c
  }

  lemma MulLe(x: nat, y: nat, k: nat)
    requires x <= y
    ensures x * k <= y * k
  {
  }

  lemma ProductIndexBound(a: nat, b: nat, c: nat, nLas: nat, nSeeds: nat)
    requires b < nLas && c < nSeeds
    ensures ProductIndex(a, b, c, nLas, nSeeds) < (a + 1) * (nLas * nSeeds)
  {
    var x := a * nLas + b;
    assert (x + 1) * nSeeds == x * nSeeds + nSeeds;
    assert (a + 1) * nLas == a * nLas + nLas;
    MulLe(x + 1, (a + 1) * nLas, nSeeds);
    assert ((a + 1) * nLas) * nSeeds == (a + 1) * (nLas * nSeeds);
  }

  lemma ProductIndexShift(a: nat, b: nat, c: nat, nLas: nat, nSeeds: nat)
    requires a > 0
    ensures ProductIndex(a, b, c, nLas, nSeeds) == nLas * nSeeds + ProductIndex(a - 1, b, c, nLas, nSeeds)
  {
    var x := (a - 1) * nLas + b;
    assert a * nLas + b == x + nLas;
    assert (x + nLas) * nSeeds == x * nSeeds + nLas * nSeeds;
  }

  lemma ProductIndexFits(a: nat, b: nat, c: nat, nDatasets: nat, nLas: nat, nSeeds: nat)
    requires a < nDatasets && b < nLas && c < nSeeds
    ensures ProductIndex(a, b, c, nLas, nSeeds) < (a + 1) * (nLas * nSeeds) <= nDatasets * (nLas * nSeeds)
  {
    ProductIndexBound(a, b, c, nLas, nSeeds);
    MulLe(a + 1, nDatasets, nLas * nSeeds);
  }

  /** Triple (a, b, c) sits at position (a * |las| + b) * |seeds| + c. */
  lemma {:induction false} ProductAt(datasets: seq<string>, las: seq<real>, seeds: seq<nat>, a: nat, b: nat, c: nat)
    requires a < |datasets| && b < |las| && c < |seeds|
    ensures ProductIndex(a, b, c, |las|, |seeds|) < |Product(datasets, las, seeds)|
    ensures Product(datasets, las, seeds)[ProductIndex(a, b, c, |las|, |seeds|)] == Param(datasets[a], las[b], seeds[c])
  {
    ProductIndexFits(a, b, c, |datasets|, |las|, |seeds|);
    var block := Block(datasets[0], las, seeds);
    var rest := Product(datasets[1..], las, seeds);
    var idx := ProductIndex(a, b, c, |las|, |seeds|);
    assert Product(datasets, las, seeds) == block + rest;
    if a == 0 {
      BlockAt(datasets[0], las, seeds, b, c);
    } else {
      ProductIndexShift(a, b, c, |las|, |seeds|);
      ProductAt(datasets[1..], las, seeds, a - 1, b, c);
      assert idx - |block| == ProductIndex(a - 1, b, c, |las|, |seeds|);
      assert (block + rest)[idx] == rest[idx - |block|];
      assert datasets[a] == datasets[1..][a - 1];
    }
  }

  lemma {:induction false} BlockAt(dataset: string, las: seq<real>, seeds: seq<nat>, b: nat, c: nat)
    requires b < |las| && c < |seeds|
    ensures ProductIndex(0, b, c, |las|, |seeds|) < |Block(dataset, las, seeds)|
    ensures Block(dataset, las, seeds)[ProductIndex(0, b, c, |las|, |seeds|)] == Param(dataset, las[b], seeds[c])
  {
    ProductIndexBound(b, 0, c, 1, |seeds|);
    MulLe(b + 1, |las|, |seeds|);
    assert ProductIndex(0, b, c, |las|, |seeds|) == ProductIndex(b, 0, c, 1, |seeds|);
    var row := Row(dataset, las[0], seeds);
    var rest := Block(dataset, las[1..], seeds);
    assert Block(dataset, las, seeds) == row + rest;
    if b > 0 {
      ProductIndexShift(b, 0, c, 1, |seeds|);
      BlockAt(dataset, las[1..], seeds, b - 1, c);
      assert ProductIndex(0, b - 1, c, |las| - 1, |seeds|) == ProductIndex(b - 1, 0, c, 1, |seeds|);
      assert las[b] == las[1..][b - 1];
    }
  }

  /** The product holds exactly the triples drawn from the three lists. */
  lemma {:induction false} ProductMembers(datasets: seq<string>, las: seq<real>, seeds: seq<nat>, p: Param)
    ensures p in Product(datasets, las, seeds) <==> p.dataset in datasets && p.la in las && p.seed in seeds
  {
    if |datasets| > 0 {
      ProductMembers(datasets[1..], las, seeds, p);
      BlockMembers(datasets[0], las, seeds, p);
      assert Product(datasets, las, seeds) == Block(datasets[0], las, seeds) + Product(datasets[1..], las, seeds);
      assert datasets == [datasets[0]] + datasets[1..];
    }
  }

  lemma {:induction false} BlockMembers(dataset: string, las: seq<real>, seeds: seq<nat>, p: Param)
    ensures p in Block(dataset, las, seeds) <==> p.dataset == dataset && p.la in las && p.seed in seeds
  {
    if |las| > 0 {
      BlockMembers(dataset, las[1..], seeds, p);
      var row := Row(dataset, las[0], seeds);
      assert Block(dataset, las, seeds) == row + Block(dataset, las[1..], seeds);
      assert las == [las[0]] + las[1..];
      if p.dataset == dataset && p.la == las[0] && p.seed in seeds {
        var c :| 0 <= c < |seeds| && seeds[c] == p.seed;
        assert row[c] == p;
      }
    }
  }

  /** A cell of a result sheet: never written (NaN from the empty frame), or
      written with a value that may be missing (NaN or None). */
  datatype SheetCell = Blank | Recorded(value: Option<real>)

  /** What fitting and scoring one detector gives: the two metrics and the
      two durations, or failure (any exception inside `model_fit`). */
  datatype Outcome = Scored(aucroc: real, aucpr: real, fitTime: real, inferenceTime: real) | Failed

  /** The four result sheets, one row per parameter triple and one column
      per registered detector. */
  datatype Sheets = Sheets(aucroc: seq<seq<SheetCell>>, aucpr: seq<seq<SheetCell>>, fitTime: seq<seq<SheetCell>>, inferenceTime: seq<seq<SheetCell>>)

  /** The cells one detector's outcome writes: a
      failure becomes NaN metrics and None durations. */
  function Written(o: Outcome): (r: (SheetCell, SheetCell, SheetCell, SheetCell))
    ensures r.0.Recorded? && r.1.Recorded? && r.2.Recorded? && r.3.Recorded?
    ensures o.Failed? <==> r.0.value.None?
    ensures o.Failed? ==> r.1.value.None? && r.2.value.None? && r.3.value.None?
    ensures o.Scored? ==> r == (Recorded(Some(o.aucroc)), Recorded(Some(o.aucpr)),
                               Recorded(Some(o.fitTime)), Recorded(Some(o.inferenceTime)))
  {
    match o
    case Failed => (Recorded(None), Recorded(None), Recorded(None), Recorded(None))
    case Scored(roc, pr, ft, it) => (Recorded(Some(roc)), Recorded(Some(pr)), Recorded(Some(ft)), Recorded(Some(it)))
  }

  /** A parameter row is processed unless the family is unsupervised and
      labels are asked for, or data generation raises. */
  predicate Processed(family: string, p: Param, genOk: Param -> bool) {
    && !(family == "unsupervise" && p.la != 0.0)
    && genOk(p)
  }

  /** The four cells of row `i` and column `m` in `s`. */
  function CellsAt(s: Sheets, i: nat, m: nat): (SheetCell, SheetCell, SheetCell, SheetCell)
    requires i < |s.aucroc| && i < |s.aucpr| && i < |s.fitTime| && i < |s.inferenceTime|
    requires m < |s.aucroc[i]| && m < |s.aucpr[i]| && m < |s.fitTime[i]| && m < |s.inferenceTime[i]|
  {
    (s.aucroc[i][m], s.aucpr[i][m], s.fitTime[i][m], s.inferenceTime[i][m])
  }

  predicate Shaped(s: Sheets, rows: nat, cols: nat) {
    && |s.aucroc| == rows && |s.aucpr| == rows && |s.fitTime| == rows && |s.inferenceTime| == rows
    && forall i :: 0 <= i < rows ==>
         |s.aucroc[i]| == cols && |s.aucpr[i]| == cols && |s.fitTime[i]| == cols && |s.inferenceTime[i]| == cols
  }

  /** The four cells the sweep leaves at a parameter row for a detector. */
  function Expected(family: string, p: Param, model: string, genOk: Param -> bool, run: (string, Param) -> Outcome)
    : (SheetCell, SheetCell, SheetCell, SheetCell)
  {
    if Processed(family, p, genOk) then Written(run(model, p)) else (Blank, Blank, Blank, Blank)
  }

  /** The sweep of `run`: every processed parameter row gets
      an entry for every detector in all four sheets; skipped rows stay
      blank. */
  method Sweep(family: string, params: seq<Param>, models: seq<string>,
               genOk: Param -> bool, run: (string, Param) -> Outcome) returns (s: Sheets)
    ensures Shaped(s, |params|, |models|)
    ensures forall i, m :: 0 <= i < |params| && 0 <= m < |models| ==>
      CellsAt(s, i, m) == Expected(family, params[i], models[m], genOk, run)
  {
    s := Sheets([], [], [], []);
    var i := 0;
    while i < |params|
      invariant 0 <= i <= |params|
      invariant Shaped(s, i, |models|)
      invariant forall k, m :: 0 <= k < i && 0 <= m < |models| ==>
        CellsAt(s, k, m) == Expected(family, params[k], models[m], genOk, run)
    {
      var p := params[i];
      var roc, pr, ft, it := SweepRow(family, p, models, genOk, run);
      s := Sheets(s.aucroc + [roc], s.aucpr + [pr], s.fitTime + [ft], s.inferenceTime + [it]);
      i := i + 1;
    }
  }

  /** One parameter row of the four sheets. */
  method SweepRow(family: string, p: Param, models: seq<string>,
                  genOk: Param -> bool, run: (string, Param) -> Outcome)
    returns (roc: seq<SheetCell>, pr: seq<SheetCell>, ft: seq<SheetCell>, it: seq<SheetCell>)
    ensures |roc| == |models| && |pr| == |models| && |ft| == |models| && |it| == |models|
    ensures forall m :: 0 <= m < |models| ==> (roc[m], pr[m], ft[m], it[m]) == Expected(family, p, models[m], genOk, run)
  {
    roc, pr, ft, it := [], [], [], [];
    var m := 0;
    while m < |models|
      invariant 0 <= m <= |models|
      invariant |roc| == m && |pr| == m && |ft| == m && |it| == m
      invariant forall j :: 0 <= j < m ==> (roc[j], pr[j], ft[j], it[j]) == Expected(family, p, models[j], genOk, run)
    {
      var cells := if Processed(family, p, genOk) then Written(run(models[m], p)) else (Blank, Blank, Blank, Blank);
      roc, pr, ft, it := roc + [cells.0], pr + [cells.1], ft + [cells.2], it + [cells.3];
      m := m + 1;
    }
  }

  /** An unsupervised sweep writes only rows without labelled anomalies. */
  lemma UnsupervisedWritesOnlyZeroLa(params: seq<Param>, models: seq<string>,
                                     genOk: Param -> bool, run: (string, Param) -> Outcome, s: Sheets, i: nat, m: nat)
    requires Shaped(s, |params|, |models|) && i < |params| && m < |models|
    requires CellsAt(s, i, m) == Expected("unsupervise", params[i], models[m], genOk, run)
    ensures s.aucroc[i][m] != Blank ==> params[i].la == 0.0
  {
  }

  /** A detector that fails still gets its row in all four sheets: NaN
      metrics and None durations, never a blank. */
  lemma FailureStillRecorded(family: string, p: Param, model: string, genOk: Param -> bool, run: (string, Param) -> Outcome)
    requires Processed(family, p, genOk) && run(model, p).Failed?
    ensures Expected(family, p, model, genOk, run) == (Recorded(None), Recorded(None), Recorded(None), Recorded(None))
  {
  }

  /** What one harness run leaves: the kept datasets in the order run, the
      parameter rows, the detector columns and the sheets. */
  datatype Experiment = Experiment(datasets: seq<string>, params: seq<Param>, models: seq<string>, sheets: Sheets)

  /** The whole harness: the registry (an unknown family aborts before
      anything runs), the kept datasets in size order, their parameter
      product, and the filled sheets. */
  method RunPipeline(s: Settings, family: string, datasets: seq<string>, gen: (string, nat) -> Sample,
                     genOk: Param -> bool, run: (string, Param) -> Outcome)
    returns (r: Result<Experiment>)
    ensures r.Err? <==> FamilyModels(family).Err?
    ensures r.Err? ==> r == Err(UnknownFamily(family))
    ensures r.Ok? ==> && r.value.models == Names(BuildRegistry(family).value)
                      && multiset(r.value.datasets) == multiset(Kept(s, gen, datasets))
                      && (forall p, q :: 0 <= p < q < |r.value.datasets| ==>
                            Size(gen, r.value.datasets[p]) <= Size(gen, r.value.datasets[q]))
                      && r.value.params == Product(r.value.datasets, LaList(s.mode), Seeds)
                      && Shaped(r.value.sheets, |r.value.params|, |r.value.models|)
                      && forall i, m :: 0 <= i < |r.value.params| && 0 <= m < |r.value.models| ==>
                           CellsAt(r.value.sheets, i, m) == Expected(family, r.value.params[i], r.value.models[m], genOk, run)
  {
    var registry := BuildRegistry(family);
    if registry.Err? {
      return Err(registry.error);
    }
    var kept := DatasetFilter(s, gen, datasets);
    var params := Product(kept, LaList(s.mode), Seeds);
    var models := Names(registry.value);
    var sheets := Sweep(family, params, models, genOk, run);
    return Ok(Experiment(kept, params, models, sheets));
  }
}

=== FILE: ranking.dfy ===
/** The argsort used by the pipeline to rank rows. numpy and torch sort in
    ascending order, put NaN after every number, and do not promise any order
    among equal keys; descending rankings are obtained by sorting negated
    keys. The model gives one concrete argsort (an insertion sort) and states
    every property that matters about ANY order satisfying `IsArgsort`. */
module Ranking {
  import opened Tables

  /** Ascending order on possibly missing keys: a missing key (NaN) is
      greater than every number and equal to another missing key. */
  predicate KeyLe(a: Cell, b: Cell) {
    match a
    case None => b.None?
    case Some(x) => b.None? || x <= b.value
  }

  /** The positions 0, 1, ..., n - 1. */
  function Range(n: nat): (r: seq<nat>)
    ensures |r| == n
    ensures forall k :: 0 <= k < n ==> r[k] == k
  {
    if n == 0 then [] else Range(n - 1) + [n - 1]
  }

  predicate InRange(order: seq<nat>, n: nat) {
    forall k :: 0 <= k < |order| ==> order[k] < n
  }

  predicate SortedBy(order: seq<nat>, keys: seq<Cell>)
    requires InRange(order, |keys|)
  {
    forall p, q :: 0 <= p < q < |order| ==> KeyLe(keys[order[p]], keys[order[q]])
  }

  /** `order` is an answer an argsort of `keys` may give: every row position
      exactly once, keys ascending, ties in any order. */
  predicate IsArgsort(order: seq<nat>, keys: seq<Cell>) {
    && multiset(order) == multiset(Range(|keys|))
    && InRange(order, |keys|)
    && SortedBy(order, keys)
  }

  /** An argsort lists every row, and only rows. */
  lemma ArgsortCoversRows(order: seq<nat>, keys: seq<Cell>)
    requires IsArgsort(order, keys)
    ensures |order| == |keys|
    ensures forall r :: 0 <= r < |keys| ==> r in order
  {
    assert |multiset(order)| == |multiset(Range(|keys|))|;
    forall r | 0 <= r < |keys| ensures r in order {
      assert Range(|keys|)[r] == r;
      assert r in multiset(Range(|keys|));
    }
  }

  /** An argsort lists every row at most once. */
  lemma ArgsortDistinct(order: seq<nat>, keys: seq<Cell>)
    requires IsArgsort(order, keys)
    ensures Distinct(order)
  {
    forall p, q | 0 <= p < q < |order| ensures order[p] != order[q] {
      if order[p] == order[q] {
        var v := order[p];
        assert order == order[..q] + order[q..];
        assert order[..q][p] == v && order[q..][0] == v;
        assert multiset(order)[v] == multiset(order[..q])[v] + multiset(order[q..])[v];
        RangeCountsOnce(|keys|, v);
        assert false;
      }
    }
  }

  /** Each position occurs at most once among 0, ..., n - 1. */
  lemma {:induction false} RangeCountsOnce(n: nat, v: nat)
    ensures multiset(Range(n))[v] <= 1
  {
    if n > 0 {
      RangeCountsOnce(n - 1, v);
      assert Range(n) == Range(n - 1) + [n - 1];
      if v == n - 1 {
        assert v !in Range(n - 1);
      }
    }
  }

  lemma KeyLeTotal(a: Cell, b: Cell)
    ensures KeyLe(a, b) || KeyLe(b, a)
  {
  }

  lemma KeyLeTransitive(a: Cell, b: Cell, c: Cell)
    requires KeyLe(a, b) && KeyLe(b, c)
    ensures KeyLe(a, c)
  {
  }

  /** Insert position `x` into the ranked list `s`, after every position
      whose key is not greater than x's. */
  function Insert(keys: seq<Cell>, x: nat, s: seq<nat>): (r: seq<nat>)
    requires x < |keys| && InRange(s, |keys|)
    ensures multiset(r) == multiset(s) + multiset{x}
    ensures InRange(r, |keys|)
  {
    if |s| == 0 then [x]
    else if KeyLe(keys[s[0]], keys[x]) then
      assert s == [s[0]] + s[1..];
      [s[0]] + Insert(keys, x, s[1..])
    else
      [x] + s
  }

  /** Inserting into a ranked list keeps it ranked. */
  lemma {:induction false} InsertSorted(keys: seq<Cell>, x: nat, s: seq<nat>)
    requires x < |keys| && InRange(s, |keys|) && SortedBy(s, keys)
    ensures SortedBy(Insert(keys, x, s), keys)
  {
    if |s| > 0 {
      if KeyLe(keys[s[0]], keys[x]) {
        InsertSorted(keys, x, s[1..]);
        InsertBehind(keys, x, s);
      } else {
        InsertInFront(keys, x, s);
      }
    }
  }

  /** Inserting behind the head keeps the head first and the rest sorted. */
  lemma InsertBehind(keys: seq<Cell>, x: nat, s: seq<nat>)
    requires x < |keys| && InRange(s, |keys|) && SortedBy(s, keys) && |s| > 0
    requires KeyLe(keys[s[0]], keys[x])
    requires SortedBy(Insert(keys, x, s[1..]), keys)
    ensures SortedBy(Insert(keys, x, s), keys)
  {
    var r := Insert(keys, x, s);
    var tail := s[1..];
    var rest := Insert(keys, x, tail);
    assert r == [s[0]] + rest;
    forall p, q | 0 <= p < q < |r| ensures KeyLe(keys[r[p]], keys[r[q]]) {
      if p == 0 {
        var y := rest[q - 1];
        assert y in multiset(rest);
        if y != x {
          assert y in tail;
          var j :| 0 <= j < |tail| && tail[j] == y;
          assert s[j + 1] == y;
        }
      } else {
        assert r[p] == rest[p - 1] && r[q] == rest[q - 1];
      }
    }
  }

  /** Inserting before a larger head puts the new position first. */
  lemma InsertInFront(keys: seq<Cell>, x: nat, s: seq<nat>)
    requires x < |keys| && InRange(s, |keys|) && SortedBy(s, keys) && |s| > 0
    requires !KeyLe(keys[s[0]], keys[x])
    ensures SortedBy(Insert(keys, x, s), keys)
  {
    var r := Insert(keys, x, s);
    KeyLeTotal(keys[s[0]], keys[x]);
    assert r == [x] + s;
    forall p, q | 0 <= p < q < |r| ensures KeyLe(keys[r[p]], keys[r[q]]) {
      if p == 0 {
        if q > 1 {
          KeyLeTransitive(keys[x], keys[s[0]], keys[s[q - 1]]);
        }
      } else {
        assert r[p] == s[p - 1] && r[q] == s[q - 1];
      }
    }
  }

  function SortPrefix(keys: seq<Cell>, m: nat): (r: seq<nat>)
    requires m <= |keys|
    ensures multiset(r) == multiset(Range(m))
    ensures InRange(r, |keys|) && SortedBy(r, keys)
  {
    if m == 0 then []
    else
      var last: nat := m - 1;
      var s := SortPrefix(keys, last);
      InsertSorted(keys, last, s);
      assert multiset(Range(m)) == multiset(Range(last)) + multiset{last} by {
        assert Range(m) == Range(last) + [last];
      }
      Insert(keys, last, s)
  }

  /** A concrete argsort; equal keys keep their row order. */
  function Argsort(keys: seq<Cell>): (order: seq<nat>)
    ensures IsArgsort(order, keys)
  {
    SortPrefix(keys, |keys|)
  }

  /** Scores of a predictor, none of them missing. */
  function Lift(xs: seq<real>): (r: seq<Cell>)
    ensures |r| == |xs|
    ensures forall k :: 0 <= k < |xs| ==> r[k] == Some(xs[k])
  {
    seq(|xs|, k requires 0 <= k < |xs| => Some(xs[k]))
  }

  /** `-x` elementwise; the negation of NaN is NaN. */
  function Negate(keys: seq<Cell>): (r: seq<Cell>)
    ensures |r| == |keys|
    ensures forall k :: 0 <= k < |keys| ==> r[k].None? == keys[k].None?
    ensures forall k :: 0 <= k < |keys| && keys[k].Some? ==> r[k] == Some(-keys[k].value)
  {
    seq(|keys|, k requires 0 <= k < |keys| =>
      match keys[k] case None => None case Some(x) => Some(-x))
  }
}

=== FILE: selection.dfy ===
/** The leakage-guarded selector of `meta_predict` / `meta_predict_end2end`
    and the two deterministic baselines of `run`: walk the configuration rows
    in descending order of some score and return the first ground-truth cell
    of the target dataset that is not missing. The score decides only the
    order of the walk; the value returned is always a ground-truth cell. */
module Selection {
  import opened Tables
  import opened Ranking

  /** The ranked walk: the first position of `order` whose truth cell is
      present, or None when the walk runs out. */
  function FirstLegal(order: seq<nat>, truth: seq<Cell>): (r: Option<nat>)
    requires InRange(order, |truth|)
    ensures r.Some? ==> r.value < |truth| && truth[r.value].Some?
    ensures r.Some? ==> exists p :: && 0 <= p < |order| && order[p] == r.value
                                    && forall q :: 0 <= q < p ==> truth[order[q]].None?
    ensures r.None? <==> forall p :: 0 <= p < |order| ==> truth[order[p]].None?
  {
    if |order| == 0 then None
    else if truth[order[0]].Some? then Some(order[0])
    else
      var rest := FirstLegal(order[1..], truth);
      assert forall p :: 1 <= p < |order| ==> order[p] == order[1..][p - 1];
      if rest.Some? then
        ghost var p :| && 0 <= p < |order[1..]| && order[1..][p] == rest.value
                      && forall q :: 0 <= q < p ==> truth[order[1..][q]].None?;
        assert order[p + 1] == rest.value;
        rest
      else
        rest
  }

  /** `row` has a present truth cell, and no row with a present truth cell
      comes strictly earlier in the ascending order of `keys`. */
  predicate IsMinimalLegal(row: nat, keys: seq<Cell>, truth: seq<Cell>)
    requires |keys| == |truth|
  {
    && row < |truth| && truth[row].Some?
    && forall r :: 0 <= r < |truth| && truth[r].Some? ==> KeyLe(keys[row], keys[r])
  }

  /** Walking any argsort of `keys` picks a row that is minimal among the
      rows with a present truth cell, and finds none only when every truth
      cell is missing. */
  lemma {:induction false} WalkPicksMinimal(order: seq<nat>, keys: seq<Cell>, truth: seq<Cell>)
    requires |keys| == |truth| && IsArgsort(order, keys)
    ensures FirstLegal(order, truth).Some? ==> IsMinimalLegal(FirstLegal(order, truth).value, keys, truth)
    ensures FirstLegal(order, truth).None? <==> forall r :: 0 <= r < |truth| ==> truth[r].None?
  {
    ArgsortCoversRows(order, keys);
    var pick := FirstLegal(order, truth);
    if pick.Some? {
      var row := pick.value;
      var p :| && 0 <= p < |order| && order[p] == row
               && forall q :: 0 <= q < p ==> truth[order[q]].None?;
      forall r | 0 <= r < |truth| && truth[r].Some? ensures KeyLe(keys[row], keys[r]) {
        assert r in order;
        var q :| 0 <= q < |order| && order[q] == r;
        if q != p {
          assert p < q;
        }
      }
    } else {
      forall r | 0 <= r < |truth| ensures truth[r].None? {
        assert r in order;
        var q :| 0 <= q < |order| && order[q] == r;
      }
    }
  }

  /** `row` has a present truth cell and no row with a present truth cell
      has a strictly higher predicted score. */
  predicate IsBestLegal(row: nat, scores: seq<real>, truth: seq<Cell>)
    requires |scores| == |truth|
  {
    && row < |truth| && truth[row].Some?
    && forall r :: 0 <= r < |truth| && truth[r].Some? ==> scores[r] <= scores[row]
  }

  /** Descending order of scores is ascending order of negated scores. */
  lemma MinimalIsBest(row: nat, scores: seq<real>, truth: seq<Cell>)
    requires |scores| == |truth| && IsMinimalLegal(row, Negate(Lift(scores)), truth)
    ensures IsBestLegal(row, scores, truth)
  {
    var keys := Negate(Lift(scores));
    forall r | 0 <= r < |truth| && truth[r].Some? ensures scores[r] <= scores[row] {
      assert KeyLe(keys[row], keys[r]);
    }
  }

  /** The walk of `meta_predict`, with the empty walk made
      an explicit error: rank the rows by descending predicted score (the
      scores stand for the meta-predictor's output, one per configuration
      row of the encoded table) and return the first present cell of the
      target dataset's ground-truth column. */
  function MetaPredict(scores: seq<real>, test: Frame, dataset: string): (r: Result<real>)
    requires test.Valid() && |scores| == |test.labels|
    ensures r == Err(MissingColumn(dataset)) <==> !test.HasColumn(dataset)
    ensures r.Ok? ==> && Lookup(test, dataset).Ok?
                      && exists row: nat :: && IsBestLegal(row, scores, Lookup(test, dataset).value)
                                           && Lookup(test, dataset).value[row] == Some(r.value)
    ensures r == Err(NoLegalPick) <==>
      Lookup(test, dataset).Ok? && forall i :: 0 <= i < |Lookup(test, dataset).value| ==> Lookup(test, dataset).value[i].None?
    ensures r.Err? ==> r == Err(MissingColumn(dataset)) || r == Err(NoLegalPick)
  {
    var truth :- Lookup(test, dataset);
    var keys := Negate(Lift(scores));
    var order := Argsort(keys);
    ColumnLength(test, dataset);
    WalkPicksMinimal(order, keys, truth);
    match FirstLegal(order, truth)
    case None => Err(NoLegalPick)
    case Some(row) =>
      MinimalIsBest(row, scores, truth);
      Ok(truth[row].value)
  }

  /** A looked-up column has a cell per configuration row. */
  lemma ColumnLength(f: Frame, name: string)
    requires f.Valid() && Lookup(f, name).Ok?
    ensures |Lookup(f, name).value| == |f.labels|
  {
    var c :| c in f.columns && c.name == name;
  }

  /** The leakage guard under ties: whatever argsort the library returns,
      the walk stops at a row whose score equals that of any other possible
      stop. */
  lemma TiedPicksScoreAlike(order1: seq<nat>, order2: seq<nat>, scores: seq<real>, truth: seq<Cell>)
    requires |scores| == |truth|
    requires IsArgsort(order1, Negate(Lift(scores))) && IsArgsort(order2, Negate(Lift(scores)))
    ensures FirstLegal(order1, truth).Some? <==> FirstLegal(order2, truth).Some?
    ensures FirstLegal(order1, truth).Some? ==>
      scores[FirstLegal(order1, truth).value] == scores[FirstLegal(order2, truth).value]
  {
    var keys := Negate(Lift(scores));
    WalkPicksMinimal(order1, keys, truth);
    WalkPicksMinimal(order2, keys, truth);
    if FirstLegal(order1, truth).Some? {
      MinimalIsBest(FirstLegal(order1, truth).value, scores, truth);
      MinimalIsBest(FirstLegal(order2, truth).value, scores, truth);
    }
  }

  /** The walk exactly as written: the loop variable keeps the last cell it
      read, so when every cell is missing the last (missing) cell is
      returned. */
  function WalkAsWritten(order: seq<nat>, truth: seq<Cell>): Cell
    requires |order| > 0 && InRange(order, |truth|)
  {
    if truth[order[0]].Some? || |order| == 1 then truth[order[0]]
    else WalkAsWritten(order[1..], truth)
  }

  /** `meta_predict` as written. With no rows at all the loop never binds
      `pred_performance` (an UnboundLocalError); with rows whose cells are
      all missing it returns a missing value. */
  function MetaPredictAsWritten(scores: seq<real>, test: Frame, dataset: string): (r: Result<Cell>)
    requires test.Valid() && |scores| == |test.labels|
    ensures |test.labels| == 0 ==> r == Err(UnboundPick)
    ensures |test.labels| > 0 && !test.HasColumn(dataset) ==> r == Err(MissingColumn(dataset))
    ensures r.Err? <==> |test.labels| == 0 || !test.HasColumn(dataset)
    ensures r.Ok? ==> r.value.None? || exists row :: 0 <= row < |test.labels| && Lookup(test, dataset).value[row] == r.value
  {
    if |scores| == 0 then Err(UnboundPick)
    else
      var truth :- Lookup(test, dataset);
      ColumnLength(test, dataset);
      var keys := Negate(Lift(scores));
      var order := Argsort(keys);
      ArgsortCoversRows(order, keys);
      WalkAsWrittenAgrees(order, truth);
      Ok(WalkAsWritten(order, truth))
  }

  /** The as-written walk returns the corrected walk's pick whenever there
      is one, and otherwise the last cell it read, which is missing. */
  lemma {:induction false} WalkAsWrittenAgrees(order: seq<nat>, truth: seq<Cell>)
    requires |order| > 0 && InRange(order, |truth|)
    ensures FirstLegal(order, truth).Some? ==> WalkAsWritten(order, truth) == truth[FirstLegal(order, truth).value]
    ensures FirstLegal(order, truth).None? ==> WalkAsWritten(order, truth).None?
  {
    if !(truth[order[0]].Some? || |order| == 1) {
      assert InRange(order[1..], |truth|);
      WalkAsWrittenAgrees(order[1..], truth);
    }
  }

  /** Where a legal pick exists the two versions agree; where none exists
      but rows do, the as-written selector reports a missing value as a
      successful prediction instead of failing. */
  lemma MetaPredictAsWrittenDiffers(scores: seq<real>, test: Frame, dataset: string)
    requires test.Valid() && |scores| == |test.labels|
    ensures MetaPredict(scores, test, dataset).Ok? ==>
      MetaPredictAsWritten(scores, test, dataset) == Ok(Some(MetaPredict(scores, test, dataset).value))
    ensures MetaPredict(scores, test, dataset) == Err(NoLegalPick) && |test.labels| > 0 ==>
      MetaPredictAsWritten(scores, test, dataset) == Ok(None)
  {
    if test.HasColumn(dataset) {
      var truth := Lookup(test, dataset).value;
      var keys := Negate(Lift(scores));
      var order := Argsort(keys);
      ArgsortCoversRows(order, keys);
      if |order| > 0 {
        WalkAsWrittenAgrees(order, truth);
      }
    }
  }

  /** A one-configuration table whose only cell for dataset "A" is missing. */
  function OneMissingCell(): (f: Frame)
    ensures f.Valid() && |f.labels| == 1
  {
    Frame([Config([], map[])], [Column("A", [None])])
  }

  /** The input that shows the fall-through: the as-written selector
      "succeeds" with a missing value, while the corrected one reports that
      no legal pick exists. */
  lemma FallThroughCounterexample()
    ensures MetaPredictAsWritten([0.5], OneMissingCell(), "A") == Ok(None)
    ensures MetaPredict([0.5], OneMissingCell(), "A") == Err(NoLegalPick)
  {
    var f := OneMissingCell();
    assert f.columns[0] in f.columns;
    MetaPredictAsWrittenDiffers([0.5], f, "A");
  }

  /** Three configurations C1, C2, C3 and two datasets; C2's cell for
      dataset A is missing and C1's is 0.87. */
  function ThreeByTwo(): (f: Frame)
    ensures f.Valid() && |f.labels| == 3
  {
    var c := Config([], map[]);
    Frame([c, c, c], [Column("A", [Some(0.87), None, Some(0.5)]), Column("B", [Some(0.6), Some(0.7), Some(0.8)])])
  }

  /** A predictor ranking the configurations C2, C1, C3 for dataset A makes
      the selector return 0.87: C2 is skipped because its cell is missing. */
  lemma SkipsMissingBestScore()
    ensures MetaPredict([0.6, 0.9, 0.1], ThreeByTwo(), "A") == Ok(0.87)
  {
    var f := ThreeByTwo();
    var scores := [0.6, 0.9, 0.1];
    assert f.columns[0] in f.columns;
    var cells := Lookup(f, "A").value;
    assert cells == [Some(0.87), None, Some(0.5)];
    PicksOnlyBest(scores, f, "A", 0);
  }

  /** When a single row is best legal, the selector returns its cell. */
  lemma PicksOnlyBest(scores: seq<real>, test: Frame, dataset: string, row: nat)
    requires test.Valid() && |scores| == |test.labels| && Lookup(test, dataset).Ok?
    requires IsBestLegal(row, scores, Lookup(test, dataset).value)
    requires forall r :: 0 <= r < |scores| && r != row && Lookup(test, dataset).value[r].Some? ==> scores[r] < scores[row]
    ensures MetaPredict(scores, test, dataset) == Ok(Lookup(test, dataset).value[row].value)
  {
    var cells := Lookup(test, dataset).value;
    var r := MetaPredict(scores, test, dataset);
    assert r.Ok?;
    var pick: nat :| IsBestLegal(pick, scores, cells) && cells[pick] == Some(r.value);
    assert scores[row] <= scores[pick];
  }

  /** Position `i` of the training column stops the "ss" walk: it is not a
      row label of the test table (the lookup raises), or its test cell is
      present. */
  predicate Stops(i: nat, truth: seq<Cell>) {
    i >= |truth| || truth[i].Some?
  }

  /** `row` is where the "ss" walk stops: a stopping position that is minimal
      in the key order among all stopping positions of the training column. */
  predicate IsFirstStop(row: nat, keys: seq<Cell>, truth: seq<Cell>) {
    && row < |keys| && Stops(row, truth)
    && forall i :: 0 <= i < |keys| && Stops(i, truth) ==> KeyLe(keys[row], keys[i])
  }

  /** The test cells the walk reads at the first `n` positions; a position
      past the test table's rows is given a present marker, so that a walk
      over these cells stops exactly where the lookups of the "ss" walk stop. */
  function ReadCells(truth: seq<Cell>, n: nat): (r: seq<Cell>)
    ensures |r| == n
    ensures forall i :: 0 <= i < n ==> (r[i].Some? <==> Stops(i, truth))
    ensures forall i :: 0 <= i < n && i < |truth| ==> r[i] == truth[i]
  {
    seq(n, i requires 0 <= i < n => if i < |truth| then truth[i] else Some(0.0))
  }

  /** A minimal present read cell is a first stop of the walk. */
  lemma ReadCellsStops(row: nat, keys: seq<Cell>, truth: seq<Cell>)
    requires IsMinimalLegal(row, keys, ReadCells(truth, |keys|))
    ensures IsFirstStop(row, keys, truth)
  {
    var cells := ReadCells(truth, |keys|);
    forall i | 0 <= i < |keys| && Stops(i, truth) ensures KeyLe(keys[row], keys[i]) {
      assert cells[i].Some?;
    }
  }

  /** The "ss" baseline (the walk in `run`): walk the training column's
      positions in descending order of its values (missing values last),
      read each position as a row label of the test table, and take the
      first present test cell; the default 0 is kept when the walk finds
      none. The tables may differ in length: a shorter training table leaves
      the trailing test rows unread, and a position past the test table's
      rows makes the lookup raise when the walk reaches it. */
  function SameSplitBaseline(train: Frame, test: Frame, dataset: string): (r: Result<real>)
    requires train.Valid() && test.Valid()
    ensures !train.HasColumn(dataset) ==> r == Err(MissingColumn(dataset))
    ensures |train.labels| > 0 && !test.HasColumn(dataset) ==> r == Err(MissingColumn(dataset))
    ensures |train.labels| <= |test.labels| ==>
              (r.Err? <==> !train.HasColumn(dataset) || (|train.labels| > 0 && !test.HasColumn(dataset)))
    ensures r.Err? ==> || r == Err(MissingColumn(dataset))
                       || (r.error.MissingRow? && |test.labels| <= r.error.row < |train.labels|)
    ensures r.Ok? && !test.HasColumn(dataset) ==> r.value == 0.0
    ensures r.Err? && train.HasColumn(dataset) && test.HasColumn(dataset) ==> r.error.MissingRow?
    ensures r.Err? && r.error.MissingRow? ==>
      && train.HasColumn(dataset) && test.HasColumn(dataset)
      && IsFirstStop(r.error.row, Negate(Lookup(train, dataset).value), Lookup(test, dataset).value)
    ensures r.Ok? && test.HasColumn(dataset) ==>
      var keys := Negate(Lookup(train, dataset).value);
      var truth := Lookup(test, dataset).value;
      || (exists row: nat :: row < |truth| && IsFirstStop(row, keys, truth) && truth[row] == Some(r.value))
      || ((forall i :: 0 <= i < |keys| ==> !Stops(i, truth)) && r.value == 0.0)
  {
    var trained :- Lookup(train, dataset);
    ColumnLength(train, dataset);
    var keys := Negate(trained);
    var order := Argsort(keys);
    assert |order| == |train.labels| by {
      assert |multiset(order)| == |multiset(Range(|keys|))|;
    }
    if |order| == 0 then Ok(0.0)
    else
      var truth :- Lookup(test, dataset);
      ColumnLength(test, dataset);
      SameSplitWalk(order, keys, truth)
  }

  /** The walk itself, over an argsort of the negated training column. */
  function SameSplitWalk(order: seq<nat>, keys: seq<Cell>, truth: seq<Cell>): (r: Result<real>)
    requires IsArgsort(order, keys)
    ensures r.Err? ==> r.error.MissingRow? && |truth| <= r.error.row < |keys| && IsFirstStop(r.error.row, keys, truth)
    ensures r.Ok? ==> || (exists row: nat :: row < |truth| && IsFirstStop(row, keys, truth) && truth[row] == Some(r.value))
                      || ((forall i :: 0 <= i < |keys| ==> !Stops(i, truth)) && r.value == 0.0)
  {
    var cells := ReadCells(truth, |keys|);
    WalkPicksMinimal(order, keys, cells);
    match FirstLegal(order, cells)
    case None =>
      assert forall i :: 0 <= i < |keys| ==> !Stops(i, truth) by {
        forall i | 0 <= i < |keys| ensures !Stops(i, truth) {
          assert cells[i].None?;
        }
      }
      Ok(0.0)
    case Some(row) =>
      ReadCellsStops(row, keys, truth);
      if row < |truth| then Ok(truth[row].value) else Err(MissingRow(row))
  }

  /** The positions the "rs" loop draws: `draw(k)` stands for the value
      `np.random.choice` returns on iteration `k`, reduced to one of the `n`
      training positions, so every run of in-range draws is one of these.
      The loop draws once per training row. */
  function Draws(draw: nat -> nat, n: nat): (r: seq<nat>)
    ensures |r| == n && InRange(r, n)
    ensures forall k :: 0 <= k < n ==> r[k] == draw(k) % n
  {
    seq(n, k requires 0 <= k < n => draw(k) % n)
  }

  /** Draw `k` is where the "rs" loop stops: its position stops the loop,
      and no earlier draw's does. */
  predicate IsFirstDraw(k: nat, picks: seq<nat>, truth: seq<Cell>) {
    && k < |picks| && Stops(picks[k], truth)
    && forall j :: 0 <= j < k ==> !Stops(picks[j], truth)
  }

  /** The "rs" baseline (the random-search loop in `run`, which runs before
      the "ss" walk): draw a training position once per training row, read
      it as a row label of the test table, and take the first present test
      cell; the default 0 is kept when no draw finds one. With no training
      rows nothing is read; a drawn position past the test table's rows
      makes the lookup raise. */
  function RandomSearch(train: Frame, test: Frame, dataset: string, draw: nat -> nat): (r: Result<real>)
    requires test.Valid()
    ensures |train.labels| == 0 ==> r == Ok(0.0)
    ensures |train.labels| > 0 && !test.HasColumn(dataset) ==> r == Err(MissingColumn(dataset))
    ensures |train.labels| <= |test.labels| ==> (r.Err? <==> |train.labels| > 0 && !test.HasColumn(dataset))
    ensures r.Err? ==> || r == Err(MissingColumn(dataset))
                       || (r.error.MissingRow? && |test.labels| <= r.error.row < |train.labels|)
    ensures r.Err? && r.error.MissingRow? ==>
      && test.HasColumn(dataset)
      && exists k :: 0 <= k < |train.labels| && IsFirstDraw(k, Draws(draw, |train.labels|), Lookup(test, dataset).value)
                     && Draws(draw, |train.labels|)[k] == r.error.row
    ensures r.Ok? && |train.labels| > 0 ==>
      && test.HasColumn(dataset)
      && DrawWalkFinds(Draws(draw, |train.labels|), Lookup(test, dataset).value, r.value)
  {
    var n := |train.labels|;
    if n == 0 then Ok(0.0)
    else
      var truth :- Lookup(test, dataset);
      ColumnLength(test, dataset);
      DrawWalk(Draws(draw, n), truth, n)
  }

  /** What a successful "rs" loop returns: the present cell at the first
      stopping draw, or the default 0 when no draw stops the loop. */
  predicate DrawWalkFinds(picks: seq<nat>, truth: seq<Cell>, v: real) {
    || (exists k :: 0 <= k < |picks| && IsFirstDraw(k, picks, truth) && picks[k] < |truth| && truth[picks[k]] == Some(v))
    || ((forall k :: 0 <= k < |picks| ==> !Stops(picks[k], truth)) && v == 0.0)
  }

  /** The loop itself, over drawn positions below `n`. */
  function DrawWalk(picks: seq<nat>, truth: seq<Cell>, n: nat): (r: Result<real>)
    requires InRange(picks, n)
    ensures r.Err? ==> && r.error.MissingRow? && |truth| <= r.error.row < n
                       && exists k :: 0 <= k < |picks| && IsFirstDraw(k, picks, truth) && picks[k] == r.error.row
    ensures r.Ok? ==> DrawWalkFinds(picks, truth, r.value)
  {
    var cells := ReadCells(truth, n);
    match FirstLegal(picks, cells)
    case None =>
      assert forall k :: 0 <= k < |picks| ==> !Stops(picks[k], truth) by {
        forall k | 0 <= k < |picks| ensures !Stops(picks[k], truth) {
          assert cells[picks[k]].None?;
        }
      }
      Ok(0.0)
    case Some(row) =>
      var p :| && 0 <= p < |picks| && picks[p] == row
               && forall q :: 0 <= q < p ==> cells[picks[q]].None?;
      assert IsFirstDraw(p, picks, truth);
      if row < |truth| then Ok(truth[row].value) else Err(MissingRow(row))
  }

  /** The first stopping draw is unique. */
  lemma FirstDrawUnique(k1: nat, k2: nat, picks: seq<nat>, truth: seq<Cell>)
    requires IsFirstDraw(k1, picks, truth) && IsFirstDraw(k2, picks, truth)
    ensures k1 == k2
  {
  }

  /** With training rows and the dataset's test column, the "rs" loop
      raises iff its first stopping draw lands past the test table's rows;
      it succeeds whenever every draw up to the first present cell lands on
      a test row. */
  lemma RandomSearchRaisesIff(train: Frame, test: Frame, dataset: string, draw: nat -> nat)
    requires test.Valid() && |train.labels| > 0 && test.HasColumn(dataset)
    ensures var picks := Draws(draw, |train.labels|);
            var truth := Lookup(test, dataset).value;
            RandomSearch(train, test, dataset, draw).Err? <==>
              exists k :: 0 <= k < |picks| && IsFirstDraw(k, picks, truth) && picks[k] >= |truth|
  {
    var picks := Draws(draw, |train.labels|);
    var truth := Lookup(test, dataset).value;
    if k :| 0 <= k < |picks| && IsFirstDraw(k, picks, truth) && picks[k] >= |truth| {
      // the walk's first present read cell is that of draw k
      var cells := ReadCells(truth, |train.labels|);
      assert cells[picks[k]].Some?;
      var row := FirstLegal(picks, cells).value;
      var p :| && 0 <= p < |picks| && picks[p] == row
               && forall q :: 0 <= q < p ==> cells[picks[q]].None?;
      assert IsFirstDraw(p, picks, truth);
      FirstDrawUnique(p, k, picks, truth);
    }
  }

  /** gt bounds rs when gt is not negative; when gt is missing, rs is its
      default 0. */
  lemma GroundTruthDominatesRandomSearch(train: Frame, test: Frame, dataset: string, draw: nat -> nat)
    requires test.Valid()
    requires RandomSearch(train, test, dataset, draw).Ok? && GroundTruthBaseline(test, dataset).Ok?
    ensures var rs := RandomSearch(train, test, dataset, draw).value;
            var gt := GroundTruthBaseline(test, dataset).value;
            && (gt.Some? && 0.0 <= gt.value ==> rs <= gt.value)
            && (gt.None? ==> rs == 0.0)
  {
    var rs := RandomSearch(train, test, dataset, draw).value;
    var n := |train.labels|;
    if n > 0 {
      var truth := Lookup(test, dataset).value;
      var picks := Draws(draw, n);
      assert DrawWalkFinds(picks, truth, rs);
      if k :| 0 <= k < |picks| && IsFirstDraw(k, picks, truth) && picks[k] < |truth| && truth[picks[k]] == Some(rs) {
        BelowMax(truth, picks[k]);
      }
    }
  }

  /** A training column of one row and a test column of two: the walk reads
      only test row 0, whose cell is missing, so ss keeps its default
      although test row 1 holds 0.8. */
  lemma ShorterTrainingLeavesRowsUnread(train: Frame, test: Frame, dataset: string)
    requires train.Valid() && test.Valid()
    requires Lookup(train, dataset) == Ok([Some(0.9)])
    requires Lookup(test, dataset) == Ok([None, Some(0.8)])
    ensures SameSplitBaseline(train, test, dataset) == Ok(0.0)
    ensures GroundTruthBaseline(test, dataset) == Ok(Some(0.8))
  {
    ColumnLength(train, dataset);
    ColumnLength(test, dataset);
    var truth: seq<Cell> := [None, Some(0.8)];
    assert !Stops(0, truth);
    assert ColumnMax(truth) == Some(0.8) by {
      assert truth[..1] == [None];
    }
  }

  /** When the position the walk must stop at first lies past the test
      table's rows, the "ss" baseline raises on that position. */
  lemma StopPastTestRaises(train: Frame, test: Frame, dataset: string, x: nat)
    requires train.Valid() && test.Valid() && train.HasColumn(dataset) && test.HasColumn(dataset)
    requires var keys := Negate(Lookup(train, dataset).value);
             var truth := Lookup(test, dataset).value;
             && |truth| <= x < |keys|
             && forall i :: 0 <= i < |keys| && i != x && Stops(i, truth) ==> !KeyLe(keys[i], keys[x])
    ensures SameSplitBaseline(train, test, dataset) == Err(MissingRow(x))
  {
    var keys := Negate(Lookup(train, dataset).value);
    var truth := Lookup(test, dataset).value;
    ColumnLength(train, dataset);
    assert Stops(x, truth);
    forall row: nat | row < |truth| ensures !IsFirstStop(row, keys, truth) {
      assert Stops(row, truth) ==> !KeyLe(keys[row], keys[x]);
    }
    var r := SameSplitBaseline(train, test, dataset);
    assert r.Err? && r.error.MissingRow?;
    assert KeyLe(keys[r.error.row], keys[x]);
  }

  /** When the position the walk must stop at first is a test row, the
      "ss" baseline is that row's present cell. */
  lemma StopOnTestReads(train: Frame, test: Frame, dataset: string, x: nat)
    requires train.Valid() && test.Valid() && train.HasColumn(dataset) && test.HasColumn(dataset)
    requires var keys := Negate(Lookup(train, dataset).value);
             var truth := Lookup(test, dataset).value;
             && x < |keys| && x < |truth| && truth[x].Some?
             && forall i :: 0 <= i < |keys| && i != x && Stops(i, truth) ==> !KeyLe(keys[i], keys[x])
    ensures SameSplitBaseline(train, test, dataset) == Ok(Lookup(test, dataset).value[x].value)
  {
    var keys := Negate(Lookup(train, dataset).value);
    var truth := Lookup(test, dataset).value;
    ColumnLength(train, dataset);
    assert Stops(x, truth);
    forall row: nat | row < |keys| && row != x ensures !IsFirstStop(row, keys, truth) {
      assert Stops(row, truth) ==> !KeyLe(keys[row], keys[x]);
    }
    var r := SameSplitBaseline(train, test, dataset);
    assert r.Ok?;
    var row: nat :| row < |truth| && IsFirstStop(row, keys, truth) && truth[row] == Some(r.value);
    assert row == x;
  }

  /** A training column of two rows and a test column of one: the walk
      starts at position 1, the better training value, which is not a row
      label of the test table, so the lookup raises. */
  lemma LongerTrainingRaises(train: Frame, test: Frame, dataset: string)
    requires train.Valid() && test.Valid()
    requires Lookup(train, dataset) == Ok([Some(0.5), Some(0.9)])
    requires Lookup(test, dataset) == Ok([Some(0.7)])
    ensures SameSplitBaseline(train, test, dataset) == Err(MissingRow(1))
  {
    var keys := Negate([Some(0.5), Some(0.9)]);
    assert keys[0] == Some(-0.5) && keys[1] == Some(-0.9);
    StopPastTestRaises(train, test, dataset, 1);
  }

  /** A training column of two rows (0.9, 0.5) and a test column of one
      (0.7): the "ss" walk starts at position 0 and reads test row 0, so
      ss and gt are both 0.7. */
  lemma SameSplitReadsFirstRow(train: Frame, test: Frame, dataset: string)
    requires train.Valid() && test.Valid()
    requires Lookup(train, dataset) == Ok([Some(0.9), Some(0.5)])
    requires Lookup(test, dataset) == Ok([Some(0.7)])
    ensures SameSplitBaseline(train, test, dataset) == Ok(0.7)
    ensures GroundTruthBaseline(test, dataset) == Ok(Some(0.7))
  {
    var truth := Lookup(test, dataset).value;
    assert SameSplitBaseline(train, test, dataset) == Ok(0.7) by {
      var keys := Negate(Lookup(train, dataset).value);
      assert keys[0] == Some(-0.9) && keys[1] == Some(-0.5);
      assert !KeyLe(keys[1], keys[0]);
      StopOnTestReads(train, test, dataset, 0);
    }
    assert ColumnMax(truth) == Some(0.7) by {
      assert truth[..0] == [];
    }
  }

  /** The same tables under "rs": a first draw of position 1, which is not
      a test row label, raises; draws of position 0 read test row 0. */
  lemma DrawPastTestRaises(train: Frame, test: Frame, dataset: string)
    requires train.Valid() && test.Valid()
    requires Lookup(train, dataset) == Ok([Some(0.9), Some(0.5)])
    requires Lookup(test, dataset) == Ok([Some(0.7)])
    ensures RandomSearch(train, test, dataset, k => 1) == Err(MissingRow(1))
    ensures RandomSearch(train, test, dataset, k => 0) == Ok(0.7)
  {
    ColumnLength(train, dataset);
    ColumnLength(test, dataset);
    var truth: seq<Cell> := [Some(0.7)];
    var ones := Draws(k => 1, 2);
    assert ones[0] == 1 && IsFirstDraw(0, ones, truth);
    RandomSearchRaisesIff(train, test, dataset, k => 1);
    var zeros := Draws(k => 0, 2);
    assert zeros[0] == 0 && IsFirstDraw(0, zeros, truth);
  }

  /** The largest present cell; None when every cell is missing (pandas'
      maximum skips NaN and is NaN for an all-NaN column). */
  function ColumnMax(cells: seq<Cell>): (r: Option<real>)
    ensures r.Some? ==> exists i :: 0 <= i < |cells| && cells[i] == Some(r.value)
    ensures r.Some? ==> forall i :: 0 <= i < |cells| && cells[i].Some? ==> cells[i].value <= r.value
    ensures r.None? <==> forall i :: 0 <= i < |cells| ==> cells[i].None?
  {
    if |cells| == 0 then None
    else
      var init := cells[..|cells| - 1];
      var rest := ColumnMax(init);
      assert forall i :: 0 <= i < |init| ==> init[i] == cells[i];
      match cells[|cells| - 1]
      case None => rest
      case Some(x) =>
        if rest.Some? && x <= rest.value then rest else Some(x)
  }

  /** The "gt" baseline: the best present test cell. */
  function GroundTruthBaseline(test: Frame, dataset: string): (r: Result<Option<real>>)
    requires test.Valid()
    ensures !test.HasColumn(dataset) ==> r == Err(MissingColumn(dataset))
    ensures r.Err? <==> !test.HasColumn(dataset)
    ensures r.Ok? ==> Lookup(test, dataset).Ok? && r.value == ColumnMax(Lookup(test, dataset).value)
  {
    var truth :- Lookup(test, dataset);
    Ok(ColumnMax(truth))
  }

  /** A present cell is never above the column maximum. */
  lemma BelowMax(cells: seq<Cell>, row: nat)
    requires row < |cells| && cells[row].Some?
    ensures ColumnMax(cells).Some? && cells[row].value <= ColumnMax(cells).value
  {
  }

  /** gt is an upper bound of every leakage-guarded pick. */
  lemma GroundTruthDominatesMeta(scores: seq<real>, test: Frame, dataset: string)
    requires test.Valid() && |scores| == |test.labels| && MetaPredict(scores, test, dataset).Ok?
    ensures GroundTruthBaseline(test, dataset).Ok?
    ensures GroundTruthBaseline(test, dataset).value.Some?
    ensures MetaPredict(scores, test, dataset).value <= GroundTruthBaseline(test, dataset).value.value
  {
    var v := MetaPredict(scores, test, dataset).value;
    var cells := Lookup(test, dataset).value;
    var row: nat :| IsBestLegal(row, scores, cells) && cells[row] == Some(v);
    BelowMax(cells, row);
  }

  /** gt is an upper bound of ss; when gt is missing, ss is its default 0.
      A training table shorter than the test table can leave every read cell
      missing while a later test row is present; ss is then the default 0,
      which is below gt for the non-negative scores of the metrics used. */
  lemma GroundTruthDominatesSameSplit(train: Frame, test: Frame, dataset: string)
    requires train.Valid() && test.Valid()
    requires SameSplitBaseline(train, test, dataset).Ok? && GroundTruthBaseline(test, dataset).Ok?
    ensures var ss := SameSplitBaseline(train, test, dataset).value;
            var gt := GroundTruthBaseline(test, dataset).value;
            && (gt.Some? && (|train.labels| >= |test.labels| || 0.0 <= gt.value) ==> ss <= gt.value)
            && (gt.None? ==> ss == 0.0)
  {
    var ss := SameSplitBaseline(train, test, dataset).value;
    var gt := GroundTruthBaseline(test, dataset).value;
    ColumnLength(train, dataset);
    ColumnLength(test, dataset);
    var keys := Negate(Lookup(train, dataset).value);
    var truth := Lookup(test, dataset).value;
    if gt.Some? && |keys| >= |truth| {
      // a present test cell is read, so the walk cannot end with the default
      var j :| 0 <= j < |truth| && truth[j] == Some(gt.value);
      assert Stops(j, truth);
    }
    if exists row: nat :: row < |truth| && IsFirstStop(row, keys, truth) && truth[row] == Some(ss) {
      var row: nat :| row < |truth| && IsFirstStop(row, keys, truth) && truth[row] == Some(ss);
      BelowMax(truth, row);
    }
  }
}

=== FILE: tables.dfy ===
/** Shared vocabulary of the meta-selection pipeline: optional and
    failure-carrying values, the errors the pipeline raises, parsed
    configuration labels, and the performance tables written by the
    benchmark harness and read by the meta-selector. */
module Tables {

  /** A value that may be absent. As a table cell, None is the missing
      marker (NaN in the results files), which is never read as zero. */
  datatype Option<+T> = None | Some(value: T)

  /** The exceptions of the pipeline that the model keeps. */
  datatype Error =
    | NoConfigurations            // row 0 of an empty results table does not exist
    | MissingSlot(slot: string)   // a configuration lacks a slot that row 0 has
    | UnsortableSlot(slot: string) // a kept slot mixes strings (or a null) with numbers
    | MissingColumn(name: string) // a dataset column that is not in the table
    | MissingTable(la: nat)       // no results file for this labelled-anomaly count
    | EmptyTrainingSet            // stacking zero training examples
    | RaggedComponents            // stacking encoded configurations of unequal lengths
    | SingleExample               // squeezing one training example to a scalar
    | MissingRow(row: nat)        // a row label that is not in the table
    | GenerationFailed(dataset: string) // the data generator raised for this dataset
    | NoLegalPick                 // every ranked candidate is missing for the target
    | UnboundPick                 // the ranked walk never ran (no candidates at all)
    | UnknownFamily(family: string)
    | UnknownMode(mode: string)

  datatype Result<+T> = Ok(value: T) | Err(error: Error) {
    predicate IsFailure() { Err? }

    function PropagateFailure<U>(): Result<U>
      requires Err?
    {
      Err(error)
    }

    function Extract(): T
      requires Ok?
    {
      value
    }
  }

  /** All the values when every step succeeds; otherwise the first error, as
      a loop that stops at its first exception does. */
  function Collect<T>(rs: seq<Result<T>>): (r: Result<seq<T>>)
    ensures r.Ok? <==> forall i :: 0 <= i < |rs| ==> rs[i].Ok?
    ensures r.Ok? ==> |r.value| == |rs| && forall i :: 0 <= i < |rs| ==> rs[i] == Ok(r.value[i])
    ensures r.Err? ==> exists i :: && 0 <= i < |rs| && rs[i] == Err(r.error)
                                   && forall j :: 0 <= j < i ==> rs[j].Ok?
  {
    if |rs| == 0 then Ok([])
    else
      var before := Collect(rs[..|rs| - 1]);
      assert forall i :: 0 <= i < |rs| - 1 ==> rs[..|rs| - 1][i] == rs[i];
      if before.Err? then before
      else if rs[|rs| - 1].Err? then Err(rs[|rs| - 1].error)
      else Ok(before.value + [rs[|rs| - 1].value])
  }

  /** One cell of a performance table. */
  type Cell = Option<real>

  /** A value of a configuration literal: a string; a number (an int or a
      float), with its value and the text `str` gives it, which tells 1 from
      1.0; or a boolean. */
  datatype Literal = Text(s: string) | Number(x: real, text: string) | Flag(b: bool)

  /** A parsed configuration label: the slot names in the order the
      dictionary literal lists them, and the value of each slot (None for a
      null). */
  datatype Config = Config(order: seq<string>, slots: map<string, Option<Literal>>)

  predicate Distinct<T(==)>(xs: seq<T>) {
    forall p, q :: 0 <= p < q < |xs| ==> xs[p] != xs[q]
  }

  /** What every parsed dictionary satisfies: each key listed once, and the
      listed keys are exactly the keys that have a value. */
  predicate IsDict(c: Config) {
    && Distinct(c.order)
    && (forall k :: k in c.order ==> k in c.slots)
    && (forall k :: k in c.slots ==> k in c.order)
  }

  /** One dataset column of a results table. */
  datatype Column = Column(name: string, cells: seq<Cell>)

  /** One results file: a row per configuration (the Components label column,
      held in `labels`) and a column per dataset. */
  datatype Frame = Frame(labels: seq<Config>, columns: seq<Column>) {

    /** Every column has a cell per row, and column names are unique (the
        CSV reader renames repeated headers). */
    predicate Valid() {
      && (forall c :: c in columns ==> |c.cells| == |labels|)
      && Distinct(columns)
      && (forall c, d :: c in columns && d in columns && c.name == d.name ==> c == d)
    }

    predicate HasColumn(name: string) {
      exists c :: c in columns && c.name == name
    }
  }

  /** The elements of `xs` that satisfy `keep`, in their original order. */
  function Filter<T(==, !new)>(xs: seq<T>, keep: T -> bool): (r: seq<T>)
    ensures forall x :: x in r <==> x in xs && keep(x)
    ensures |r| <= |xs|
  {
    if |xs| == 0 then []
    else Filter(xs[..|xs| - 1], keep) + (if keep(xs[|xs| - 1]) then [xs[|xs| - 1]] else [])
  }

  /** `xs` can be obtained from `ys` by deleting elements. */
  predicate IsSubsequence<T(==)>(xs: seq<T>, ys: seq<T>)
    decreases |ys|
  {
    if |xs| == 0 then true
    else if |ys| == 0 then false
    else if xs[|xs| - 1] == ys[|ys| - 1] then IsSubsequence(xs[..|xs| - 1], ys[..|ys| - 1])
    else IsSubsequence(xs, ys[..|ys| - 1])
  }

  /** Filtering deletes elements and never reorders the survivors. */
  lemma {:induction false} FilterIsSubsequence<T(!new)>(xs: seq<T>, keep: T -> bool)
    ensures IsSubsequence(Filter(xs, keep), xs)
  {
    if |xs| > 0 {
      var init, last := xs[..|xs| - 1], xs[|xs| - 1];
      FilterIsSubsequence(init, keep);
      var r := Filter(xs, keep);
      if keep(last) {
        assert r[..|r| - 1] == Filter(init, keep);
      } else {
        assert r == Filter(init, keep);
        if |r| > 0 {
          assert r[|r| - 1] in init;
          assert keep(r[|r| - 1]);
        }
      }
    }
  }

  /** Filtering a list without repetitions yields one without repetitions. */
  lemma {:induction false} FilterDistinct<T(!new)>(xs: seq<T>, keep: T -> bool)
    requires Distinct(xs)
    ensures Distinct(Filter(xs, keep))
  {
    if |xs| > 0 {
      var init, last := xs[..|xs| - 1], xs[|xs| - 1];
      assert Distinct(init) by {
        forall p, q | 0 <= p < q < |init| ensures init[p] != init[q] {
          assert init[p] == xs[p] && init[q] == xs[q];
        }
      }
      FilterDistinct(init, keep);
      if keep(last) {
        assert last !in init by {
          forall p | 0 <= p < |init| ensures init[p] != last {
            assert init[p] == xs[p] && last == xs[|xs| - 1];
          }
        }
        var r := Filter(xs, keep);
        var fi := Filter(init, keep);
        assert r == fi + [last];
        forall p, q | 0 <= p < q < |r| ensures r[p] != r[q] {
          if q == |r| - 1 {
            assert r[p] == fi[p];
            assert fi[p] in init;
          } else {
            assert r[p] == fi[p] && r[q] == fi[q];
          }
        }
      }
    }
  }

  /** The cells of the column called `name`; a missing column is a KeyError. */
  function Lookup(f: Frame, name: string): (r: Result<seq<Cell>>)
    requires f.Valid()
    ensures !f.HasColumn(name) ==> r == Err(MissingColumn(name))
    ensures forall c :: c in f.columns && c.name == name ==> r == Ok(c.cells)
  {
    FindColumn(f.columns, name)
  }

  function FindColumn(columns: seq<Column>, name: string): (r: Result<seq<Cell>>)
    ensures r.Err? ==> r == Err(MissingColumn(name)) && forall c :: c in columns ==> c.name != name
    ensures r.Ok? ==> exists c :: c in columns && c.name == name && c.cells == r.value
  {
    if |columns| == 0 then Err(MissingColumn(name))
    else if columns[0].name == name then Ok(columns[0].cells)
    else FindColumn(columns[1..], name)
  }

  /** Remove the dataset column `name`, as the results table does before
      assembly. Dropping a column that is not there is a KeyError. */
  function DropColumn(f: Frame, name: string): (r: Result<Frame>)
    requires f.Valid()
    ensures !f.HasColumn(name) ==> r == Err(MissingColumn(name))
    ensures f.HasColumn(name) ==> r.Ok?
    ensures r.Ok? ==> && r.value.Valid()
                      && r.value.labels == f.labels
                      && r.value.columns == Filter(f.columns, OtherThan(name))
                      && !r.value.HasColumn(name)
                      && (forall c :: c in r.value.columns <==> c in f.columns && c.name != name)
                      && IsSubsequence(r.value.columns, f.columns)
  {
    if !f.HasColumn(name) then Err(MissingColumn(name))
    else
      var keep := OtherThan(name);
      FilterIsSubsequence(f.columns, keep);
      FilterDistinct(f.columns, keep);
      Ok(Frame(f.labels, Filter(f.columns, keep)))
  }

  /** The columns that survive dropping `name`. */
  function OtherThan(name: string): Column -> bool {
    (c: Column) => c.name != name
  }
}

=== FILE: training_set.dfy ===
/** Assembly of the meta-learner's training data (`meta_fit` and
    `meta_fit_end2end` up to, not including, scaling and training). For each
    labelled-anomaly count the results table loses the held-out dataset's
    column, its configurations are re-encoded, and every non-missing cell
    becomes one training example. */
module TrainingSet {
  import opened Tables
  import opened Components

  /** The labelled-anomaly counts the meta-learner is trained on, in order. */
  const LaCandidates: seq<nat> := [5, 10, 25, 50]

  /** One training example of the two-stage variant. Its meta-feature vector
      is the stored one for (dataset, la), so the dataset name stands for it. */
  datatype Example = Example(dataset: string, la: nat, components: seq<nat>, performance: real)

  /** Every column has exactly `n` cells. */
  predicate Rect(cols: seq<Column>, n: nat) {
    forall c :: c in cols ==> |c.cells| == n
  }

  /** Cell (i, j) yields an example: it is not missing and (the redundant
      guard of the source) its column is not the held-out dataset's. */
  predicate Emits(cols: seq<Column>, heldOut: string, i: nat, j: nat)
    requires j < |cols| && i < |cols[j].cells|
  {
    cols[j].cells[i].Some? && cols[j].name != heldOut
  }

  /** The example cell (i, j) yields: that column's dataset, the count, row
      i's encoded configuration and the cell value as target. */
  function CellExample(cols: seq<Column>, codes: seq<seq<nat>>, la: nat, i: nat, j: nat): Example
    requires j < |cols| && i < |cols[j].cells| && i < |codes| && cols[j].cells[i].Some?
  {
    Example(cols[j].name, la, codes[i], cols[j].cells[i].value)
  }

  /** The examples of row `i` from the first `m` dataset columns. */
  function RowExamples(cols: seq<Column>, codes: seq<seq<nat>>, heldOut: string, la: nat, i: nat, m: nat)
    : (r: seq<Example>)
    requires m <= |cols| && Rect(cols, |codes|) && i < |codes|
    ensures forall e :: e in r <==>
      exists j :: 0 <= j < m && Emits(cols, heldOut, i, j) && e == CellExample(cols, codes, la, i, j)
  {
    if m == 0 then []
    else
      var j := m - 1;
      assert cols[j] in cols;
      RowExamples(cols, codes, heldOut, la, i, j)
      + (if Emits(cols, heldOut, i, j) then [CellExample(cols, codes, la, i, j)] else [])
  }

  /** The examples of the first `n` rows, row by row, as the nested loops of
      `meta_fit` visit them. */
  function TableExamples(cols: seq<Column>, codes: seq<seq<nat>>, heldOut: string, la: nat, n: nat)
    : (r: seq<Example>)
    requires n <= |codes| && Rect(cols, |codes|)
    ensures forall e :: e in r <==>
      exists i, j :: && 0 <= i < n && 0 <= j < |cols| && Emits(cols, heldOut, i, j)
                     && e == CellExample(cols, codes, la, i, j)
  {
    if n == 0 then []
    else
      var before := TableExamples(cols, codes, heldOut, la, n - 1);
      var row := RowExamples(cols, codes, heldOut, la, n - 1, |cols|);
      assert forall e :: e in before + row <==> e in before || e in row;
      before + row
  }

  // ---- counting: row by row versus column by column -------------------------

  /** Emitting cells of row `i` among the first `m` columns. */
  function RowCount(cols: seq<Column>, heldOut: string, n: nat, i: nat, m: nat): nat
    requires m <= |cols| && Rect(cols, n) && i < n
  {
    if m == 0 then 0
    else
      assert cols[m - 1] in cols;
      RowCount(cols, heldOut, n, i, m - 1) + (if Emits(cols, heldOut, i, m - 1) then 1 else 0)
  }

  /** Emitting cells of the first `k` rows, summed row by row. */
  function RowsTotal(cols: seq<Column>, heldOut: string, n: nat, k: nat, m: nat): nat
    requires m <= |cols| && Rect(cols, n) && k <= n
  {
    if k == 0 then 0 else RowsTotal(cols, heldOut, n, k - 1, m) + RowCount(cols, heldOut, n, k - 1, m)
  }

  /** Non-missing cells among the first `k` cells. */
  function PresentCount(cells: seq<Cell>, k: nat): nat
    requires k <= |cells|
  {
    if k == 0 then 0
    else PresentCount(cells, k - 1) + (if cells[k - 1].Some? then 1 else 0)
  }

  /** Non-missing cells among the first `k` cells of a column; none for the
      held-out dataset's column. */
  function ColumnCount(c: Column, heldOut: string, k: nat): nat
    requires k <= |c.cells|
  {
    if c.name == heldOut then 0 else PresentCount(c.cells, k)
  }

  /** Non-missing cells outside the held-out column, summed column by column. */
  function CellsCount(cols: seq<Column>, heldOut: string, n: nat): nat
    requires Rect(cols, n)
  {
    if |cols| == 0 then 0
    else
      assert cols[|cols| - 1] in cols;
      CellsCount(cols[..|cols| - 1], heldOut, n) + ColumnCount(cols[|cols| - 1], heldOut, n)
  }

  lemma {:induction false} RowExamplesLength(cols: seq<Column>, codes: seq<seq<nat>>, heldOut: string,
                                             la: nat, i: nat, m: nat)
    requires m <= |cols| && Rect(cols, |codes|) && i < |codes|
    ensures |RowExamples(cols, codes, heldOut, la, i, m)| == RowCount(cols, heldOut, |codes|, i, m)
  {
    if m > 0 {
      RowExamplesLength(cols, codes, heldOut, la, i, m - 1);
    }
  }

  lemma {:induction false} TableExamplesLength(cols: seq<Column>, codes: seq<seq<nat>>, heldOut: string,
                                               la: nat, n: nat)
    requires n <= |codes| && Rect(cols, |codes|)
    ensures |TableExamples(cols, codes, heldOut, la, n)| == RowsTotal(cols, heldOut, |codes|, n, |cols|)
  {
    if n > 0 {
      TableExamplesLength(cols, codes, heldOut, la, n - 1);
      RowExamplesLength(cols, codes, heldOut, la, n - 1, |cols|);
    }
  }

  /** Adding column m - 1 to every row adds that column's count. */
  lemma {:induction false} RowsTotalPeel(cols: seq<Column>, heldOut: string, n: nat, k: nat, m: nat)
    requires 0 < m <= |cols| && Rect(cols, n) && k <= n
    ensures cols[m - 1] in cols
    ensures RowsTotal(cols, heldOut, n, k, m)
            == RowsTotal(cols, heldOut, n, k, m - 1) + ColumnCount(cols[m - 1], heldOut, k)
  {
    assert cols[m - 1] in cols;
    if k > 0 {
      RowsTotalPeel(cols, heldOut, n, k - 1, m);
    }
  }

  /** Counting row by row and column by column give the same total. */
  lemma {:induction false} CountBothWays(cols: seq<Column>, heldOut: string, n: nat, m: nat)
    requires m <= |cols| && Rect(cols, n)
    ensures RowsTotal(cols, heldOut, n, n, m) == CellsCount(cols[..m], heldOut, n)
  {
    if m == 0 {
      ZeroColumns(cols, heldOut, n, n);
    } else {
      CountBothWays(cols, heldOut, n, m - 1);
      RowsTotalPeel(cols, heldOut, n, n, m);
      assert cols[..m][..m - 1] == cols[..m - 1];
    }
  }

  lemma {:induction false} ZeroColumns(cols: seq<Column>, heldOut: string, n: nat, k: nat)
    requires Rect(cols, n) && k <= n
    ensures RowsTotal(cols, heldOut, n, k, 0) == 0
  {
    if k > 0 {
      ZeroColumns(cols, heldOut, n, k - 1);
    }
  }

  /** Dropping the held-out column does not change the count, since that
      column counts for nothing. */
  lemma {:induction false} CellsCountDrop(cols: seq<Column>, heldOut: string, n: nat)
    requires Rect(cols, n)
    ensures Rect(Filter(cols, OtherThan(heldOut)), n)
    ensures CellsCount(Filter(cols, OtherThan(heldOut)), heldOut, n) == CellsCount(cols, heldOut, n)
  {
    if |cols| > 0 {
      var keep := OtherThan(heldOut);
      var init, last := cols[..|cols| - 1], cols[|cols| - 1];
      assert Rect(init, n) by {
        assert forall c :: c in init ==> c in cols;
      }
      assert |last.cells| == n by {
        assert last in cols;
      }
      CellsCountDrop(init, heldOut, n);
      var kept := Filter(init, keep);
      if keep(last) {
        AppendCount(kept, last, heldOut, n);
      } else {
        assert Filter(cols, keep) == kept;
      }
    }
  }

  /** Counting a list with one more column adds that column's count. */
  lemma AppendCount(cols: seq<Column>, last: Column, heldOut: string, n: nat)
    requires Rect(cols, n) && |last.cells| == n
    ensures Rect(cols + [last], n)
    ensures CellsCount(cols + [last], heldOut, n) == CellsCount(cols, heldOut, n) + ColumnCount(last, heldOut, n)
  {
    var all := cols + [last];
    assert all[..|all| - 1] == cols;
  }

  /** One example per emitting cell: the examples of a whole table number
      exactly the non-missing cells outside the held-out column. */
  lemma TableExamplesCount(cols: seq<Column>, codes: seq<seq<nat>>, heldOut: string, la: nat)
    requires Rect(cols, |codes|)
    ensures |TableExamples(cols, codes, heldOut, la, |codes|)| == CellsCount(cols, heldOut, |codes|)
  {
    TableExamplesLength(cols, codes, heldOut, la, |codes|);
    CountBothWays(cols, heldOut, |codes|, |cols|);
    assert cols[..|cols|] == cols;
  }

  // ---- the two-stage training set (meta_fit) ---------------------------------

  /** A results table as read: well formed, with every label parsed. */
  predicate Loaded(f: Frame) {
    f.Valid() && forall i :: 0 <= i < |f.labels| ==> IsDict(f.labels[i])
  }

  /** One table per count of `LaCandidates`, in that order. */
  predicate TablesLoaded(tables: seq<Frame>) {
    |tables| == |LaCandidates| && forall t :: 0 <= t < |tables| ==> Loaded(tables[t])
  }

  /** Non-missing cells outside the held-out column of a table. */
  function TableCells(table: Frame, heldOut: string): nat
    requires table.Valid()
  {
    CellsCount(table.columns, heldOut, |table.labels|)
  }

  /** What one count contributes: drop the held-out column,
      re-encode the configurations, and emit the examples of the remaining
      cells. */
  function CountExamples(table: Frame, heldOut: string, la: nat): (r: Result<(seq<Example>, Encoded)>)
    requires Loaded(table)
    ensures !table.HasColumn(heldOut) ==> r == Err(MissingColumn(heldOut))
    ensures table.HasColumn(heldOut) ==> r.Err? == Encode(table.labels).Err?
    ensures r.Ok? ==> Encode(table.labels) == Ok(r.value.1)
    ensures r.Ok? ==> forall e :: e in r.value.0 ==> e.dataset != heldOut && e.la == la
    ensures r.Ok? ==> |r.value.0| == TableCells(table, heldOut)
    ensures r.Ok? ==> forall e :: e in r.value.0 ==> |e.components| == |r.value.1.slots|
  {
    var dropped :- DropColumn(table, heldOut);
    var enc :- Encode(dropped.labels);
    CellsCountDrop(table.columns, heldOut, |table.labels|);
    TableExamplesCount(dropped.columns, enc.codes, heldOut, la);
    TableExamplesWidth(dropped.columns, enc.codes, heldOut, la, |enc.slots|);
    Ok((TableExamples(dropped.columns, enc.codes, heldOut, la, |enc.codes|), enc))
  }

  /** Examples carry whole rows of codes, so they all have the rows' length. */
  lemma TableExamplesWidth(cols: seq<Column>, codes: seq<seq<nat>>, heldOut: string, la: nat, w: nat)
    requires Rect(cols, |codes|) && forall i :: 0 <= i < |codes| ==> |codes[i]| == w
    ensures forall e :: e in TableExamples(cols, codes, heldOut, la, |codes|) ==> |e.components| == w
  {
    forall e | e in TableExamples(cols, codes, heldOut, la, |codes|) ensures |e.components| == w {
      var i, j :| && 0 <= i < |codes| && 0 <= j < |cols| && Emits(cols, heldOut, i, j)
                  && e == CellExample(cols, codes, la, i, j);
    }
  }

  /** Every non-missing cell outside the held-out column yields its example. */
  lemma CountExamplesComplete(table: Frame, heldOut: string, la: nat, i: nat, j: nat)
    requires Loaded(table) && CountExamples(table, heldOut, la).Ok?
    requires i < |table.labels| && j < |table.columns|
    requires table.columns[j].cells[i].Some? && table.columns[j].name != heldOut
    ensures table.columns[j] in table.columns
    ensures Example(table.columns[j].name, la, CountExamples(table, heldOut, la).value.1.codes[i],
                    table.columns[j].cells[i].value)
            in CountExamples(table, heldOut, la).value.0
  {
    var c := table.columns[j];
    assert c in table.columns;
    var dropped := DropColumn(table, heldOut).value;
    var enc := Encode(dropped.labels).value;
    assert c in dropped.columns;
    var j' :| 0 <= j' < |dropped.columns| && dropped.columns[j'] == c;
    BatchesComplete(dropped.columns, enc.codes, la, j');
    assert Emits(dropped.columns, heldOut, i, j');
    assert CellExample(dropped.columns, enc.codes, la, i, j')
           in TableExamples(dropped.columns, enc.codes, heldOut, la, |enc.codes|);
  }

  /** The cells of the first `t` tables. */
  function CellsUpTo(tables: seq<Frame>, heldOut: string, t: nat): nat
    requires TablesLoaded(tables) && t <= |tables|
  {
    if t == 0 then 0 else CellsUpTo(tables, heldOut, t - 1) + TableCells(tables[t - 1], heldOut)
  }

  /** The pool of the first `t` counts, and the encoding of the last one. */
  function Assemble(tables: seq<Frame>, heldOut: string, t: nat): (r: Result<(seq<Example>, Option<Encoded>)>)
    requires TablesLoaded(tables) && t <= |tables|
    ensures r.Ok? <==> forall u :: 0 <= u < t ==> CountExamples(tables[u], heldOut, LaCandidates[u]).Ok?
    ensures r.Ok? ==> |r.value.0| == CellsUpTo(tables, heldOut, t)
    ensures r.Ok? && t > 0 ==> r.value.1 == Some(CountExamples(tables[t - 1], heldOut, LaCandidates[t - 1]).value.1)
  {
    if t == 0 then Ok(([], None))
    else
      var before := Assemble(tables, heldOut, t - 1);
      var step := CountExamples(tables[t - 1], heldOut, LaCandidates[t - 1]);
      if before.Err? then Err(before.error)
      else if step.Err? then Err(step.error)
      else Ok((before.value.0 + step.value.0, Some(step.value.1)))
  }

  /** The pool holds exactly the examples of the counts it was built from. */
  lemma {:induction false} AssembleMembers(tables: seq<Frame>, heldOut: string, t: nat)
    requires TablesLoaded(tables) && t <= |tables| && Assemble(tables, heldOut, t).Ok?
    ensures forall e :: e in Assemble(tables, heldOut, t).value.0 <==> FromCount(tables, heldOut, t, e)
  {
    if t > 0 {
      AssembleMembers(tables, heldOut, t - 1);
      var before := Assemble(tables, heldOut, t - 1).value.0;
      var step := CountExamples(tables[t - 1], heldOut, LaCandidates[t - 1]).value.0;
      assert Assemble(tables, heldOut, t).value.0 == before + step;
      forall e ensures e in before + step <==> FromCount(tables, heldOut, t, e) {
        FromCountStep(tables, heldOut, t, e);
      }
    }
  }

  /** Example `e` comes from one of the first `t` counts. */
  predicate FromCount(tables: seq<Frame>, heldOut: string, t: nat, e: Example)
    requires TablesLoaded(tables) && t <= |tables| && Assemble(tables, heldOut, t).Ok?
  {
    exists u :: 0 <= u < t && e in CountExamples(tables[u], heldOut, LaCandidates[u]).value.0
  }

  lemma FromCountStep(tables: seq<Frame>, heldOut: string, t: nat, e: Example)
    requires TablesLoaded(tables) && 0 < t <= |tables| && Assemble(tables, heldOut, t).Ok?
    ensures Assemble(tables, heldOut, t - 1).Ok?
    ensures FromCount(tables, heldOut, t, e) <==>
      FromCount(tables, heldOut, t - 1, e) || e in CountExamples(tables[t - 1], heldOut, LaCandidates[t - 1]).value.0
  {
    if e in CountExamples(tables[t - 1], heldOut, LaCandidates[t - 1]).value.0 {
      assert 0 <= t - 1 < t && e in CountExamples(tables[t - 1], heldOut, LaCandidates[t - 1]).value.0;
    }
    if FromCount(tables, heldOut, t, e) {
      var u :| 0 <= u < t && e in CountExamples(tables[u], heldOut, LaCandidates[u]).value.0;
      if u < t - 1 {
        assert FromCount(tables, heldOut, t - 1, e);
      }
    }
    if FromCount(tables, heldOut, t - 1, e) {
      var u :| 0 <= u < t - 1 && e in CountExamples(tables[u], heldOut, LaCandidates[u]).value.0;
      assert 0 <= u < t;
    }
  }

  /** An assembly that succeeds saw the held-out column in every table. */
  lemma AssembleHasColumns(tables: seq<Frame>, heldOut: string, t: nat)
    requires TablesLoaded(tables) && t <= |tables| && Assemble(tables, heldOut, t).Ok?
    ensures forall u :: 0 <= u < t ==> tables[u].HasColumn(heldOut)
  {
    forall u | 0 <= u < t ensures tables[u].HasColumn(heldOut) {
      assert Loaded(tables[u]);
      assert CountExamples(tables[u], heldOut, LaCandidates[u]).Ok?;
    }
  }

  /** The assembled training data of `meta_fit`: the examples, and the
      encoded configuration table of the last count, which prediction reuses. */
  datatype TrainingData = TrainingData(examples: seq<Example>, encoded: Encoded)

  /** All examples carry encoded configurations of one length, so that they
      stack into a matrix. */
  predicate SameWidth(xs: seq<Example>) {
    forall p, q :: 0 <= p < |xs| && 0 <= q < |xs| ==> |xs[p].components| == |xs[q].components|
  }

  /** Every count succeeds on its own. */
  predicate CountsOk(tables: seq<Frame>, heldOut: string)
    requires TablesLoaded(tables)
  {
    forall t :: 0 <= t < |tables| ==> CountExamples(tables[t], heldOut, LaCandidates[t]).Ok?
  }

  /** The counts that emit an example keep equally many slots. Counts whose
      table has no non-missing cell contribute no row to the stack, so their
      width does not matter. */
  predicate WidthsAgree(tables: seq<Frame>, heldOut: string)
    requires TablesLoaded(tables) && CountsOk(tables, heldOut)
  {
    forall u, v :: && 0 <= u < |tables| && 0 <= v < |tables|
                   && TableCells(tables[u], heldOut) > 0 && TableCells(tables[v], heldOut) > 0
                   ==> |CountExamples(tables[u], heldOut, LaCandidates[u]).value.1.slots|
                       == |CountExamples(tables[v], heldOut, LaCandidates[v]).value.1.slots|
  }

  /** The pool stacks exactly when the emitting counts keep equally many
      slots. */
  lemma PoolWidths(tables: seq<Frame>, heldOut: string)
    requires TablesLoaded(tables) && Assemble(tables, heldOut, |tables|).Ok?
    ensures CountsOk(tables, heldOut)
    ensures SameWidth(Assemble(tables, heldOut, |tables|).value.0) <==> WidthsAgree(tables, heldOut)
  {
    if SameWidth(Assemble(tables, heldOut, |tables|).value.0) {
      SameWidthAgrees(tables, heldOut);
    }
    if WidthsAgree(tables, heldOut) {
      AgreeingWidthsStack(tables, heldOut);
    }
  }

  lemma SameWidthAgrees(tables: seq<Frame>, heldOut: string)
    requires TablesLoaded(tables) && Assemble(tables, heldOut, |tables|).Ok?
    requires SameWidth(Assemble(tables, heldOut, |tables|).value.0)
    ensures CountsOk(tables, heldOut) && WidthsAgree(tables, heldOut)
  {
    var pool := Assemble(tables, heldOut, |tables|).value.0;
    forall u, v | && 0 <= u < |tables| && 0 <= v < |tables|
                  && TableCells(tables[u], heldOut) > 0 && TableCells(tables[v], heldOut) > 0
      ensures |CountExamples(tables[u], heldOut, LaCandidates[u]).value.1.slots|
              == |CountExamples(tables[v], heldOut, LaCandidates[v]).value.1.slots|
    {
      var p := PoolIndexOf(tables, heldOut, u);
      var q := PoolIndexOf(tables, heldOut, v);
      assert |pool[p].components| == |pool[q].components|;
    }
  }

  lemma AgreeingWidthsStack(tables: seq<Frame>, heldOut: string)
    requires TablesLoaded(tables) && Assemble(tables, heldOut, |tables|).Ok?
    requires CountsOk(tables, heldOut) && WidthsAgree(tables, heldOut)
    ensures SameWidth(Assemble(tables, heldOut, |tables|).value.0)
  {
    var pool := Assemble(tables, heldOut, |tables|).value.0;
    AssembleMembers(tables, heldOut, |tables|);
    forall p, q | 0 <= p < |pool| && 0 <= q < |pool| ensures |pool[p].components| == |pool[q].components| {
      var u := CountOf(tables, heldOut, pool[p]);
      var v := CountOf(tables, heldOut, pool[q]);
    }
  }

  /** The count an example of the pool comes from, whose table therefore has
      a non-missing cell and whose encoding fixes the example's width. */
  lemma CountOf(tables: seq<Frame>, heldOut: string, e: Example) returns (u: nat)
    requires TablesLoaded(tables) && Assemble(tables, heldOut, |tables|).Ok?
    requires e in Assemble(tables, heldOut, |tables|).value.0
    ensures u < |tables| && CountExamples(tables[u], heldOut, LaCandidates[u]).Ok?
    ensures TableCells(tables[u], heldOut) > 0
    ensures |e.components| == |CountExamples(tables[u], heldOut, LaCandidates[u]).value.1.slots|
  {
    AssembleMembers(tables, heldOut, |tables|);
    assert FromCount(tables, heldOut, |tables|, e);
    u :| 0 <= u < |tables| && e in CountExamples(tables[u], heldOut, LaCandidates[u]).value.0;
    assert Loaded(tables[u]);
  }

  /** A position of the pool holding an example of count `u`, which has one
      when its table has a non-missing cell. */
  lemma PoolIndexOf(tables: seq<Frame>, heldOut: string, u: nat) returns (p: nat)
    requires TablesLoaded(tables) && Assemble(tables, heldOut, |tables|).Ok?
    requires u < |tables| && TableCells(tables[u], heldOut) > 0
    ensures CountExamples(tables[u], heldOut, LaCandidates[u]).Ok?
    ensures p < |Assemble(tables, heldOut, |tables|).value.0|
    ensures |Assemble(tables, heldOut, |tables|).value.0[p].components|
            == |CountExamples(tables[u], heldOut, LaCandidates[u]).value.1.slots|
  {
    var pool := Assemble(tables, heldOut, |tables|).value.0;
    assert Loaded(tables[u]);
    var step := CountExamples(tables[u], heldOut, LaCandidates[u]).value.0;
    assert step[0] in step;
    AssembleMembers(tables, heldOut, |tables|);
    assert FromCount(tables, heldOut, |tables|, step[0]);
    p :| 0 <= p < |pool| && pool[p] == step[0];
  }

  /** `meta_fit` up to training: assemble the pool over all counts in order;
      a missing held-out column or an unencodable table aborts; an empty pool,
      or one whose encoded configurations differ in length, cannot be
      stacked; and a single example is squeezed to a scalar, which the
      tensor dataset rejects. */
  function MetaFit(tables: seq<Frame>, heldOut: string): (r: Result<TrainingData>)
    requires TablesLoaded(tables)
    ensures (exists t :: 0 <= t < |tables| && !tables[t].HasColumn(heldOut)) ==> r.Err?
    ensures CountsOk(tables, heldOut) ==>
              (r.Ok? <==> CellsUpTo(tables, heldOut, |tables|) > 1 && WidthsAgree(tables, heldOut))
    ensures CountsOk(tables, heldOut) && CellsUpTo(tables, heldOut, |tables|) == 0 ==> r == Err(EmptyTrainingSet)
    ensures CountsOk(tables, heldOut) && CellsUpTo(tables, heldOut, |tables|) > 0 && !WidthsAgree(tables, heldOut)
            ==> r == Err(RaggedComponents)
    ensures CountsOk(tables, heldOut) && CellsUpTo(tables, heldOut, |tables|) == 1 ==> r == Err(SingleExample)
    ensures r.Ok? ==> SameWidth(r.value.examples)
    ensures r.Ok? ==> forall e :: e in r.value.examples ==> e.dataset != heldOut && e.la in LaCandidates
    ensures r.Ok? ==> CountsOk(tables, heldOut)
    ensures r.Ok? ==> |r.value.examples| == CellsUpTo(tables, heldOut, |tables|)
    ensures r.Ok? ==> Encode(tables[|tables| - 1].labels) == Ok(r.value.encoded)
  {
    var assembled := Assemble(tables, heldOut, |tables|);
    if assembled.Err? then Err(assembled.error)
    else
      PoolShape(tables, heldOut);
      PoolWidths(tables, heldOut);
      Stack(assembled.value.0, assembled.value.1.value)
  }

  /** Stacking the pool into training tensors: zero examples cannot be
      stacked, rows of unequal lengths cannot be stacked, and one example is
      squeezed to a scalar that the tensor dataset rejects. */
  function Stack(pool: seq<Example>, encoded: Encoded): (r: Result<TrainingData>)
    ensures |pool| == 0 ==> r == Err(EmptyTrainingSet)
    ensures |pool| > 0 && !SameWidth(pool) ==> r == Err(RaggedComponents)
    ensures |pool| == 1 ==> r == Err(SingleExample)
    ensures r.Ok? <==> |pool| > 1 && SameWidth(pool)
    ensures r.Ok? ==> r.value == TrainingData(pool, encoded)
  {
    if |pool| == 0 then Err(EmptyTrainingSet)
    else if !SameWidth(pool) then Err(RaggedComponents)
    else if |pool| == 1 then Err(SingleExample)
    else Ok(TrainingData(pool, encoded))
  }

  /** Count 5 keeps one slot and count 10 keeps none, and dataset B has a
      cell under both: the two rows cannot be stacked. */
  lemma RaggedPoolFails(encoded: Encoded)
    ensures Stack([Example("B", 5, [0], 0.5), Example("B", 10, [], 0.5)], encoded) == Err(RaggedComponents)
  {
    var pool := [Example("B", 5, [0], 0.5), Example("B", 10, [], 0.5)];
    assert |pool[0].components| != |pool[1].components|;
  }

  /** A pool that assembles saw the held-out column in every table, and holds
      only examples of other datasets tagged with a candidate count. */
  lemma PoolShape(tables: seq<Frame>, heldOut: string)
    requires TablesLoaded(tables) && Assemble(tables, heldOut, |tables|).Ok?
    ensures forall u :: 0 <= u < |tables| ==> tables[u].HasColumn(heldOut)
    ensures forall e :: e in Assemble(tables, heldOut, |tables|).value.0 ==> e.dataset != heldOut && e.la in LaCandidates
  {
    AssembleHasColumns(tables, heldOut, |tables|);
    AssembleMembers(tables, heldOut, |tables|);
    forall e | e in Assemble(tables, heldOut, |tables|).value.0 ensures e.dataset != heldOut && e.la in LaCandidates {
      assert FromCount(tables, heldOut, |tables|, e);
      var u :| 0 <= u < |tables| && e in CountExamples(tables[u], heldOut, LaCandidates[u]).value.0;
      assert Loaded(tables[u]);
    }
  }

  /** One example per non-missing cell: every cell (count t, row i, dataset
      column j other than the held-out one) that is present yields an example
      carrying that count, row i's codes under that count's encoding and the
      cell value; and the pool has exactly as many examples as such cells. */
  lemma MetaFitOneExamplePerCell(tables: seq<Frame>, heldOut: string, t: nat, i: nat, j: nat)
    requires TablesLoaded(tables) && MetaFit(tables, heldOut).Ok?
    requires t < |tables| && i < |tables[t].labels| && j < |tables[t].columns|
    requires tables[t].columns[j].cells[i].Some? && tables[t].columns[j].name != heldOut
    ensures Encode(tables[t].labels).Ok? && i < |Encode(tables[t].labels).value.codes|
    ensures Example(tables[t].columns[j].name, LaCandidates[t], Encode(tables[t].labels).value.codes[i],
                    tables[t].columns[j].cells[i].value)
            in MetaFit(tables, heldOut).value.examples
    ensures |MetaFit(tables, heldOut).value.examples| == CellsUpTo(tables, heldOut, |tables|)
  {
    assert Loaded(tables[t]);
    var step := CountExamples(tables[t], heldOut, LaCandidates[t]);
    assert step.Ok?;
    CountExamplesComplete(tables[t], heldOut, LaCandidates[t], i, j);
    AssembleMembers(tables, heldOut, |tables|);
    assert FromCount(tables, heldOut, |tables|, Example(tables[t].columns[j].name, LaCandidates[t],
      Encode(tables[t].labels).value.codes[i], tables[t].columns[j].cells[i].value));
  }

  // ---- the end-to-end batches (meta_fit_end2end) -----------------------------

  /** One entry of an end-to-end batch. `datasetIdx` is the column's position
      in the dropped table, where position 0 is the Components column; the
      dataset name stands for the training split the data generator makes of
      it for this count and seed. */
  datatype Entry = Entry(datasetIdx: nat, dataset: string, la: nat, components: seq<nat>, performance: real)

  /** The entries of dataset column `j` from its first `k` rows. */
  function ColumnBatch(cols: seq<Column>, codes: seq<seq<nat>>, la: nat, j: nat, k: nat): (r: seq<Entry>)
    requires j < |cols| && Rect(cols, |codes|) && k <= |codes|
    ensures forall e: Entry :: e in r ==> e.datasetIdx == j + 1 && e.dataset == cols[j].name && e.la == la
    ensures |r| == 0 <==> forall i :: 0 <= i < k ==> cols[j].cells[i].None?
    ensures cols[j] in cols && |r| == PresentCount(cols[j].cells, k)
  {
    assert cols[j] in cols;
    if k == 0 then []
    else
      var before := ColumnBatch(cols, codes, la, j, k - 1);
      var cell := cols[j].cells[k - 1];
      var add := if cell.Some? then [Entry(j + 1, cols[j].name, la, codes[k - 1], cell.value)] else [];
      assert forall e: Entry :: e in before + add <==> e in before || e in add;
      before + add
  }

  /** The entries of a column batch are exactly its non-missing cells. */
  lemma {:induction false} ColumnBatchEntries(cols: seq<Column>, codes: seq<seq<nat>>, la: nat, j: nat, k: nat)
    requires j < |cols| && Rect(cols, |codes|) && k <= |codes|
    ensures cols[j] in cols
    ensures forall e: Entry :: e in ColumnBatch(cols, codes, la, j, k) <==> FromCell(cols, codes, la, j, k, e)
  {
    assert cols[j] in cols;
    if k > 0 {
      ColumnBatchEntries(cols, codes, la, j, k - 1);
      var before := ColumnBatch(cols, codes, la, j, k - 1);
      var cell := cols[j].cells[k - 1];
      var add := if cell.Some? then [Entry(j + 1, cols[j].name, la, codes[k - 1], cell.value)] else [];
      assert ColumnBatch(cols, codes, la, j, k) == before + add;
      forall e: Entry ensures e in before + add <==> FromCell(cols, codes, la, j, k, e) {
        FromCellStep(cols, codes, la, j, k, e);
      }
    }
  }

  /** Entry `e` is the entry of one of the first `k` cells of column `j`. */
  predicate FromCell(cols: seq<Column>, codes: seq<seq<nat>>, la: nat, j: nat, k: nat, e: Entry)
    requires j < |cols| && Rect(cols, |codes|) && k <= |codes|
  {
    assert cols[j] in cols;
    exists i :: && 0 <= i < k && cols[j].cells[i].Some?
                && e == Entry(j + 1, cols[j].name, la, codes[i], cols[j].cells[i].value)
  }

  lemma FromCellStep(cols: seq<Column>, codes: seq<seq<nat>>, la: nat, j: nat, k: nat, e: Entry)
    requires j < |cols| && Rect(cols, |codes|) && 0 < k <= |codes|
    ensures cols[j] in cols
    ensures FromCell(cols, codes, la, j, k, e) <==>
      || FromCell(cols, codes, la, j, k - 1, e)
      || (cols[j].cells[k - 1].Some? && e == Entry(j + 1, cols[j].name, la, codes[k - 1], cols[j].cells[k - 1].value))
  {
    assert cols[j] in cols;
  }

  /** A column has at least one non-missing cell. */
  predicate HasEntries(cols: seq<Column>, n: nat, j: nat)
    requires j < |cols| && Rect(cols, n)
  {
    assert cols[j] in cols;
    exists i :: 0 <= i < n && cols[j].cells[i].Some?
  }

  /** The positions among the first `m` columns that have a non-missing
      cell, ascending: the columns whose batch is not empty. */
  function Present(cols: seq<Column>, n: nat, m: nat): (r: seq<nat>)
    requires m <= |cols| && Rect(cols, n)
    ensures forall p :: 0 <= p < |r| ==> r[p] < m && HasEntries(cols, n, r[p])
    ensures forall p, q :: 0 <= p < q < |r| ==> r[p] < r[q]
    ensures forall j :: 0 <= j < m && HasEntries(cols, n, j) ==> j in r
  {
    if m == 0 then []
    else
      var before := Present(cols, n, m - 1);
      if HasEntries(cols, n, m - 1) then before + [m - 1] else before
  }

  /** A batch as `fit_end2end` receives it: not empty, one dataset, one count. */
  predicate Uniform(b: seq<Entry>, la: nat) {
    && |b| > 0
    && forall e: Entry :: e in b ==> e.datasetIdx == b[0].datasetIdx && e.dataset == b[0].dataset && e.la == la
  }

  /** The batches of the dataset columns, in column order, leaving out the
      empty ones. */
  function Batches(cols: seq<Column>, codes: seq<seq<nat>>, la: nat): (r: seq<seq<Entry>>)
    requires Rect(cols, |codes|)
    ensures forall p :: 0 <= p < |r| ==> Uniform(r[p], la) && 1 <= r[p][0].datasetIdx <= |cols|
                                         && r[p][0].dataset == cols[r[p][0].datasetIdx - 1].name
    ensures forall p, q :: 0 <= p < q < |r| ==> |r[p]| > 0 && |r[q]| > 0 && r[p][0].datasetIdx < r[q][0].datasetIdx
  {
    var ids := Present(cols, |codes|, |cols|);
    var r := seq(|ids|, p requires 0 <= p < |ids| => ColumnBatch(cols, codes, la, ids[p], |codes|));
    assert forall p :: 0 <= p < |r| ==> BatchOf(cols, la, r[p], ids[p]) by {
      forall p | 0 <= p < |r| ensures BatchOf(cols, la, r[p], ids[p]) {
        BatchShape(cols, codes, la, ids[p]);
      }
    }
    r
  }

  /** `b` is a non-empty batch of column `j` for count `la`. */
  predicate BatchOf(cols: seq<Column>, la: nat, b: seq<Entry>, j: nat)
    requires j < |cols|
  {
    Uniform(b, la) && b[0].datasetIdx == j + 1 && b[0].dataset == cols[j].name
  }

  /** A column gets a batch exactly when it has a non-missing cell. */
  lemma BatchesComplete(cols: seq<Column>, codes: seq<seq<nat>>, la: nat, j: nat)
    requires j < |cols| && Rect(cols, |codes|)
    ensures ColumnBatch(cols, codes, la, j, |codes|) in Batches(cols, codes, la) <==> HasEntries(cols, |codes|, j)
  {
    var r := Batches(cols, codes, la);
    var ids := Present(cols, |codes|, |cols|);
    var b := ColumnBatch(cols, codes, la, j, |codes|);
    BatchShape(cols, codes, la, j);
    if HasEntries(cols, |codes|, j) {
      var p :| 0 <= p < |ids| && ids[p] == j;
      assert r[p] == b;
    }
  }

  /** A column's whole batch is empty exactly when the column has no
      non-missing cell, and otherwise is tagged with that column. */
  lemma BatchShape(cols: seq<Column>, codes: seq<seq<nat>>, la: nat, j: nat)
    requires j < |cols| && Rect(cols, |codes|)
    ensures var b := ColumnBatch(cols, codes, la, j, |codes|);
      && (|b| > 0 <==> HasEntries(cols, |codes|, j))
      && (|b| > 0 ==> Uniform(b, la) && b[0].datasetIdx == j + 1 && b[0].dataset == cols[j].name)
  {
    var b := ColumnBatch(cols, codes, la, j, |codes|);
    if |b| > 0 {
      assert b[0] in b;
    }
  }

  /** The first of `cols`, in order, whose training split the data generator
      cannot produce for count `la`. The generator is called for every
      column, with or without non-missing cells, before any batch is built;
      `genOk` says for which (dataset, count) it returns, at the
      classifier's fixed seed. */
  function FirstUngenerated(cols: seq<Column>, la: nat, genOk: (string, nat) -> bool): (r: Option<string>)
    ensures r.None? <==> forall c :: c in cols ==> genOk(c.name, la)
    ensures r.Some? ==> exists j :: && 0 <= j < |cols| && cols[j].name == r.value && !genOk(r.value, la)
                                   && forall k :: 0 <= k < j ==> genOk(cols[k].name, la)
  {
    if |cols| == 0 then None
    else if !genOk(cols[0].name, la) then Some(cols[0].name)
    else
      var rest := FirstUngenerated(cols[1..], la, genOk);
      assert forall c :: c in cols <==> c == cols[0] || c in cols[1..];
      if rest.Some? then
        assert exists j :: && 0 <= j < |cols| && cols[j].name == rest.value && !genOk(rest.value, la)
                           && forall k :: 0 <= k < j ==> genOk(cols[k].name, la) by {
          var j :| && 0 <= j < |cols[1..]| && cols[1..][j].name == rest.value && !genOk(rest.value, la)
                   && forall k :: 0 <= k < j ==> genOk(cols[1..][k].name, la);
          assert forall k :: 0 <= k < j + 1 ==> genOk(cols[k].name, la) by {
            forall k | 0 <= k < j + 1 ensures genOk(cols[k].name, la) {
              if k > 0 {
                assert cols[k] == cols[1..][k - 1];
              }
            }
          }
        }
        rest
      else rest
  }

  /** Some dataset column other than the held-out one is one the generator
      cannot produce for count `la`. */
  predicate Ungenerated(table: Frame, heldOut: string, la: nat, genOk: (string, nat) -> bool) {
    exists c :: c in table.columns && c.name != heldOut && !genOk(c.name, la)
  }

  /** What one count contributes to the end-to-end data: drop the held-out
      column, re-encode, generate every remaining dataset's training split,
      and batch the remaining columns. A raise in any of these steps aborts. */
  function CountBatches(table: Frame, heldOut: string, la: nat, genOk: (string, nat) -> bool)
    : (r: Result<(seq<seq<Entry>>, Encoded)>)
    requires Loaded(table)
    ensures !table.HasColumn(heldOut) ==> r == Err(MissingColumn(heldOut))
    ensures r.Ok? ==> Encode(table.labels) == Ok(r.value.1)
    ensures r.Ok? ==> forall b: seq<Entry> :: b in r.value.0 ==> Uniform(b, la) && b[0].dataset != heldOut
  {
    var dropped :- DropColumn(table, heldOut);
    var enc :- Encode(dropped.labels);
    var missing := FirstUngenerated(dropped.columns, la, genOk);
    if missing.Some? then Err(GenerationFailed(missing.value))
    else
      var batches := Batches(dropped.columns, enc.codes, la);
      assert forall b: seq<Entry> :: b in batches ==> b[0].dataset in ColumnNames(dropped.columns) by {
        forall b: seq<Entry> | b in batches ensures b[0].dataset in ColumnNames(dropped.columns) {
          var p :| 0 <= p < |batches| && batches[p] == b;
          assert dropped.columns[b[0].datasetIdx - 1] in dropped.columns;
        }
      }
      Ok((batches, enc))
  }

  /** One count's batching fails exactly when the held-out column is absent,
      the configurations do not encode, or the generator cannot produce some
      remaining dataset; a generator failure names such a dataset. */
  lemma CountBatchesErrors(table: Frame, heldOut: string, la: nat, genOk: (string, nat) -> bool)
    requires Loaded(table)
    ensures var r := CountBatches(table, heldOut, la, genOk);
      && (table.HasColumn(heldOut) ==>
            (r.Err? <==> Encode(table.labels).Err? || Ungenerated(table, heldOut, la, genOk)))
      && (table.HasColumn(heldOut) && Encode(table.labels).Err? ==> r == Err(Encode(table.labels).error))
      && (table.HasColumn(heldOut) && Encode(table.labels).Ok? && r.Err? ==>
            && r.error.GenerationFailed? && r.error.dataset != heldOut && !genOk(r.error.dataset, la)
            && exists c :: c in table.columns && c.name == r.error.dataset)
  {
    if table.HasColumn(heldOut) {
      var dropped := DropColumn(table, heldOut).value;
      var missing := FirstUngenerated(dropped.columns, la, genOk);
      if missing.Some? {
        var j :| 0 <= j < |dropped.columns| && dropped.columns[j].name == missing.value && !genOk(missing.value, la);
        assert dropped.columns[j] in dropped.columns;
      }
      if Ungenerated(table, heldOut, la, genOk) {
        var c :| c in table.columns && c.name != heldOut && !genOk(c.name, la);
        assert c in dropped.columns;
      }
    }
  }

  function ColumnNames(cols: seq<Column>): set<string> {
    set c | c in cols :: c.name
  }

  /** Every dataset column other than the held-out one that has a non-missing
      cell gets a batch of its own. */
  lemma CountBatchesComplete(table: Frame, heldOut: string, la: nat, j: nat, genOk: (string, nat) -> bool)
    requires Loaded(table) && CountBatches(table, heldOut, la, genOk).Ok?
    requires j < |table.columns| && table.columns[j].name != heldOut
    requires HasEntries(table.columns, |table.labels|, j)
    ensures exists b: seq<Entry> :: b in CountBatches(table, heldOut, la, genOk).value.0 && b[0].dataset == table.columns[j].name
  {
    var dropped := DropColumn(table, heldOut).value;
    var enc := Encode(dropped.labels).value;
    var c := table.columns[j];
    assert c in table.columns;
    assert c in dropped.columns;
    var j' :| 0 <= j' < |dropped.columns| && dropped.columns[j'] == c;
    BatchesComplete(dropped.columns, enc.codes, la, j');
    assert HasEntries(dropped.columns, |enc.codes|, j');
    var b := ColumnBatch(dropped.columns, enc.codes, la, j', |enc.codes|);
    assert FirstUngenerated(dropped.columns, la, genOk).None?;
    assert CountBatches(table, heldOut, la, genOk).value.0 == Batches(dropped.columns, enc.codes, la);
    assert b[0] in b;
  }

  /** `meta_fit_end2end` up to training, as written: the training call and
      the `return` sit inside the loop over counts, so only the first
      count's table (la = 5) is ever assembled. */
  function End2EndAsWritten(tables: seq<Frame>, heldOut: string, genOk: (string, nat) -> bool): (r: Result<(seq<seq<Entry>>, Encoded)>)
    requires TablesLoaded(tables)
    ensures !tables[0].HasColumn(heldOut) ==> r == Err(MissingColumn(heldOut))
    ensures r.Ok? ==> Encode(tables[0].labels) == Ok(r.value.1)
    ensures r.Ok? ==> forall b: seq<Entry> :: b in r.value.0 ==> Uniform(b, LaCandidates[0]) && b[0].dataset != heldOut
  {
    assert Loaded(tables[0]);
    CountBatches(tables[0], heldOut, LaCandidates[0], genOk)
  }

  /** The discrepancy: however many non-missing cells the tables of the
      later counts hold, no as-written batch carries 10, 25 or 50. */
  lemma End2EndIgnoresLaterCounts(tables: seq<Frame>, heldOut: string, genOk: (string, nat) -> bool)
    requires TablesLoaded(tables) && End2EndAsWritten(tables, heldOut, genOk).Ok?
    requires forall t :: 1 <= t < |tables| ==> TableCells(tables[t], heldOut) > 0
    ensures forall b: seq<Entry>, e: Entry :: b in End2EndAsWritten(tables, heldOut, genOk).value.0 && e in b ==> e.la !in LaCandidates[1..]
  {
  }

  /** The corrected assembly: the batches of every count, in order, and the
      encoding of the last count. */
  function End2EndBatches(tables: seq<Frame>, heldOut: string, t: nat, genOk: (string, nat) -> bool)
    : (r: Result<(seq<seq<Entry>>, Option<Encoded>)>)
    requires TablesLoaded(tables) && t <= |tables|
    ensures r.Ok? <==> BatchesOk(tables, heldOut, t, genOk)
    ensures r.Ok? && t > 0 ==> r.value.1 == Some(CountBatches(tables[t - 1], heldOut, LaCandidates[t - 1], genOk).value.1)
  {
    if t == 0 then Ok(([], None))
    else
      var before := End2EndBatches(tables, heldOut, t - 1, genOk);
      BatchesOkStep(tables, heldOut, t, genOk);
      if before.Err? then Err(before.error)
      else
        var step := CountBatches(tables[t - 1], heldOut, LaCandidates[t - 1], genOk);
        if step.Err? then Err(step.error)
        else Ok((before.value.0 + step.value.0, Some(step.value.1)))
  }

  /** Every one of the first `t` counts batches without error. */
  predicate BatchesOk(tables: seq<Frame>, heldOut: string, t: nat, genOk: (string, nat) -> bool)
    requires TablesLoaded(tables) && t <= |tables|
  {
    forall u :: 0 <= u < t ==> CountBatches(tables[u], heldOut, LaCandidates[u], genOk).Ok?
  }

  /** Whether count `u` batches without error; false past the tables. */
  function CountOk(tables: seq<Frame>, heldOut: string, genOk: (string, nat) -> bool): nat -> bool {
    (u: nat) => && u < |tables| && u < |LaCandidates| && Loaded(tables[u])
                && CountBatches(tables[u], heldOut, LaCandidates[u], genOk).Ok?
  }

  /** A property holds below `t` iff it holds below `t - 1` and at `t - 1`. */
  lemma PrefixStep(p: nat -> bool, t: nat)
    requires t > 0
    ensures (forall u :: 0 <= u < t ==> p(u)) <==> (forall u :: 0 <= u < t - 1 ==> p(u)) && p(t - 1)
  {
  }

  /** The first `t` counts batch without error iff the first `t - 1` do and
      count `t - 1` does. */
  lemma BatchesOkStep(tables: seq<Frame>, heldOut: string, t: nat, genOk: (string, nat) -> bool)
    requires TablesLoaded(tables) && 0 < t <= |tables|
    ensures Loaded(tables[t - 1])
    ensures BatchesOk(tables, heldOut, t, genOk) <==>
              BatchesOk(tables, heldOut, t - 1, genOk) && CountBatches(tables[t - 1], heldOut, LaCandidates[t - 1], genOk).Ok?
  {
    assert Loaded(tables[t - 1]);
    var ok := CountOk(tables, heldOut, genOk);
    PrefixStep(ok, t);
    BatchesOkAsPrefix(tables, heldOut, t, genOk);
    BatchesOkAsPrefix(tables, heldOut, t - 1, genOk);
  }

  /** `BatchesOk` stated through `CountOk`. */
  lemma BatchesOkAsPrefix(tables: seq<Frame>, heldOut: string, t: nat, genOk: (string, nat) -> bool)
    requires TablesLoaded(tables) && t <= |tables|
    ensures BatchesOk(tables, heldOut, t, genOk) <==> forall u :: 0 <= u < t ==> CountOk(tables, heldOut, genOk)(u)
  {
    var ok := CountOk(tables, heldOut, genOk);
    assert forall u :: 0 <= u < t ==> (ok(u) <==> CountBatches(tables[u], heldOut, LaCandidates[u], genOk).Ok?);
  }

  /** Batch `b` is one of the batches of the first `t` counts. */
  predicate BatchFromCount(tables: seq<Frame>, heldOut: string, t: nat, b: seq<Entry>, genOk: (string, nat) -> bool)
    requires TablesLoaded(tables) && t <= |tables| && BatchesOk(tables, heldOut, t, genOk)
  {
    exists u :: 0 <= u < t && b in CountBatches(tables[u], heldOut, LaCandidates[u], genOk).value.0
  }

  /** The corrected pool holds exactly the batches of the counts. */
  lemma {:induction false} End2EndMembers(tables: seq<Frame>, heldOut: string, t: nat, genOk: (string, nat) -> bool)
    requires TablesLoaded(tables) && t <= |tables| && End2EndBatches(tables, heldOut, t, genOk).Ok?
    ensures forall b: seq<Entry> :: b in End2EndBatches(tables, heldOut, t, genOk).value.0 <==> BatchFromCount(tables, heldOut, t, b, genOk)
  {
    if t > 0 {
      End2EndBatchesStep(tables, heldOut, t, genOk);
      End2EndMembers(tables, heldOut, t - 1, genOk);
      var before := End2EndBatches(tables, heldOut, t - 1, genOk).value.0;
      var step := CountBatches(tables[t - 1], heldOut, LaCandidates[t - 1], genOk).value.0;
      forall b: seq<Entry> ensures b in before + step <==> BatchFromCount(tables, heldOut, t, b, genOk) {
        BatchFromCountStep(tables, heldOut, t, b, genOk);
      }
    }
  }

  /** A successful corrected assembly of `t` counts extends that of the
      first `t - 1` by the last count's batches. */
  lemma End2EndBatchesStep(tables: seq<Frame>, heldOut: string, t: nat, genOk: (string, nat) -> bool)
    requires TablesLoaded(tables) && 0 < t <= |tables| && End2EndBatches(tables, heldOut, t, genOk).Ok?
    ensures Loaded(tables[t - 1])
    ensures End2EndBatches(tables, heldOut, t - 1, genOk).Ok?
    ensures CountBatches(tables[t - 1], heldOut, LaCandidates[t - 1], genOk).Ok?
    ensures End2EndBatches(tables, heldOut, t, genOk).value.0
         == End2EndBatches(tables, heldOut, t - 1, genOk).value.0
            + CountBatches(tables[t - 1], heldOut, LaCandidates[t - 1], genOk).value.0
  {
    BatchesOkStep(tables, heldOut, t, genOk);
  }

  /** A batch of the first `t` counts is one of the first `t - 1` or of
      count `t - 1`. */
  lemma BatchFromCountStep(tables: seq<Frame>, heldOut: string, t: nat, b: seq<Entry>, genOk: (string, nat) -> bool)
    requires TablesLoaded(tables) && 0 < t <= |tables| && BatchesOk(tables, heldOut, t, genOk)
    ensures BatchesOk(tables, heldOut, t - 1, genOk)
    ensures BatchFromCount(tables, heldOut, t, b, genOk) <==>
      BatchFromCount(tables, heldOut, t - 1, b, genOk) || b in CountBatches(tables[t - 1], heldOut, LaCandidates[t - 1], genOk).value.0
  {
    BatchesOkStep(tables, heldOut, t, genOk);
    var has := HasBatch(tables, heldOut, genOk, b);
    ExistsPrefixStep(has, t);
    BatchFromCountAsPrefix(tables, heldOut, t, b, genOk);
    BatchFromCountAsPrefix(tables, heldOut, t - 1, b, genOk);
  }

  /** Whether count `u` batches without error and yields batch `b`. */
  function HasBatch(tables: seq<Frame>, heldOut: string, genOk: (string, nat) -> bool, b: seq<Entry>): nat -> bool {
    (u: nat) => && u < |tables| && u < |LaCandidates| && Loaded(tables[u])
                && CountBatches(tables[u], heldOut, LaCandidates[u], genOk).Ok?
                && b in CountBatches(tables[u], heldOut, LaCandidates[u], genOk).value.0
  }

  /** Something below `t` has a property iff something below `t - 1` or
      `t - 1` itself has it. */
  lemma ExistsPrefixStep(p: nat -> bool, t: nat)
    requires t > 0
    ensures (exists u :: 0 <= u < t && p(u)) <==> (exists u :: 0 <= u < t - 1 && p(u)) || p(t - 1)
  {
    if p(t - 1) {
      assert 0 <= t - 1 < t && p(t - 1);
    }
  }

  /** `BatchFromCount` stated through `HasBatch`. */
  lemma BatchFromCountAsPrefix(tables: seq<Frame>, heldOut: string, t: nat, b: seq<Entry>, genOk: (string, nat) -> bool)
    requires TablesLoaded(tables) && t <= |tables| && BatchesOk(tables, heldOut, t, genOk)
    ensures BatchFromCount(tables, heldOut, t, b, genOk) <==> exists u :: 0 <= u < t && HasBatch(tables, heldOut, genOk, b)(u)
  {
    var has := HasBatch(tables, heldOut, genOk, b);
    assert forall u :: 0 <= u < t ==>
      (has(u) <==> b in CountBatches(tables[u], heldOut, LaCandidates[u], genOk).value.0);
  }

  /** Every corrected batch is non-empty, outside the held-out column, and
      tagged with the count of the table it came from; and the assembly
      fails when some table lacks the held-out column. */
  lemma End2EndBatchShape(tables: seq<Frame>, heldOut: string, t: nat, genOk: (string, nat) -> bool)
    requires TablesLoaded(tables) && t <= |tables|
    ensures (exists u :: 0 <= u < t && !tables[u].HasColumn(heldOut)) ==> End2EndBatches(tables, heldOut, t, genOk).Err?
    ensures End2EndBatches(tables, heldOut, t, genOk).Ok? ==>
      forall b: seq<Entry> :: b in End2EndBatches(tables, heldOut, t, genOk).value.0 ==>
        && |b| > 0 && b[0].dataset != heldOut
        && exists u :: 0 <= u < t && Uniform(b, LaCandidates[u])
  {
    forall u | 0 <= u < t && !tables[u].HasColumn(heldOut) ensures End2EndBatches(tables, heldOut, t, genOk).Err? {
      assert Loaded(tables[u]);
      assert CountBatches(tables[u], heldOut, LaCandidates[u], genOk).Err?;
    }
    if End2EndBatches(tables, heldOut, t, genOk).Ok? {
      End2EndMembers(tables, heldOut, t, genOk);
      forall b: seq<Entry> | b in End2EndBatches(tables, heldOut, t, genOk).value.0
        ensures |b| > 0 && b[0].dataset != heldOut && exists u :: 0 <= u < t && Uniform(b, LaCandidates[u])
      {
        assert BatchFromCount(tables, heldOut, t, b, genOk);
        var u :| 0 <= u < t && b in CountBatches(tables[u], heldOut, LaCandidates[u], genOk).value.0;
        assert Loaded(tables[u]);
      }
    }
  }

  /** The evidently intended property: every count contributes, so each
      dataset column other than the held-out one with a non-missing cell, in
      the table of any count, gets a batch carrying that count. */
  lemma End2EndBatchesCoverAllCounts(tables: seq<Frame>, heldOut: string, t: nat, j: nat, genOk: (string, nat) -> bool)
    requires TablesLoaded(tables) && End2EndBatches(tables, heldOut, |tables|, genOk).Ok?
    requires t < |tables| && j < |tables[t].columns| && tables[t].columns[j].name != heldOut
    requires HasEntries(tables[t].columns, |tables[t].labels|, j)
    ensures exists b: seq<Entry> :: && b in End2EndBatches(tables, heldOut, |tables|, genOk).value.0
                        && Uniform(b, LaCandidates[t]) && b[0].dataset == tables[t].columns[j].name
  {
    assert Loaded(tables[t]);
    CountBatchesComplete(tables[t], heldOut, LaCandidates[t], j, genOk);
    var b: seq<Entry> :| b in CountBatches(tables[t], heldOut, LaCandidates[t], genOk).value.0 && b[0].dataset == tables[t].columns[j].name;
    End2EndMembers(tables, heldOut, |tables|, genOk);
    assert BatchFromCount(tables, heldOut, |tables|, b, genOk);
  }
}
